=== FILE: README.md ===
# Graph database book recommendations, modelled in Dafny

This project models the core of a book recommender. The recommender keeps
users, books and ratings in a property graph:

- `User` nodes with a location, an age, a Louvain `community` label and
  embedding vectors
- `Book` nodes keyed by ISBN
- `RATED` edges that carry a rating
- `SIMILAR_TO` edges between users that carry a similarity

The repository's logic is mostly the text of its Cypher queries plus a few
small Python helpers. Each query becomes a pure Dafny function or a short
method over an immutable graph value (`Store.Graph`).

The graph algorithms (FastRP, Node2Vec, GraphSAGE, KNN, Louvain) run in the
database engine. The values they compute (vectors, similar pairs, community
labels) are inputs to the model. Where they write those values is modelled:
FastRP and Node2Vec write `embedding` on the projected users and on every
Book (their projections take all Book nodes); GraphSAGE writes
`graphsageFeature` and Louvain `community` on the projected users; KNN
writes `SIMILAR_TO` edges between projected users. GraphSAGE training
registers `my-sage-model` in the engine's model catalog, which the model
tracks like the projection catalog.

The modules follow the program's structure:

- `Common`, `Ordering`, `Cypher`, `Store`: shared vocabulary.
  - `Ordering.SelectTop` is the one model of `ORDER BY ... LIMIT`. It
    promises a ranked, duplicate-free top-N and says nothing about tie order.
  - `Cypher` holds `toInteger`, truncation toward zero, and exact sums as
    the basis of `avg`.
- `Upsert`, `Chunking`, `Loader`: the batch loader (`MERGE ... SET` as a
  last-write-wins upsert).
- `CsvFilters`: the two CSV cleaning scripts.
- `Features`: age imputation, embedding cleaning, KNN node selection,
  null-to-zero coercion and the embedding-length report.
- `Catalog`: the projection catalog, "drop if exists", and the driver
  scripts' step sequences.
- `Community`: the community recommendation rule, the community neighbours,
  the community graph data, and the Louvain input projection.
- `Similarity`: the `SIMILAR_TO` recommendation rule (average rating, then
  votes), the KNN neighbours, the two KNN graph-data queries, and the
  co-rating neighbours.
- `Dashboard`: the user picker, the rated-books listing, and the dispatch
  on the chosen algorithm in the applications.
- `Presentation`: the `build_graph` functions, as the list of drawing calls
  they issue, plus the colour tier and the edge width.
- `Evaluation`: precision, recall and true positives.

Many source files are near-verbatim copies of each other. Each rule is
defined once, and the copies are named in the table.

One consequence the model makes explicit: a recommended book is never one
the target rated, so every evaluation "hit" is a title shared by two
different books. With unique titles, precision and recall are always 0.

## Model

| member | source | states |
|---|---|---|
| Chunking.Chunks | Book_Recommendations_Code/load_data.py:65-73 | the batches concatenate back to the input in order; every batch but the last has exactly `size` rows; the last is non-empty; empty input gives no batches |
| Upsert.Apply | Book_Recommendations_Code/load_data.py:24-26 | after a batch, the keys are the old keys plus the batch's keys; entries whose key no row names are unchanged |
| Upsert.LastWith | Book_Recommendations_Code/load_data.py:24-26 | the row that decides a key is a batch row with that key; there is none exactly when no row has the key |
| Upsert.ApplyAt | Book_Recommendations_Code/load_data.py:24-26 | when a later SET overwrites an earlier one, each key's entry is the last row with that key merged into the entry from before the batch |
| Upsert.ApplyIdempotent | Book_Recommendations_Code/load_data.py:24-26 | re-applying the same batch changes nothing |
| Upsert.ApplyAppend | Book_Recommendations_Code/load_data.py:81-91 | applying two batches in turn equals applying their concatenation |
| Loader.AgeOf | Book_Recommendations_Code/load_data.py:26 | a blank Age cell stores a null age |
| Loader.AgeOfIsToInteger | Book_Recommendations_Code/load_data.py:26 | the CASE is redundant: the stored age is `toInteger(Age)` for every cell |
| Loader.MergeUser | Book_Recommendations_Code/load_data.py:25-26 | a re-loaded user gets the new location and age and keeps every other property; a new user has only these two |
| Loader.MergeBook | Book_Recommendations_Code/load_data.py:39-43 | title, author, `toInteger(year)` and publisher all come from the row |
| Loader.LoadUsers | Book_Recommendations_Code/load_data.py:17-28 | a users batch leaves one User per old id and per id of the batch, and no other; books, ratings and `SIMILAR_TO` edges are untouched |
| Loader.LoadBooks | Book_Recommendations_Code/load_data.py:31-45 | a books batch leaves one Book per old ISBN and per ISBN of the batch, and no other; users, ratings, `SIMILAR_TO` edges and book embeddings are untouched |
| Loader.LoadRatings | Book_Recommendations_Code/load_data.py:48-61 | a ratings batch adds RATED edges only for rows whose user and book both exist; nodes and `SIMILAR_TO` edges are untouched |
| Loader.LoadUsersAt | Book_Recommendations_Code/load_data.py:23-28 | after a users batch, at most one User per id; the last row with the id fixes location and age; the rest of an existing user is kept |
| Loader.LoadBooksAt | Book_Recommendations_Code/load_data.py:37-45 | after a books batch, the last row with an ISBN decides every property of that Book |
| Loader.LoadRatingsAt | Book_Recommendations_Code/load_data.py:54-61 | one RATED edge per (user, book); the last matched row's rating overwrites the old one |
| Loader.Matched | Book_Recommendations_Code/load_data.py:56-57 | a rating row goes further exactly when both its user and its book are already nodes |
| Loader.UnmatchedRowAddsNoEdge | Book_Recommendations_Code/load_data.py:56-57 | a rating row whose user or book is not a node adds no edge |
| Loader.MatchedRowAddsEdge | Book_Recommendations_Code/load_data.py:56-59 | a rating row whose endpoints exist always leaves an edge |
| Loader.LoadKeepsValid | Book_Recommendations_Code/load_data.py:17-61 | every loader batch keeps the graph valid: each RATED edge joins an existing user and an existing book |
| Loader.LoadAllIdempotent | Book_Recommendations_Code/load_data.py:81-91 | loading the same three tables twice leaves the state one load leaves |
| Loader.LoadAllKeepsEveryMatchableRating | Book_Recommendations_Code/load_data.py:81-91 | because users and books load first, every rating whose user and book occur in the input becomes an edge |
| Loader.RatingsBeforeNodesAreLost | Book_Recommendations_Code/load_data.py:81-91 | loading ratings before the nodes would lose them, so the order matters |
| Loader.UploadUsers | Book_Recommendations_Code/load_data.py:81-82 | loading in batches of 100 gives the graph that loading the whole table gives |
| Loader.UploadBooks | Book_Recommendations_Code/load_data.py:85-86 | as for users |
| Loader.UploadRatings | Book_Recommendations_Code/load_data.py:89-90 | as for users; a later batch sees the same nodes, so batching loses no edge |
| Loader.Upload | Book_Recommendations_Code/load_data.py:81-91 | the batched upload of users, then books, then ratings equals loading the three whole tables in that order |
| Cypher.Trunc | alg_knn.py:18 | `int(x)` truncates toward zero: the result lies within 1 of x, on the side of 0 |
| Cypher.ParseInt | Book_Recommendations_Code/load_data.py:26 | text converts exactly when it is an optionally negative run of digits, with the matching sign |
| Cypher.ToInteger | Book_Recommendations_Code/load_data.py:26 | a number is truncated; text converts when it parses; blank text is null |
| Cypher.ParseShowRoundTrip | Book_Recommendations_Code/load_data.py:26 | reading back the decimal text of any integer gives that integer |
| Cypher.SumOverBounds | alg_knn.py:12-16 | a sum of n values in [lo, hi] lies in [n*lo, n*hi] (the basis of every `avg` bound) |
| CsvFilters.Scan | Data_Cleaning/ratings_filtern.py:11-13 | a walk fails exactly when some row raises, and writes at most one line per row |
| CsvFilters.CleanPrefix | Data_Cleaning/ratings_filtern.py:11-13 | the rows before the first failing row are all good, and the row at the boundary fails |
| CsvFilters.ScanIsFilteredPrefix | Data_Cleaning/ratings_filtern.py:11-13 | what a walk writes is the kept rows of the clean prefix, in order; lines written before an exception stay |
| CsvFilters.ScanKeepsAll | Data_Cleaning/ratings_filtern.py:11-13 | over rows that are all good and all kept, a walk writes every row and does not fail |
| CsvFilters.FilterRatings | Data_Cleaning/ratings_filtern.py:11-13 | it fails exactly when a row has fewer than three fields; it writes only input rows whose third field is not the text "0"; with no failure it writes all of them (the header and "00" included) |
| CsvFilters.FilterRatingsIdempotent | Data_Cleaning/ratings_filtern.py:11-13 | filtering its own output writes the same rows again and does not fail |
| CsvFilters.LastIndex | user_books_filtern.py:17-19 | a duplicated header name reads the last column with that name |
| CsvFilters.CollectValid | user_books_filtern.py:13-20 | the valid sets are exactly the User-ID and ISBN values of the rating records; a missing column raises only when there is a record |
| CsvFilters.FilterTable | user_books_filtern.py:23-33 | the output starts with the input's header; it fails exactly when a record raises; each written line has one value per header field |
| CsvFilters.FilterTableKeeps | user_books_filtern.py:31-33 | with no failure, the lines after the header are exactly the records whose key is valid, in order, compared as exact text |
| CsvFilters.FilterUsersAndBooks | user_books_filtern.py:12-46 | the books file is written only when collecting and the users pass both succeed; each output is the table filter on its key column |
| Features.ImputedAge | alg_knn.py:12-18 | the truncated mean of the known ages, or 30 when no age is known |
| Features.ImputedAgeInRange | alg_knn.py:12-18 | when every known age lies in [lo, hi], so does the imputed age |
| Features.FixAges | alg_knn.py:21-24 | afterwards no user has a null age; users with a known age are unchanged; every missing age gets the same value; nothing else changes |
| Features.FixAgesIdempotent | alg_knn.py:21-24 | running the imputation again changes nothing |
| Features.CleanInvalidLeavesNoEmpty | alg_knn.py:82-88 | afterwards no user holds an empty vector; non-empty vectors and every other property are untouched; a second pass changes nothing (the pass is defined but never called) |
| Features.CleanGraphsage | alg_knn.py:90-103 | a user keeps its vector exactly when it has no null element and length at least 5 (defined but never called; `main` cleans with `clean_embeddings_strict` only, alg_knn.py:195) |
| Features.CleanGraphsageLeavesUsable | alg_knn.py:90-103 | afterwards every present vector is usable, and a second pass changes nothing |
| Features.CleanUser | alg_knn.py:124-136 | the raw vector is unchanged; a copyable raw vector replaces the cleaned one; a cleaned vector shorter than 5 is removed |
| Features.CleanStrict | alg_knn.py:122-136 | for every user: `graphsageFeature` is never changed; the copy happens exactly when the raw vector is present, non-empty and null-free; any present `cleanedFeature` has length at least 5, a prior one included |
| Features.CleanStrictIdempotent | alg_knn.py:122-136 | strict cleaning twice is strict cleaning once |
| Features.KnnNodesAfterCleaning | alg_knn.py:195-196 | after strict cleaning, the projection holds every user with a cleaned vector, and every user whose raw vector is usable |
| Features.Coerce | alg_knn_wo.py:157 | a null element reads as 0.0; a missing embedding reads as four zeros; other elements keep their value |
| Features.CoerceStable | alg_knn_wo.py:157 | coercion is idempotent, and leaves a null-free vector as it is |
| Features.CoercedProjection | alg_knn_wo.py:151-162 | every user is a node, and only an empty embedding gives an empty vector |
| Features.EmbeddingLengths | test_knn.py:64-70 | one row per distinct embedding size, each with a positive user count, sizes ascending with the null size last |
| Catalog.DropIfExists | alg_knn_wo.py:20-32 | afterwards the name is absent and nothing else changes; the answer is the dropped name, or the "not present" answer when nothing was dropped |
| Catalog.DropTwice | Book_Recommendations_Code/Alg_KNN_FastRP.py:10-25 | a second drop is a no-op that reports the name as absent |
| Catalog.Exec | algorithm_knn/alg_knn_graphsage.py:42-55 | a native projection raises exactly when its name is taken or a node label, relationship type or property key it names (`User`, `Book`, `RATED`, `DUMMY`, `age`, `embedding`) occurs nowhere in the database, otherwise it holds its node query; every algorithm step raises when its projection is missing; training raises when `my-sage-model` exists and registers it (alg_knn.py:57-70), the GraphSAGE write raises when it is missing and sets `graphsageFeature` on the projected users (alg_knn.py:72-80); KNN raises when a projected user lacks the compared property and otherwise adds `SIMILAR_TO` edges among them (alg_knn.py:162-176); FastRP/Node2Vec write `embedding` on the projected users and every book, Louvain `community` on the projected users; other steps never raise (DUMMY projection: test_knn.py:23-38, algorithm_knn/test_knn.py:26-40, Book_Recommendations_Code/Alg_KNN_FastRP.py:79-96) |
| Catalog.LabelsPresent | alg_knn.py:41-53 | with relationships joining existing nodes, one rating means both `User` and `Book` occur, so a projection naming them finds them |
| Catalog.WriteEmbeddings | Book_Recommendations_Code/Alg_KNN_FastRP.py:37-67 | FastRP/Node2Vec set `embedding` on each projected user and each book the engine computed a vector for, and change nothing else (also algorithm_knn/alg_knn_node2vec.py:29-54) |
| Catalog.RunAppend | alg_knn.py:179-199 | running two step lists in turn is running their concatenation, stopping at the first step that raises (the definition of `Run`) |
| Catalog.RunCommittedAgrees | alg_knn.py:179-199 | each step is its own `execute_write`: a script fails exactly when `Run` has no result, and a script that does not fail leaves `Run`'s state |
| Catalog.RunCommittedAppend | alg_knn.py:179-199 | a failing first part ends the script with what it committed; otherwise the second part starts from that state |
| Catalog.WriteProperty | alg_knn.py:72-80 | a user-property write changes exactly the projected users the engine computed a value for, and nothing else in the graph |
| Catalog.WriteSimilar | alg_knn.py:162-176 | KNN keeps users, books, ratings and old edges, and adds an edge with its similarity exactly for each found pair of different projected users |
| Catalog.WriteSimilarKeepsValid | alg_knn.py:162-176 | the KNN write keeps the graph well formed, and no new edge is a self-loop |
| Catalog.ProjectAfterDrop | algorithm_knn/alg_knn_graphsage.py:28-55 | a projection right after a drop of the same name raises exactly when a type or key it names is absent, and otherwise holds exactly its node query (`Nodes`: all users, or the users with a usable cleaned vector) |
| Catalog.Nodes | alg_knn.py:154-158 | a node query selects users only; the plain `User` label selects all of them |
| Catalog.ProjectTakenNameFails | algorithm_knn/alg_knn_graphsage.py:42-55 | without the drop, projecting a taken name raises |
| Catalog.SageStepsOutcome | algorithm_knn/test_knn.py:86-96 | the graphsage preparation succeeds exactly when some RATED edge, some user and some book exist and `my-sage-model` is not yet trained; the model is then trained, the graph is the imputed graph with the engine's `graphsageFeature` on every user, `sageGraph` holds every user, and every user has an age |
| Catalog.AlgKnnMainOutcome | alg_knn.py:179-199 | `main` succeeds exactly when some RATED edge, some user and some book exist and `my-sage-model` is not yet trained; the graph is then imputed, given GraphSAGE vectors on every user, strictly cleaned, and given KNN's edges among the cleaned users; `userGraph` holds exactly the cleaned users |
| Catalog.AlgKnnMainRerunFails | alg_knn.py:57-70 | nothing drops `my-sage-model`, so after one successful `main` a second run raises at training (algorithm_knn/test_knn.py:136-137 notes the manual drop) |
| Catalog.AlgKnnMainProjectsEveryUser | alg_knn.py:57-80 | when GraphSAGE writes a null-free 128-element vector for every user, a successful `main` projects every user for KNN (alg_knn.py:138-159) |
| Catalog.AfterSageOutcome | alg_knn.py:188-199 | once `sageGraph` exists, the rest of `main` raises exactly when `my-sage-model` already exists; the cleaned users all carry the compared vector, so KNN never raises; the graph ends with the GraphSAGE vectors on the projected users, cleaned, and KNN's edges among the users with a usable cleaned vector |
| Catalog.CleanedUsersReady | alg_knn.py:195-196 | after imputation, the GraphSAGE write and cleaning, every user in the KNN projection has an age and a vector of at least 5 elements |
| Catalog.Node2VecOutcome | algorithm_knn/alg_knn_node2vec.py:131-157 | the pipeline needs no DUMMY relationship: it succeeds exactly when some RATED edge, some user and some book exist, and ends with `userGraph` over every user, the engine's `embedding` on every user and book, and KNN's edges among the users |
| Catalog.FastRpOutcome | Book_Recommendations_Code/Alg_KNN_FastRP.py:140-158 | the pipeline succeeds exactly when some RATED edge, some user, some book and a hand-inserted DUMMY relationship exist; it then ends with `userGraph` over every user, the engine's `embedding` on every user and book, and KNN's edges among the users |
| Catalog.TestKnnOutcome | test_knn.py:72-86 | the DUMMY projection and KNN succeed exactly when a DUMMY relationship exists and there are users, every one carrying an `embedding` (KNN raises on a projected user without one); KNN's edges among all users are then added and nothing else in the graph changes |
| Catalog.EmbedStepsOutcome | Book_Recommendations_Code/Alg_KNN_FastRP.py:28-70 | the native `User`/`Book`/`RATED` projection and FastRP succeed exactly when some RATED edge, some user and some book exist, and then write the engine's vectors to `embedding` on every user and book |
| Catalog.WrittenEmbeddings | Book_Recommendations_Code/Alg_KNN_FastRP.py:53-70 | when the engine computes a vector for every user, every user afterwards has that `embedding`, so some user has one exactly when there are users (also algorithm_knn/alg_knn_node2vec.py:48-55) |
| Catalog.KnnTailOutcome | Book_Recommendations_Code/Alg_KNN_FastRP.py:73-116 | drop, DUMMY projection and KNN succeed exactly when a DUMMY relationship exists and there are users, every one carrying an `embedding`; afterwards `userGraph` holds every user and KNN's edges among them are added |
| Catalog.FixAgesKeepsEmbeddings | alg_knn.py:10-24 | imputation keeps each user's `embedding`, so some (every) user has one afterwards exactly when some (every) user had one before; some user has an age exactly when there are users |
| Catalog.EmbeddingSteps | algorithm_knn/test_knn.py:75-105 | only "fastrp", "graphsage" and "node2vec" run an embedding step; "graphsage" starts with age imputation and writes no `embedding` |
| Catalog.DispatchOutcome | algorithm_knn/test_knn.py:75-116 | "fastrp" and "node2vec" succeed exactly when RATED edges, users, books and a DUMMY relationship exist; "graphsage" additionally needs `my-sage-model` untrained and an `embedding` on every user left by an earlier run, since it writes only `graphsageFeature`; any other name succeeds exactly when DUMMY exists and every user, of at least one, has an `embedding`; on success `userGraph` holds every user and the graph is the embedding steps' writes plus KNN's edges |
| Catalog.DispatchFailureKeepsEmbeddingSteps | algorithm_knn/test_knn.py:75-116 | when the embedding steps succeed but the DUMMY projection raises, the script fails and leaves the embedding steps' writes with `userGraph` dropped; when the projection succeeds but some user has no `embedding`, KNN raises and `userGraph` stays projected |
| Catalog.FastRpWithoutDummyKeepsEmbeddings | algorithm_knn/test_knn.py:77-114 | `run_pipeline("fastrp")` on a database with a rating but no DUMMY relationship fails after FastRP has written the `embedding` of every user and book, and those writes stay |
| Catalog.CommunityDetectionRerunFails | Book_Recommendations_Code/Alg_Community_Detection.py:15-30 | the projection has no drop: one run succeeds and a second raises |
| Catalog.CommunityDetectionOutcome | Book_Recommendations_Code/Alg_Community_Detection.py:36-60 | Louvain runs on a projection of all users: every user the engine labelled carries its `community`, and nothing else changes |
| Catalog.KnnWriteOptional | alg_knn_wo.py:70-93 | a cutoff is sent exactly when `similarity_cutoff` is truthy, so None and 0 both mean none (algorithm_knn/alg_knn_node2vec.py:157 calls it with topK 10 and cutoff 0.75) |
| Catalog.KnnWriteVariants | Book_Recommendations_Code/Alg_KNN_FastRP.py:99-116 | the always-cutoff variant (0.8 unless given; line 158 calls it with topK 20) sends the same request on `userGraph` as the optional-cutoff variant (alg_knn_wo.py:70-93) exactly when the cutoff is not 0; at 0 it sends `similarityCutoff: 0.0` where the other sends none |
| Community.Candidates | recommender/recommender_community.py:26 | one row per group that has a vote, and each row's `recommendCount` is the number of qualifying ratings in its group, which is positive |
| Community.Recommend | recommender/recommender_community.py:19-28 | at most `limit` rows (3 here, 10 in recommendation_old.py:39-67, 3 in visualization/recommender_community.py:9-24); counts exact and positive; groups distinct; counts non-increasing; no omitted group outranks a returned one; below the limit, every qualifying group is present |
| Community.NoCommunityNoVotes | recommender/recommender_community.py:20-23 | a target that is missing, has no community, or is alone in it gets nothing |
| Community.VotesPartition | recommender/recommender_community.py:19-26 | the groups partition the votes: each vote is in the group of its own book, no vote is in two groups, and groups hold only votes |
| Community.GroupsAndBooks | recommendation_old.py:61-63 | grouping by ISBN and title puts two votes together exactly when they are about the same book; grouping by title and author, exactly when the books share both |
| Community.MembersShared | recommender/recommender_community.py:43-46 | membership is mutual: a member of the target's community sees the target and the other members as its own |
| Community.SimilarMembers | recommender/recommender_community.py:42-52 | min(3, members) distinct other members of the community, with their properties, sorted by id |
| Community.CommunityRatings | recommender/recommender_community.py:65-70 | exactly the ratings of the users in the target's community, the target's own included (also visualization/recommender_community.py:26-33) |
| Community.VotesInGraphData | recommender/recommender_community.py:65-70 | every vote appears among the community's graph data |
| Community.SimilarityEdges | Book_Recommendations_Code/Alg_Community_Detection.py:24-27 | an edge u1 to u2 exists exactly when u1 and u2 differ and share a liked book; its weight is the number of such books |
| Community.SharedLikedSymmetric | Book_Recommendations_Code/Alg_Community_Detection.py:25-26 | the shared liked books of two users do not depend on their order, and a user shares with themself exactly the books they liked |
| Community.SimilarityEdgesSymmetric | Book_Recommendations_Code/Alg_Community_Detection.py:25-27 | the edge relation is symmetric, with equal weights both ways |
| Similarity.Neighbours | Book_Recommendations_Code/recommender_knn.py:19 | the users the target reaches by one `SIMILAR_TO` edge |
| Similarity.Voters | Book_Recommendations_Code/recommender_knn.py:18-21 | the neighbours who rated a book that the target has not rated |
| Similarity.Recommendable | Book_Recommendations_Code/recommender_knn.py:18-20 | a book is recommendable exactly when some neighbour rated it and the target did not |
| Similarity.RowFor | Book_Recommendations_Code/recommender_knn.py:21 | `votes` is the number of neighbour ratings; `avgRating` times `votes` is their sum |
| Similarity.Candidates | Book_Recommendations_Code/recommender_knn.py:21 | one row per recommendable book, and only those |
| Similarity.ByAvgThenVotesIsOutranks | Book_Recommendations_Code/recommender_knn.py:22 | the sort key `avgRating DESC, votes DESC` is the relation `Outranks` |
| Similarity.Recommend | Book_Recommendations_Code/recommender_knn.py:17-25 | min(limit, recommendable) rows, each a recommendable book with its exact votes and average; distinct books; ordered by average, then votes; no omitted book outranks a returned one; below the limit, all are present (copies: visualization/recommender_knn.py:9-21, alg_knn_wo.py:99-109, algorithm_knn/alg_knn_node2vec.py:92-102, Book_Recommendations_Code/Alg_KNN_FastRP.py:119-136, test_knn.py:52-62, algorithm_knn/test_knn.py:55-65) |
| Similarity.NoNeighboursNoRecommendations | Book_Recommendations_Code/recommender_knn.py:19 | a target without `SIMILAR_TO` edges gets nothing |
| Similarity.AverageOrderIsCrossMultiplied | Book_Recommendations_Code/recommender_knn.py:22 | comparing two averages is comparing the cross-multiplied sums and counts |
| Similarity.AverageWithinRatings | Book_Recommendations_Code/recommender_knn.py:21 | when every rating lies in [lo, hi], so does every average |
| Similarity.SimilarUsers | Book_Recommendations_Code/recommender_knn.py:31-45 | min(3, neighbours) distinct neighbours, never the target, with their properties |
| Similarity.RatingsOf | visualization/recommender_knn.py:50-54 | the (book, rating) pairs of a user's RATED edges |
| Similarity.OptionalRatings | visualization/recommender_knn.py:50-54 | an OPTIONAL MATCH gives one all-null row exactly when the user rated nothing |
| Similarity.SimPart | Book_Recommendations_Code/recommender_knn.py:57-77 | the neighbour part is never empty; it is null exactly when the target has no neighbour |
| Similarity.NeighbourRowsSound | Book_Recommendations_Code/recommender_knn.py:57-77 | each neighbour row's book is one the neighbour rated, with that rating |
| Similarity.NeighbourRowsComplete | Book_Recommendations_Code/recommender_knn.py:57-77 | every neighbour, and each of its ratings, has a row |
| Similarity.GraphData | Book_Recommendations_Code/recommender_knn.py:48-79 | no record for an unknown target; otherwise at least one record, all about the target (copy: visualization/recommender_knn.py:23-46) |
| Similarity.GraphDataSound | Book_Recommendations_Code/recommender_knn.py:57-77 | each record's similar user is a neighbour with that similarity, and each book was rated by its owner as the record says |
| Similarity.GraphDataHasOwnRating | Book_Recommendations_Code/recommender_knn.py:57-77 | every rating of the target appears in a record |
| Similarity.GraphDataHasNeighbour | Book_Recommendations_Code/recommender_knn.py:57-77 | every neighbour appears in a record |
| Similarity.GraphDataHasNeighbourRating | Book_Recommendations_Code/recommender_knn.py:57-77 | every rating of every neighbour appears in a record |
| Similarity.GraphDataA | visualization/recommender_knn.py:49-56 | only neighbours appear; book and rating are null exactly when the neighbour rated nothing; otherwise they are a real rating; every neighbour appears |
| Similarity.SharedBooks | ui.py:73-79 | the books both users rated |
| Similarity.CoRatersSymmetric | ui.py:73-79 | co-rating is mutual, and both users count the same shared books |
| Similarity.CoRatingRows | ui.py:73-79 | ranked co-rater ids become rows in the same order, with distinct ids and non-increasing shared counts |
| Similarity.CoRatingUsers | ui.py:72-83 | min(3, co-raters) distinct co-raters with their properties, most shared books first; no omitted co-rater shares more |
| Dashboard.RankedPrecedes | recommendation_old.py:16 | the sort key orders rows by community (nulls last), then by user id |
| Dashboard.LargeCommunityUsers | ui.py:17-28 | every user of a group larger than one appears exactly once, with its properties, ordered by (communityId, userId) (copies: recommendation_old.py:8-30, visualization/streamlit_app.py:17-32, Book_Recommendations_Code/streamlit_app.py:16-31) |
| Dashboard.OfferedUsersHaveCompany | Book_Recommendations_Code/streamlit_app.py:22-25 | a user is offered exactly when another user shares its community label, null included |
| Dashboard.MembersAreGroupMates | recommendation_old.py:9-17 | for a labelled target, the community rule's members are its picker group without itself, so they exist exactly when the target is offered; an unlabelled target has none, though the picker may offer it |
| Dashboard.RatedIsbns | ui.py:31-39 | the books of the target's RATED edges |
| Dashboard.UserRatedBooks | ui.py:31-39 | one row per RATED edge of the target, with the book's title, author and rating, highest rating first (copies: visualization/streamlit_app.py:35-48, Book_Recommendations_Code/streamlit_app.py:34-47) |
| Dashboard.SimilarUsersFor | visualization/streamlit_app.py:50-87 | distinct users, never the target; "KNN" gives min(3, neighbours) neighbours; "Community" gives min(3, members) members sorted by id; anything else gives min(3, co-raters) co-raters, most shared books first, none omitted that shares more |
| Dashboard.RecommendationsFor | ui.py:42-69 | "Community" gives the community rule with LIMIT 3: exact positive counts, distinct groups, counts non-increasing, no omitted group outranks a returned one, and below 3 rows every group is present; any other name gives no list |
| Presentation.TierMonotone | recommender/recommender_community.py:101 | a higher rating never gets a lower tier |
| Presentation.TierBoundaries | recommender/recommender_community.py:101 | a rating of 4 or less is red, 5 to 7 yellow, 8 or more green: the tier changes exactly between 4 and 5 and between 7 and 8 (also ui.py:117, visualization/streamlit_app.py:116, 164 and 178, Book_Recommendations_Code/recommender_knn.py:135 and 149) |
| Presentation.EdgeWidthRange | Book_Recommendations_Code/recommender_knn.py:124-127 | a similarity in [0, 1] gets a width in [1, 10] |
| Presentation.EdgeWidthInverse | Book_Recommendations_Code/recommender_knn.py:124-127 | the width determines the similarity, and a more similar pair gets a wider edge |
| Presentation.Build | recommender/recommender_community.py:75-115 | the drawing calls of a record list exist exactly when no record raises |
| Presentation.BuildMembers | recommender/recommender_community.py:90-112 | each call of the list is a call of one record, and conversely |
| Presentation.BuildCount | recommender/recommender_community.py:90-112 | one call of a kind per record that qualifies gives one per qualifying record overall |
| Presentation.RatingDraws | recommender/recommender_community.py:97-112 | one user node, one coloured book node, one rating edge |
| Presentation.CommunityDraws | recommender/recommender_community.py:90-112 | a record without user or book is skipped; a missing rating raises; otherwise one coloured book and one rating edge |
| Presentation.CommunityGraphEdges | recommender/recommender_community.py:90-112 | one edge per kept record (also visualization/streamlit_app.py:105-121) |
| Presentation.CommunityGraphColours | recommender/recommender_community.py:101 | every book drawn is coloured by the rating of a kept record about that book |
| Presentation.CommunityGraphOfGraphData | recommender/recommender_community.py:58-115 | on the records of the community graph data, nothing raises and every record draws an edge |
| Presentation.StrictAgreesWhenNothingSkipped | ui.py:106-123 | the ui.py version raises as soon as a record lacks a user or book, and otherwise draws what the community view draws |
| Presentation.StrictDraws | ui.py:108-123 | a record draws exactly when it names a user and a book and has a rating; otherwise the loop raises |
| Presentation.BookDraws | visualization/streamlit_app.py:160-175 | a null rating raises; otherwise the book's edges start at its owner |
| Presentation.SimilarityDraws | visualization/streamlit_app.py:150-158 | a similarity edge only when the target is present too, of width 1 + 9s; a null similarity then raises |
| Presentation.KnnDrawsUserEdges | Book_Recommendations_Code/recommender_knn.py:115-150 | a record draws one user-user edge exactly when it names both users (`KnnDraws`: a record raises exactly when a similarity or rating that the loop reads is null) |
| Presentation.KnnGraphUserEdges | Book_Recommendations_Code/recommender_knn.py:82-159 | one similarity edge per record that names both users |
| Presentation.KnnBookEdgesOwned | visualization/streamlit_app.py:160-175 | a book edge starts at a user its record names, and that user rated the book in that record |
| Presentation.KnnUserEdge | visualization/streamlit_app.py:150-158 | a user-user edge is the record's similarity edge, with the scaled width |
| Presentation.KnnEdgeWidths | Book_Recommendations_Code/recommender_knn.py:124-127 | with similarities in [0, 1], every similarity edge has width in [1, 10] |
| Presentation.KnnGraphOfGraphData | Book_Recommendations_Code/recommender_knn.py:48-159 | on the records of the KNN graph data, nothing raises |
| Presentation.BuildGraph | visualization/streamlit_app.py:89-188 | "Community" and "KNN" select a view; any other name raises |
| Evaluation.Score | alg_knn_wo.py:122-124 | true positives are the titles in both lists; precision and recall lie in [0, 1]; each is 0 exactly when its list is empty or nothing matched |
| Evaluation.PrecisionOne | alg_knn_wo.py:123 | precision 1 means every recommended title is in the ground truth; the converse holds for a list without repeats |
| Evaluation.RecallOne | alg_knn_wo.py:124 | recall 1 means every ground-truth title was recommended; the converse holds for a list without repeats |
| Evaluation.GroundTruth | alg_knn_wo.py:117-121 | one title per RATED edge of the target, and exactly the titles of the target's rated books |
| Evaluation.RecommendedTitles | alg_knn_wo.py:116-122 | the titles are those of the top-ranked rows, in order: min(limit, recommendable) distinct unrated books, best first, none omitted that outranks one returned |
| Evaluation.HitsAreSharedTitles | alg_knn_wo.py:124 | a title in both lists belongs to two different books, one rated and one not; with unique titles there is no hit |
| Evaluation.Evaluate | alg_knn_wo.py:115-132 | the scores are `Score` of the titles of the top-ranked rows against one title per rated book; each in [0, 1]; every hit is a title shared by two different books; with unique titles everything is 0 (copy: algorithm_knn/alg_knn_node2vec.py:108-125) |
| Ordering.SelectTop | recommender/recommender_community.py:27-28 | `ORDER BY ... LIMIT n`: min(n, candidates) distinct candidates, ranked, none omitted that outranks a returned one |

## Left out

- Database plumbing is not modelled: drivers, sessions, transactions, credentials, and reading or writing CSV and HTML files. Rows and the graph are values.
- The engine's graph algorithms are not computed: the vectors of FastRP, Node2Vec and GraphSAGE, the pairs and similarities KNN finds, and Louvain's labels are inputs. The model states where each write lands and when each call raises.
- Catalog.WriteSimilar: a pair KNN finds again keeps one edge with the new similarity; in the database a rerun adds a parallel edge (see Store.Graph).
- Floating point is not modelled. Similarities, averages, precision and recall are exact reals.
- The rendering is not modelled: Streamlit widgets and pyvis. The model returns the sequence of `add_node`/`add_edge` calls and does not model pyvis dropping a repeated node or edge.
- The broken call sites are not modelled:
  - alg_knn_wo.py:150 calls `delete_existing_graph`, which that file does not define.
  - visualization/streamlit_app.py:231 passes three arguments to the two-argument `build_graph`.
  - The non-community branch of ui.py:55-66 uses a variable after its `WITH` dropped it.
- The dead code in Book_Recommendations_Code/load_data.py:95-120 and alg_knn_wo.py:184-437 is not modelled.
- Catalog.Exec: the only model-catalog operations are training (raises when the name is taken) and the GraphSAGE write (raises when it is missing); `gds.beta.model.drop`, which the scripts only mention in a note, is not modelled.
- Catalog.WriteEmbeddings: the book write takes the books present at the write, not at the projection; no script step between the two changes the books.
- algorithm_knn/alg_knn_fastrp.py and data.py are not part of this model.
- Store.Graph: at most one `SIMILAR_TO` edge per ordered pair of users, because the edges are a map. One `gds.knn.write` run writes at most one per pair, but nothing deletes old edges, so each rerun adds parallel edges. These would count extra votes and give extra graph-data rows. Accumulation across runs is not modelled.
- Catalog.State: whether a `DUMMY` relationship exists is an input flag, since the scripts only describe inserting one by hand (test_knn.py:98-102). A relationship type or property key that outlives its last relationship or property is not modelled. The engine is assumed to write a vector for every projected user (`Catalog.Covers`).
- Cypher.ParseInt: `toInteger` also accepts text with a decimal point, an exponent, a leading `+` or surrounding whitespace. The model reads all of these as null. Ages arrive as numbers, not text.
- Loader.UserRow: `User-ID` and `Book-Rating` arrive as integers. Their `toInteger` conversion is not modelled.
- Community.SimilarMembers: `LIMIT` comes before `ORDER BY` in the query, so which three members are chosen is up to the engine. The contract leaves the choice open, although the model's body happens to take the three smallest ids.
- Similarity.CoRatingUsers: the model assumes that the `ORDER BY` on the `WITH` carries through to the result rows.
- Presentation.KnnDraws: a user or book with no properties would be falsy for Python's `or`. The model treats every present node as truthy.
- Evaluation.Evaluate: the Python `/` is modelled as exact division, not as a float.

=== FILE: catalog.dfy ===
/** The graph engine's catalog of named in-memory projections, and the
    driver scripts that drop, project and run algorithms in sequence.

    The catalog maps a projection's name to the User nodes it holds. The
    engine refuses to project under a name that is already taken and
    refuses to run an algorithm on a name that is not there; either refusal
    raises and ends the script. The algorithms write back to the nodes they
    ran on: FastRP and Node2Vec an `embedding` on the projected users and on
    every book, GraphSAGE a `graphsageFeature` and Louvain a `community` on
    the projected users, and KNN `SIMILAR_TO` edges between projected users.
    Which values they compute is the engine's business and is an input
    here; where they are written is modelled. */
module Catalog {
  import opened Common
  import opened Store
  import Features

  type Projections = map<string, set<int>>

  const UserGraph := "userGraph"
  const SageGraph := "sageGraph"
  const SimilarityGraph := "userSimilarityGraph"

  /** The drop statement's answer when the name is absent: the text
      "Graph was not present" in most scripts, null in the top-level
      test_knn.py. */
  const NotPresent: Option<string> := Some("Graph was not present")

  datatype Dropped = Dropped(cat: Projections, reported: Option<string>)

  /** `gds.graph.exists` + `apoc.do.when(exists, drop, report absent)`:
      afterwards the name is absent; the answer is the dropped name, or
      `absent` when there was nothing to drop. */
  function DropIfExists(cat: Projections, name: string, absent: Option<string>): (d: Dropped)
    ensures name !in d.cat
    ensures forall n :: n != name ==> (n in d.cat <==> n in cat)
    ensures forall n :: n in d.cat ==> d.cat[n] == cat[n]
    ensures name in cat ==> d.reported == Some(name)
    ensures name !in cat ==> d.reported == absent && d.cat == cat
  {
    if name in cat then Dropped(cat - {name}, Some(name)) else Dropped(cat, absent)
  }

  /** Dropping twice is dropping once; the second drop finds nothing. */
  lemma DropTwice(cat: Projections, name: string, absent: Option<string>)
    ensures var once := DropIfExists(cat, name, absent);
      DropIfExists(once.cat, name, absent) == Dropped(once.cat, absent)
  {
  }

  /** The engine's model catalog holds trained GraphSAGE models by name.
      No script removes one: a note in algorithm_knn/test_knn.py asks for
      `gds.beta.model.drop('my-sage-model')` by hand. */
  type Models = set<string>

  const SageModel := "my-sage-model"

  /** The pipeline state: the stored graph, the projection catalog, whether
      the database holds a `DUMMY` relationship, and the model catalog. No
      script creates a `DUMMY` relationship: the scripts' own notes ask for
      it to be inserted by hand beforehand. */
  datatype State = State(g: Graph, cat: Projections, dummy: bool, models: Models)

  /** Which User nodes a projection takes. */
  datatype NodeQuery =
    | AllUsers      // a native projection over User (and Book), or `MATCH (u:User) RETURN id(u)`
    | CleanedUsers  // `WHERE u.cleanedFeature IS NOT NULL AND size(u.cleanedFeature) > 0`

  /** What a native projection names and the database must already hold:
      the engine raises on a node label, a relationship type or a node
      property key that does not occur in the database. A Cypher projection
      names none. */
  datatype Requirement =
    | UserLabel     // node label `User`
    | BookLabel     // node label `Book`
    | RatedType     // relationship type `RATED`
    | DummyType     // relationship type `DUMMY`
    | AgeKey        // node property `age`
    | EmbeddingKey  // node property `embedding`

  /** Some user carries an `embedding`. */
  predicate HasEmbedding(g: Graph) {
    exists u :: u in g.users && g.users[u].embedding.Some?
  }

  /** Every user carries an `embedding`. */
  predicate AllEmbedded(g: Graph) {
    forall u :: u in g.users ==> g.users[u].embedding.Some?
  }

  /** The property key `embedding` occurs on some node, user or book. */
  predicate EmbeddingKeyExists(g: Graph) {
    HasEmbedding(g) || g.bookEmbedding.Keys != {}
  }

  predicate HasAge(g: Graph) {
    exists u :: u in g.users && g.users[u].age.Some?
  }

  predicate Met(s: State, q: Requirement) {
    match q
    case UserLabel => s.g.users.Keys != {}
    case BookLabel => s.g.books.Keys != {}
    case RatedType => s.g.rated != map[]
    case DummyType => s.dummy
    case AgeKey => HasAge(s.g)
    case EmbeddingKey => EmbeddingKeyExists(s.g)
  }

  predicate AllMet(s: State, needs: set<Requirement>) {
    forall q :: q in needs ==> Met(s, q)
  }

  /** In a database whose relationships join existing nodes, one rating is
      enough for both labels to occur. */
  lemma LabelsPresent(g: Graph)
    requires Valid(g) && g.rated != map[]
    ensures g.users.Keys != {} && g.books.Keys != {}
  {
    var k :| k in g.rated;
    assert k.0 in g.users.Keys && k.1 in g.books.Keys;
  }

  /** The node property KNN compares: `embedding`, or the cleaned vector the
      Cypher projection of alg_knn.py exposes as `graphsageFeature`. */
  datatype KnnFeature = EmbeddingFeature | CleanedFeature

  predicate Carries(u: User, f: KnnFeature) {
    match f
    case EmbeddingFeature => u.embedding.Some?
    case CleanedFeature => u.cleanedFeature.Some?
  }

  /** KNN raises on a projected node without a value for its `nodeProperties`. */
  predicate AllCarry(g: Graph, nodes: set<int>, f: KnnFeature) {
    forall u :: u in nodes && u in g.users ==> Carries(g.users[u], f)
  }

  /** What FastRP or Node2Vec computes: a vector per user and per book. */
  datatype Vectors = Vectors(users: map<int, Vec>, books: map<string, Vec>)

  datatype Step =
    | FixAges                                      // check_and_fix_features
    | CleanStrict                                  // clean_embeddings_strict
    | Drop(name: string)                           // delete_existing_graph and its variants
    | Project(name: string, nodes: NodeQuery, needs: set<Requirement>)
    | Embed(name: string, out: Vectors)            // FastRP or Node2Vec writing `embedding`
    | Train(name: string, model: string)           // gds.beta.graphSage.train: a model, no graph write
    | SageWrite(name: string, model: string, features: map<int, Vec>)  // gds.beta.graphSage.write
    | KnnWrite(name: string, feature: KnnFeature, edges: map<(int, int), real>)  // gds.knn.write
    | CommunityWrite(name: string, labels: map<int, int>)   // gds.louvain.write writing `community`

  function Nodes(g: Graph, q: NodeQuery): (s: set<int>)
    ensures s <= g.users.Keys
    ensures q.AllUsers? ==> s == g.users.Keys
  {
    match q
    case AllUsers => g.users.Keys
    case CleanedUsers => Features.KnnNodes(g)
  }

  /** A user-property write: each projected user the engine computed a
      value for gets it; nothing else changes. */
  function WriteProperty<V>(g: Graph, nodes: set<int>, out: map<int, V>, put: (User, V) -> User): (h: Graph)
    ensures h.users.Keys == g.users.Keys
    ensures h.books == g.books && h.rated == g.rated && h.similar == g.similar && h.bookEmbedding == g.bookEmbedding
    ensures forall u :: u in g.users && u in nodes && u in out ==> h.users[u] == put(g.users[u], out[u])
    ensures forall u :: u in g.users && (u !in nodes || u !in out) ==> h.users[u] == g.users[u]
  {
    g.(users := map u | u in g.users :: if u in nodes && u in out then put(g.users[u], out[u]) else g.users[u])
  }

  function PutEmbedding(u: User, v: Vec): User { u.(embedding := Some(v)) }
  function PutSageFeature(u: User, v: Vec): User { u.(graphsageFeature := Some(v)) }
  function PutCommunity(u: User, c: int): User { u.(community := Some(c)) }

  /** `writeProperty: 'embedding'` of FastRP and Node2Vec: on the projected
      users and on every book, since their projections take all Book nodes
      and no step between projection and write changes the books. */
  function WriteEmbeddings(g: Graph, nodes: set<int>, out: Vectors): (h: Graph)
    ensures h.users.Keys == g.users.Keys
    ensures h.books == g.books && h.rated == g.rated && h.similar == g.similar
    ensures forall u :: u in g.users ==>
      h.users[u] == if u in nodes && u in out.users then g.users[u].(embedding := Some(out.users[u])) else g.users[u]
    ensures forall b :: b in h.bookEmbedding <==> b in g.bookEmbedding || (b in g.books && b in out.books)
    ensures forall b :: b in h.bookEmbedding ==>
      h.bookEmbedding[b] == if b in g.books && b in out.books then out.books[b] else g.bookEmbedding[b]
  {
    var w := WriteProperty(g, nodes, out.users, PutEmbedding);
    w.(bookEmbedding := g.bookEmbedding + map b | b in out.books && b in g.books :: out.books[b])
  }

  /** `writeProperty: 'graphsageFeature'` */
  function WriteSageFeatures(g: Graph, nodes: set<int>, out: map<int, Vec>): Graph {
    WriteProperty(g, nodes, out, PutSageFeature)
  }

  /** `writeProperty: 'community'` */
  function WriteCommunities(g: Graph, nodes: set<int>, labels: map<int, int>): Graph {
    WriteProperty(g, nodes, labels, PutCommunity)
  }

  /** KNN found pair `p`: two different projected users. */
  predicate Found(g: Graph, nodes: set<int>, edges: map<(int, int), real>, p: (int, int)) {
    p in edges && p.0 in nodes && p.1 in nodes && p.0 in g.users && p.1 in g.users && p.0 != p.1
  }

  /** `gds.knn.write`: a `SIMILAR_TO` edge with its similarity for each pair
      the engine found among the projected users. Edges already present stay;
      a pair found again gets the new similarity (the map holds one edge per
      pair). */
  function WriteSimilar(g: Graph, nodes: set<int>, edges: map<(int, int), real>): (h: Graph)
    ensures h.users == g.users && h.books == g.books && h.rated == g.rated && h.bookEmbedding == g.bookEmbedding
    ensures forall p :: p in h.similar <==> p in g.similar || Found(g, nodes, edges, p)
    ensures forall p :: p in h.similar ==> h.similar[p] == if Found(g, nodes, edges, p) then edges[p] else g.similar[p]
  {
    g.(similar := g.similar + map p | p in edges && Found(g, nodes, edges, p) :: edges[p])
  }

  /** The KNN write keeps the graph valid: a new edge joins two users. */
  lemma WriteSimilarKeepsValid(g: Graph, nodes: set<int>, edges: map<(int, int), real>)
    requires Valid(g)
    ensures Valid(WriteSimilar(g, nodes, edges))
    ensures forall p :: p in WriteSimilar(g, nodes, edges).similar ==> p in g.similar || p.0 != p.1
  {
  }

  /** One step; None when the engine raises. */
  function Exec(s: State, step: Step): (r: Option<State>)
    ensures step.Project? ==> (r.None? <==> step.name in s.cat || !AllMet(s, step.needs))
    ensures step.FixAges? || step.CleanStrict? || step.Drop? ==> r.Some?
    ensures step.Embed? || step.CommunityWrite? ==> (r.None? <==> step.name !in s.cat)
    ensures step.Train? ==> (r.None? <==> step.name !in s.cat || step.model in s.models)
    ensures step.SageWrite? ==> (r.None? <==> step.name !in s.cat || step.model !in s.models)
    ensures step.KnnWrite? ==> (r.None? <==> step.name !in s.cat || !AllCarry(s.g, s.cat[step.name], step.feature))
    ensures r.Some? ==> r.value.dummy == s.dummy
    ensures r.Some? && !step.Train? ==> r.value.models == s.models
    ensures r.Some? && step.Project? ==> r.value == s.(cat := s.cat[step.name := Nodes(s.g, step.nodes)])
    ensures r.Some? && step.Train? ==> r.value == s.(models := s.models + {step.model})
    ensures r.Some? && step.Embed? ==> r.value == s.(g := WriteEmbeddings(s.g, s.cat[step.name], step.out))
    ensures r.Some? && step.SageWrite? ==> r.value == s.(g := WriteSageFeatures(s.g, s.cat[step.name], step.features))
    ensures r.Some? && step.KnnWrite? ==> r.value == s.(g := WriteSimilar(s.g, s.cat[step.name], step.edges))
    ensures r.Some? && step.CommunityWrite? ==> r.value == s.(g := WriteCommunities(s.g, s.cat[step.name], step.labels))
  {
    match step
    case FixAges => Some(s.(g := Features.FixAges(s.g)))
    case CleanStrict => Some(s.(g := Features.CleanStrict(s.g)))
    case Drop(name) => Some(s.(cat := DropIfExists(s.cat, name, NotPresent).cat))
    case Project(name, q, needs) =>
      if name in s.cat || !AllMet(s, needs) then None else Some(s.(cat := s.cat[name := Nodes(s.g, q)]))
    case Embed(name, out) =>
      if name in s.cat then Some(s.(g := WriteEmbeddings(s.g, s.cat[name], out))) else None
    case Train(name, model) =>
      if name in s.cat && model !in s.models then Some(s.(models := s.models + {model})) else None
    case SageWrite(name, model, out) =>
      if name in s.cat && model in s.models then Some(s.(g := WriteSageFeatures(s.g, s.cat[name], out))) else None
    case KnnWrite(name, feature, edges) =>
      if name in s.cat && AllCarry(s.g, s.cat[name], feature) then Some(s.(g := WriteSimilar(s.g, s.cat[name], edges)))
      else None
    case CommunityWrite(name, labels) =>
      if name in s.cat then Some(s.(g := WriteCommunities(s.g, s.cat[name], labels))) else None
  }

  /** The steps in order, stopping at the first that raises: the state a
      script reaches when it runs to the end. */
  function Run(s: State, steps: seq<Step>): Option<State>
    decreases |steps|
  {
    if |steps| == 0 then Some(s)
    else match Exec(s, steps[0])
      case None => None
      case Some(t) => Run(t, steps[1..])
  }

  /** Running two step lists in turn is running their concatenation. */
  lemma {:induction false} RunAppend(s: State, a: seq<Step>, b: seq<Step>)
    ensures Run(s, a + b) == match Run(s, a) case None => None case Some(t) => Run(t, b)
    decreases |a|
  {
    if |a| == 0 {
      assert a + b == b;
    } else {
      assert (a + b)[0] == a[0];
      assert (a + b)[1..] == a[1..] + b;
      match Exec(s, a[0])
      case None =>
      case Some(t) => RunAppend(t, a[1..], b);
    }
  }

  lemma RunOne(s: State, a: Step)
    ensures Run(s, [a]) == Exec(s, a)
  {
    assert [a][1..] == [];
  }

  lemma RunTwo(s: State, a: Step, b: Step)
    ensures Run(s, [a, b]) == match Exec(s, a) case None => None case Some(t) => Exec(t, b)
  {
    assert [a, b][1..] == [b];
    if Exec(s, a).Some? {
      RunOne(Exec(s, a).value, b);
    }
  }

  lemma RunThree(s: State, a: Step, b: Step, c: Step)
    ensures Run(s, [a, b, c]) ==
      match Exec(s, a)
      case None => None
      case Some(t) => match Exec(t, b) case None => None case Some(u) => Exec(u, c)
  {
    assert [a, b, c][1..] == [b, c];
    if Exec(s, a).Some? {
      RunTwo(Exec(s, a).value, b, c);
    }
  }

  // ---- Failure: what a script leaves behind ----

  /** The state a script leaves, and whether it raised. */
  datatype Committed = Committed(state: State, failed: bool)

  /** Each step is its own transaction (one `session.execute_write`): the
      step that raises leaves nothing, and every step before it stays done. */
  function RunCommitted(s: State, steps: seq<Step>): Committed
    decreases |steps|
  {
    if |steps| == 0 then Committed(s, false)
    else match Exec(s, steps[0])
      case None => Committed(s, true)
      case Some(t) => RunCommitted(t, steps[1..])
  }

  /** A script fails exactly when `Run` has no result, and a script that
      does not fail leaves `Run`'s state. */
  lemma {:induction false} RunCommittedAgrees(s: State, steps: seq<Step>)
    ensures RunCommitted(s, steps).failed <==> Run(s, steps).None?
    ensures Run(s, steps).Some? ==> RunCommitted(s, steps).state == Run(s, steps).value
    decreases |steps|
  {
    if |steps| > 0 {
      match Exec(s, steps[0])
      case None =>
      case Some(t) => RunCommittedAgrees(t, steps[1..]);
    }
  }

  /** Running two step lists in turn: the second runs only when the first
      did not fail, and starts from what the first left. */
  lemma {:induction false} RunCommittedAppend(s: State, a: seq<Step>, b: seq<Step>)
    ensures RunCommitted(s, a + b) ==
      if RunCommitted(s, a).failed then RunCommitted(s, a) else RunCommitted(RunCommitted(s, a).state, b)
    decreases |a|
  {
    if |a| == 0 {
      assert a + b == b;
    } else {
      assert (a + b)[0] == a[0];
      assert (a + b)[1..] == a[1..] + b;
      match Exec(s, a[0])
      case None =>
      case Some(t) => RunCommittedAppend(t, a[1..], b);
    }
  }

  /** A projection that follows a drop of the same name raises exactly when
      the database lacks something the projection names. */
  lemma ProjectAfterDrop(s: State, name: string, q: NodeQuery, needs: set<Requirement>)
    ensures Run(s, [Drop(name), Project(name, q, needs)]).Some? <==> AllMet(s, needs)
    ensures AllMet(s, needs) ==>
      && name in Run(s, [Drop(name), Project(name, q, needs)]).value.cat
      && Run(s, [Drop(name), Project(name, q, needs)]).value.cat[name] == Nodes(s.g, q)
  {
    RunTwo(s, Drop(name), Project(name, q, needs));
    var t := Exec(s, Drop(name)).value;
    assert t.g == s.g && t.dummy == s.dummy;
    assert AllMet(t, needs) == AllMet(s, needs);
  }

  /** Without a drop first, projecting a name that is taken raises. */
  lemma ProjectTakenNameFails(s: State, name: string, q: NodeQuery, needs: set<Requirement>)
    requires name in s.cat
    ensures Run(s, [Project(name, q, needs)]).None?
  {
    RunOne(s, Project(name, q, needs));
  }

  // ---- The driver scripts ----

  /** The sageGraph projection names `User` (with `age`), `Book` and `RATED`. */
  const SageNeeds: set<Requirement> := {UserLabel, BookLabel, RatedType, AgeKey}
  /** The FastRP and Node2Vec projections name `User`, `Book` and `RATED`. */
  const RatedNeeds: set<Requirement> := {UserLabel, BookLabel, RatedType}
  /** `create_graph_with_dummy_relation` names `User`, `DUMMY` and `embedding`. */
  const DummyNeeds: set<Requirement> := {UserLabel, DummyType, EmbeddingKey}
  /** Node2Vec's second projection names `User` with `embedding`. */
  const EmbeddingNeeds: set<Requirement> := {UserLabel, EmbeddingKey}

  /** `embeddingDimension: 128` of the GraphSAGE training. */
  const SageDimension: nat := 128

  /** The engine computed a value for every user. */
  predicate Covers<V>(out: map<int, V>, g: Graph) {
    forall u :: u in g.users ==> u in out
  }

  /** `project_graphsage_graph`: drop `sageGraph`, then project it. */
  function ProjectSage(): seq<Step> {
    [Drop(SageGraph), Project(SageGraph, AllUsers, SageNeeds)]
  }

  /** The GraphSAGE steps of both scripts: impute ages, project, train
      `my-sage-model`, write `graphsageFeature`. */
  function SageSteps(out: map<int, Vec>): seq<Step> {
    [FixAges] + ProjectSage() + [Train(SageGraph, SageModel), SageWrite(SageGraph, SageModel, out)]
  }

  /** What alg_knn.py's `main` runs once `sageGraph` is projected: train,
      write, clean, project the clean users (a Cypher projection), KNN. */
  function AfterSage(out: map<int, Vec>, edges: map<(int, int), real>): seq<Step> {
    [Train(SageGraph, SageModel), SageWrite(SageGraph, SageModel, out), CleanStrict,
     Drop(UserGraph), Project(UserGraph, CleanedUsers, {}), KnnWrite(UserGraph, CleanedFeature, edges)]
  }

  /** `main` of alg_knn.py. */
  function AlgKnnMain(out: map<int, Vec>, edges: map<(int, int), real>): seq<Step> {
    [FixAges] + ProjectSage() + AfterSage(out, edges)
  }

  /** The graph `main` cleans: imputed, then given the GraphSAGE vectors of
      every user, then strictly cleaned. */
  function SageCleaned(g: Graph, out: map<int, Vec>): Graph {
    Features.CleanStrict(WriteSageFeatures(Features.FixAges(g), g.users.Keys, out))
  }

  /** Drop `userGraph`, project users and books over `RATED`, write embeddings. */
  function EmbedSteps(out: Vectors): seq<Step> {
    [Drop(UserGraph), Project(UserGraph, AllUsers, RatedNeeds), Embed(UserGraph, out)]
  }

  /** `run_full_pipeline` of alg_knn_node2vec.py: the second projection names
      only `User` and `embedding`. */
  function Node2VecPipeline(out: Vectors, edges: map<(int, int), real>): seq<Step> {
    EmbedSteps(out) + [Drop(UserGraph), Project(UserGraph, AllUsers, EmbeddingNeeds), KnnWrite(UserGraph, EmbeddingFeature, edges)]
  }

  /** The tail of the FastRP and test_knn scripts: drop, the dummy-relation
      projection, KNN on `embedding`. */
  function KnnTail(edges: map<(int, int), real>): seq<Step> {
    [Drop(UserGraph), Project(UserGraph, AllUsers, DummyNeeds), KnnWrite(UserGraph, EmbeddingFeature, edges)]
  }

  /** The main block of Alg_KNN_FastRP.py. */
  function FastRpMain(out: Vectors, edges: map<(int, int), real>): seq<Step> {
    EmbedSteps(out) + KnnTail(edges)
  }

  /** `run_pipeline` of the top-level test_knn.py: no embedding step. */
  function TestKnnPipeline(edges: map<(int, int), real>): seq<Step> {
    KnnTail(edges)
  }

  /** The embedding steps `run_pipeline(algorithm)` of algorithm_knn/test_knn.py
      runs for each algorithm name; any other name runs none. `out` is
      what the chosen algorithm computes (GraphSAGE only for users). */
  function EmbeddingSteps(algorithm: string, out: Vectors): (steps: seq<Step>)
    ensures algorithm !in {"fastrp", "graphsage", "node2vec"} ==> steps == []
    ensures algorithm == "graphsage" ==> |steps| > 0 && steps[0] == FixAges
    ensures algorithm == "graphsage" ==> forall i :: 0 <= i < |steps| ==> !steps[i].Embed?
  {
    if algorithm == "fastrp" || algorithm == "node2vec" then EmbedSteps(out)
    else if algorithm == "graphsage" then SageSteps(out.users)
    else []
  }

  function DispatchPipeline(algorithm: string, out: Vectors, edges: map<(int, int), real>): seq<Step> {
    EmbeddingSteps(algorithm, out) + KnnTail(edges)
  }

  /** `create_user_similarity_projection` followed by Louvain: a Cypher
      projection, and no drop. */
  function CommunityDetection(labels: map<int, int>): seq<Step> {
    [Project(SimilarityGraph, AllUsers, {}), CommunityWrite(SimilarityGraph, labels)]
  }

  /** Some user, when there is one. */
  lemma SomeUser(g: Graph) returns (u: int)
    requires g.users.Keys != {}
    ensures u in g.users
  {
    if forall x :: x !in g.users.Keys {
      assert false;
    }
    u :| u in g.users.Keys;
  }

  /** Imputing ages leaves every `embedding` as it was, and gives every user
      an age. */
  lemma FixAgesKeepsEmbeddings(g: Graph)
    ensures HasEmbedding(Features.FixAges(g)) == HasEmbedding(g)
    ensures AllEmbedded(Features.FixAges(g)) == AllEmbedded(g)
    ensures HasAge(Features.FixAges(g)) <==> g.users.Keys != {}
  {
    var h := Features.FixAges(g);
    assert forall u :: u in g.users ==> h.users[u].embedding == g.users[u].embedding;
    if g.users.Keys != {} {
      var u := SomeUser(g);
      assert h.users[u].age.Some?;
    }
  }

  /** The GraphSAGE write touches neither `embedding` nor `age`. */
  lemma SageWriteKeepsEmbeddings(g: Graph, nodes: set<int>, out: map<int, Vec>)
    ensures HasEmbedding(WriteSageFeatures(g, nodes, out)) == HasEmbedding(g)
    ensures AllEmbedded(WriteSageFeatures(g, nodes, out)) == AllEmbedded(g)
    ensures forall u :: u in g.users ==> WriteSageFeatures(g, nodes, out).users[u].age == g.users[u].age
  {
    var h := WriteSageFeatures(g, nodes, out);
    assert forall u :: u in g.users ==> h.users[u].embedding == g.users[u].embedding;
  }

  /** Imputation, then the drop and projection of `sageGraph`. */
  lemma PrepareSageOutcome(s: State)
    ensures var r := Run(s, [FixAges] + ProjectSage());
      && (r.Some? <==> s.g.rated != map[] && s.g.users.Keys != {} && s.g.books.Keys != {})
      && (r.Some? ==>
        && r.value.g == Features.FixAges(s.g)
        && r.value.dummy == s.dummy
        && r.value.models == s.models
        && SageGraph in r.value.cat
        && r.value.cat[SageGraph] == s.g.users.Keys)
  {
    assert [FixAges] + ProjectSage() == [FixAges, Drop(SageGraph), Project(SageGraph, AllUsers, SageNeeds)];
    RunThree(s, FixAges, Drop(SageGraph), Project(SageGraph, AllUsers, SageNeeds));
    FixAgesKeepsEmbeddings(s.g);
    var t := Exec(Exec(s, FixAges).value, Drop(SageGraph)).value;
    assert t.g == Features.FixAges(s.g);
    assert AllMet(t, SageNeeds) <==> Met(t, UserLabel) && Met(t, BookLabel) && Met(t, RatedType) && Met(t, AgeKey);
  }

  /** The GraphSAGE steps succeed exactly when some rating, some user and
      some book exist and `my-sage-model` is not yet trained; afterwards the
      model exists, every user has an age and the engine's
      `graphsageFeature`, and `sageGraph` holds every user. */
  lemma SageStepsOutcome(s: State, out: map<int, Vec>)
    ensures var r := Run(s, SageSteps(out));
      && (r.Some? <==> s.g.rated != map[] && s.g.users.Keys != {} && s.g.books.Keys != {} && SageModel !in s.models)
      && (r.Some? ==>
        && r.value.g == WriteSageFeatures(Features.FixAges(s.g), s.g.users.Keys, out)
        && r.value.dummy == s.dummy
        && r.value.models == s.models + {SageModel}
        && SageGraph in r.value.cat
        && r.value.cat[SageGraph] == s.g.users.Keys
        && forall u :: u in s.g.users ==> r.value.g.users[u].age.Some?)
  {
    var pre := [FixAges] + ProjectSage();
    var post := [Train(SageGraph, SageModel), SageWrite(SageGraph, SageModel, out)];
    assert SageSteps(out) == pre + post;
    PrepareSageOutcome(s);
    RunAppend(s, pre, post);
    if Run(s, pre).Some? {
      var t := Run(s, pre).value;
      RunTwo(t, Train(SageGraph, SageModel), SageWrite(SageGraph, SageModel, out));
      SageWriteKeepsEmbeddings(t.g, s.g.users.Keys, out);
    }
  }

  /** Once `sageGraph` exists, `main` raises only at training, when
      `my-sage-model` is already there; the cleaned users all carry the
      property KNN compares, so KNN does not raise. */
  lemma AfterSageOutcome(t: State, out: map<int, Vec>, edges: map<(int, int), real>)
    requires SageGraph in t.cat
    ensures var r := Run(t, AfterSage(out, edges));
      var w := Features.CleanStrict(WriteSageFeatures(t.g, t.cat[SageGraph], out));
      && (r.Some? <==> SageModel !in t.models)
      && (r.Some? ==>
        && r.value.g == WriteSimilar(w, Features.KnnNodes(w), edges)
        && r.value.models == t.models + {SageModel}
        && UserGraph in r.value.cat
        && r.value.cat[UserGraph] == Features.KnnNodes(w))
  {
    var mid := [Train(SageGraph, SageModel), SageWrite(SageGraph, SageModel, out), CleanStrict];
    var post := [Drop(UserGraph), Project(UserGraph, CleanedUsers, {}), KnnWrite(UserGraph, CleanedFeature, edges)];
    assert AfterSage(out, edges) == mid + post;
    RunAppend(t, mid, post);
    RunThree(t, Train(SageGraph, SageModel), SageWrite(SageGraph, SageModel, out), CleanStrict);
    if SageModel !in t.models {
      var u := Run(t, mid).value;
      assert u.g == Features.CleanStrict(WriteSageFeatures(t.g, t.cat[SageGraph], out));
      RunThree(u, Drop(UserGraph), Project(UserGraph, CleanedUsers, {}), KnnWrite(UserGraph, CleanedFeature, edges));
      var v := Exec(Exec(u, Drop(UserGraph)).value, Project(UserGraph, CleanedUsers, {})).value;
      assert AllCarry(v.g, v.cat[UserGraph], CleanedFeature);
    }
  }

  /** alg_knn.py's `main` succeeds exactly when the sageGraph projection
      finds `User`, `Book`, `RATED` and `age` and `my-sage-model` is not yet
      trained; the KNN projection is a Cypher projection and needs nothing.
      It ends with `userGraph` holding exactly the users whose GraphSAGE
      vector survived strict cleaning, and with KNN's edges among them. */
  lemma AlgKnnMainOutcome(s: State, out: map<int, Vec>, edges: map<(int, int), real>)
    ensures var r := Run(s, AlgKnnMain(out, edges));
      var w := SageCleaned(s.g, out);
      && (r.Some? <==> s.g.rated != map[] && s.g.users.Keys != {} && s.g.books.Keys != {} && SageModel !in s.models)
      && (r.Some? ==>
        && r.value.g == WriteSimilar(w, Features.KnnNodes(w), edges)
        && r.value.models == s.models + {SageModel}
        && UserGraph in r.value.cat
        && r.value.cat[UserGraph] == Features.KnnNodes(w))
  {
    var pre := [FixAges] + ProjectSage();
    assert AlgKnnMain(out, edges) == pre + AfterSage(out, edges);
    PrepareSageOutcome(s);
    RunAppend(s, pre, AfterSage(out, edges));
    if Run(s, pre).Some? {
      AfterSageOutcome(Run(s, pre).value, out, edges);
    }
  }

  /** Nothing drops `my-sage-model`: once `main` has run, running it again
      raises at training. */
  lemma AlgKnnMainRerunFails(s: State, out: map<int, Vec>, edges: map<(int, int), real>,
                             out2: map<int, Vec>, edges2: map<(int, int), real>)
    requires Run(s, AlgKnnMain(out, edges)).Some?
    ensures Run(Run(s, AlgKnnMain(out, edges)).value, AlgKnnMain(out2, edges2)).None?
  {
    AlgKnnMainOutcome(s, out, edges);
    AlgKnnMainOutcome(Run(s, AlgKnnMain(out, edges)).value, out2, edges2);
  }

  /** When GraphSAGE writes a null-free 128-element vector for every user,
      `main` ends with every user in `userGraph`. */
  lemma AlgKnnMainProjectsEveryUser(s: State, out: map<int, Vec>, edges: map<(int, int), real>)
    requires Covers(out, s.g)
    requires forall u :: u in out ==> |out[u]| == SageDimension && !Features.HasNull(out[u])
    ensures Run(s, AlgKnnMain(out, edges)).Some? ==>
      && UserGraph in Run(s, AlgKnnMain(out, edges)).value.cat
      && Run(s, AlgKnnMain(out, edges)).value.cat[UserGraph] == s.g.users.Keys
  {
    AlgKnnMainOutcome(s, out, edges);
    var v := WriteSageFeatures(Features.FixAges(s.g), s.g.users.Keys, out);
    Features.KnnNodesAfterCleaning(v);
    forall u | u in s.g.users
      ensures u in Features.KnnNodes(SageCleaned(s.g, out))
    {
      assert v.users[u].graphsageFeature == Some(out[u]);
      assert Features.Usable(out[u]);
    }
  }

  /** After imputation, the GraphSAGE write and strict cleaning, every user
      in the KNN projection has an age and a vector of at least five
      elements. */
  lemma CleanedUsersReady(g: Graph, out: map<int, Vec>)
    ensures var h := SageCleaned(g, out);
      forall u :: u in Features.KnnNodes(h) ==>
        h.users[u].age.Some? && |h.users[u].cleanedFeature.value| >= Features.MinLength
  {
    SageWriteKeepsEmbeddings(Features.FixAges(g), g.users.Keys, out);
  }

  /** The embedding steps succeed exactly when some rating, some user and
      some book exist; afterwards every user and every book the engine
      computed a vector for carries it. */
  lemma EmbedStepsOutcome(s: State, out: Vectors)
    ensures var r := Run(s, EmbedSteps(out));
      && (r.Some? <==> s.g.rated != map[] && s.g.users.Keys != {} && s.g.books.Keys != {})
      && (r.Some? ==> r.value == State(WriteEmbeddings(s.g, s.g.users.Keys, out),
                                       DropIfExists(s.cat, UserGraph, NotPresent).cat[UserGraph := s.g.users.Keys],
                                       s.dummy, s.models))
  {
    RunThree(s, Drop(UserGraph), Project(UserGraph, AllUsers, RatedNeeds), Embed(UserGraph, out));
    var t := Exec(s, Drop(UserGraph)).value;
    assert AllMet(t, RatedNeeds) <==> Met(t, UserLabel) && Met(t, BookLabel) && Met(t, RatedType);
  }

  lemma WrittenEmbeddings(g: Graph, out: Vectors)
    requires Covers(out.users, g)
    ensures AllEmbedded(WriteEmbeddings(g, g.users.Keys, out))
    ensures HasEmbedding(WriteEmbeddings(g, g.users.Keys, out)) <==> g.users.Keys != {}
    ensures forall u :: u in g.users ==> WriteEmbeddings(g, g.users.Keys, out).users[u].embedding == Some(out.users[u])
  {
    if g.users.Keys != {} {
      var u := SomeUser(g);
      assert WriteEmbeddings(g, g.users.Keys, out).users[u].embedding.Some?;
    }
  }

  /** The KNN tail succeeds exactly when a `DUMMY` relationship exists and
      there are users, every one of them with an `embedding`; `userGraph`
      then holds every user and KNN's edges among the users are written. */
  lemma KnnTailOutcome(s: State, edges: map<(int, int), real>)
    ensures var r := Run(s, KnnTail(edges));
      && (r.Some? <==> s.dummy && s.g.users.Keys != {} && AllEmbedded(s.g))
      && (r.Some? ==> r.value == State(WriteSimilar(s.g, s.g.users.Keys, edges),
                                       DropIfExists(s.cat, UserGraph, NotPresent).cat[UserGraph := s.g.users.Keys],
                                       s.dummy, s.models))
  {
    RunThree(s, Drop(UserGraph), Project(UserGraph, AllUsers, DummyNeeds), KnnWrite(UserGraph, EmbeddingFeature, edges));
    var t := Exec(s, Drop(UserGraph)).value;
    assert AllMet(t, DummyNeeds) <==> Met(t, UserLabel) && Met(t, DummyType) && Met(t, EmbeddingKey);
    if s.g.users.Keys != {} && AllEmbedded(s.g) {
      var u := SomeUser(s.g);
      assert s.g.users[u].embedding.Some?;
    }
  }

  /** Node2Vec needs a rating, a user and a book, and no `DUMMY`
      relationship: its second projection names only `User` and `embedding`. */
  lemma Node2VecOutcome(s: State, out: Vectors, edges: map<(int, int), real>)
    requires Covers(out.users, s.g)
    ensures var r := Run(s, Node2VecPipeline(out, edges));
      && (r.Some? <==> s.g.rated != map[] && s.g.users.Keys != {} && s.g.books.Keys != {})
      && (r.Some? ==>
        && UserGraph in r.value.cat && r.value.cat[UserGraph] == s.g.users.Keys
        && r.value.g == WriteSimilar(WriteEmbeddings(s.g, s.g.users.Keys, out), s.g.users.Keys, edges))
  {
    var tail := [Drop(UserGraph), Project(UserGraph, AllUsers, EmbeddingNeeds), KnnWrite(UserGraph, EmbeddingFeature, edges)];
    RunAppend(s, EmbedSteps(out), tail);
    EmbedStepsOutcome(s, out);
    if Run(s, EmbedSteps(out)).Some? {
      var t := Run(s, EmbedSteps(out)).value;
      WrittenEmbeddings(s.g, out);
      RunThree(t, Drop(UserGraph), Project(UserGraph, AllUsers, EmbeddingNeeds), KnnWrite(UserGraph, EmbeddingFeature, edges));
      var u := Exec(t, Drop(UserGraph)).value;
      assert AllMet(u, EmbeddingNeeds) <==> Met(u, UserLabel) && Met(u, EmbeddingKey);
    }
  }

  /** The FastRP script needs a rating, a user, a book and the hand-made
      `DUMMY` relationship; it then ends with `userGraph` over every user. */
  lemma FastRpOutcome(s: State, out: Vectors, edges: map<(int, int), real>)
    requires Covers(out.users, s.g)
    ensures var r := Run(s, FastRpMain(out, edges));
      && (r.Some? <==> s.g.rated != map[] && s.g.users.Keys != {} && s.g.books.Keys != {} && s.dummy)
      && (r.Some? ==>
        && UserGraph in r.value.cat && r.value.cat[UserGraph] == s.g.users.Keys
        && r.value.g == WriteSimilar(WriteEmbeddings(s.g, s.g.users.Keys, out), s.g.users.Keys, edges))
  {
    RunAppend(s, EmbedSteps(out), KnnTail(edges));
    EmbedStepsOutcome(s, out);
    if Run(s, EmbedSteps(out)).Some? {
      var t := Run(s, EmbedSteps(out)).value;
      WrittenEmbeddings(s.g, out);
      KnnTailOutcome(t, edges);
    }
  }

  /** The top-level test_knn.py runs no embedding step: it succeeds exactly
      when a `DUMMY` relationship exists and every user, of at least one,
      already has an `embedding`, and then writes KNN's edges among all
      users. */
  lemma TestKnnOutcome(s: State, edges: map<(int, int), real>)
    ensures Run(s, TestKnnPipeline(edges)).Some? <==> s.dummy && s.g.users.Keys != {} && AllEmbedded(s.g)
    ensures Run(s, TestKnnPipeline(edges)).Some? ==>
      Run(s, TestKnnPipeline(edges)).value ==
        State(WriteSimilar(s.g, s.g.users.Keys, edges),
              DropIfExists(s.cat, UserGraph, NotPresent).cat[UserGraph := s.g.users.Keys], s.dummy, s.models)
  {
    KnnTailOutcome(s, edges);
  }

  /** The graph the embedding steps of `run_pipeline(algorithm)` leave. */
  function Embedded(g: Graph, algorithm: string, out: Vectors): Graph {
    if algorithm == "graphsage" then WriteSageFeatures(Features.FixAges(g), g.users.Keys, out.users)
    else if algorithm == "fastrp" || algorithm == "node2vec" then WriteEmbeddings(g, g.users.Keys, out)
    else g
  }

  /** The dispatching pipeline of algorithm_knn/test_knn.py. Every branch
      ends in the dummy-relation projection and KNN on `embedding`, so every
      branch needs `DUMMY` and an `embedding` on every user. "fastrp" and
      "node2vec" write it themselves; "graphsage" writes only
      `graphsageFeature` and needs `my-sage-model` untrained, and any other
      name writes nothing, so those two need `embedding` left by an earlier
      run. */
  lemma DispatchOutcome(s: State, algorithm: string, out: Vectors, edges: map<(int, int), real>)
    requires Covers(out.users, s.g)
    ensures var r := Run(s, DispatchPipeline(algorithm, out, edges));
      && (algorithm == "fastrp" || algorithm == "node2vec" ==>
           (r.Some? <==> s.g.rated != map[] && s.g.users.Keys != {} && s.g.books.Keys != {} && s.dummy))
      && (algorithm == "graphsage" ==>
           (r.Some? <==> s.g.rated != map[] && s.g.users.Keys != {} && s.g.books.Keys != {} &&
                         SageModel !in s.models && s.dummy && AllEmbedded(s.g)))
      && (algorithm !in {"fastrp", "graphsage", "node2vec"} ==>
           (r.Some? <==> s.dummy && s.g.users.Keys != {} && AllEmbedded(s.g)))
      && (r.Some? ==> UserGraph in r.value.cat && r.value.cat[UserGraph] == s.g.users.Keys)
      && (r.Some? ==> r.value.g == WriteSimilar(Embedded(s.g, algorithm, out), s.g.users.Keys, edges))
  {
    var e := EmbeddingSteps(algorithm, out);
    RunAppend(s, e, KnnTail(edges));
    if algorithm == "graphsage" {
      SageStepsOutcome(s, out.users);
      if Run(s, e).Some? {
        var t := Run(s, e).value;
        FixAgesKeepsEmbeddings(s.g);
        SageWriteKeepsEmbeddings(Features.FixAges(s.g), s.g.users.Keys, out.users);
        KnnTailOutcome(t, edges);
      }
    } else if algorithm == "fastrp" || algorithm == "node2vec" {
      EmbedStepsOutcome(s, out);
      if Run(s, e).Some? {
        WrittenEmbeddings(s.g, out);
        KnnTailOutcome(Run(s, e).value, edges);
      }
    } else {
      assert Run(s, e) == Some(s);
      KnnTailOutcome(s, edges);
    }
  }

  /** When the embedding steps succeed but the dummy-relation projection
      raises, the script stops there and leaves the embedding steps' writes
      in place, with `userGraph` dropped; when the projection succeeds but
      some user has no `embedding`, KNN raises and `userGraph` stays
      projected. */
  lemma DispatchFailureKeepsEmbeddingSteps(s: State, algorithm: string, out: Vectors, edges: map<(int, int), real>)
    ensures var e := Run(s, EmbeddingSteps(algorithm, out));
      e.Some? && !(e.value.dummy && e.value.g.users.Keys != {} && EmbeddingKeyExists(e.value.g)) ==>
        RunCommitted(s, DispatchPipeline(algorithm, out, edges)) ==
          Committed(e.value.(cat := DropIfExists(e.value.cat, UserGraph, NotPresent).cat), true)
    ensures var e := Run(s, EmbeddingSteps(algorithm, out));
      e.Some? && e.value.dummy && e.value.g.users.Keys != {} && EmbeddingKeyExists(e.value.g) && !AllEmbedded(e.value.g) ==>
        RunCommitted(s, DispatchPipeline(algorithm, out, edges)) ==
          Committed(e.value.(cat := DropIfExists(e.value.cat, UserGraph, NotPresent).cat[UserGraph := e.value.g.users.Keys]), true)
  {
    var steps := EmbeddingSteps(algorithm, out);
    RunCommittedAppend(s, steps, KnnTail(edges));
    RunCommittedAgrees(s, steps);
    var e := Run(s, steps);
    if e.Some? {
      var t := e.value;
      var u := Exec(t, Drop(UserGraph)).value;
      assert AllMet(u, DummyNeeds) <==> Met(u, UserLabel) && Met(u, DummyType) && Met(u, EmbeddingKey);
      assert KnnTail(edges)[1..] == [Project(UserGraph, AllUsers, DummyNeeds), KnnWrite(UserGraph, EmbeddingFeature, edges)];
      var rest := KnnTail(edges)[1..];
      if !AllMet(u, DummyNeeds) {
        assert RunCommitted(u, rest) == Committed(u, true);
      } else if !AllEmbedded(t.g) {
        var v := Exec(u, Project(UserGraph, AllUsers, DummyNeeds)).value;
        assert rest[1..] == [KnnWrite(UserGraph, EmbeddingFeature, edges)];
        assert RunCommitted(v, rest[1..]) == Committed(v, true);
      }
    }
  }

  /** `run_pipeline("fastrp")` without the hand-made `DUMMY` relationship
      raises at the KNN projection, after FastRP has written the `embedding`
      of every user and book: the embeddings stay. */
  lemma FastRpWithoutDummyKeepsEmbeddings(s: State, out: Vectors, edges: map<(int, int), real>)
    requires Valid(s.g) && s.g.rated != map[] && !s.dummy
    ensures RunCommitted(s, DispatchPipeline("fastrp", out, edges)).failed
    ensures RunCommitted(s, DispatchPipeline("fastrp", out, edges)).state.g == WriteEmbeddings(s.g, s.g.users.Keys, out)
  {
    LabelsPresent(s.g);
    EmbedStepsOutcome(s, out);
    DispatchFailureKeepsEmbeddingSteps(s, "fastrp", out, edges);
  }

  /** Community detection has no drop: it runs once, and a second run raises
      because `userSimilarityGraph` is still in the catalog. */
  lemma CommunityDetectionRerunFails(s: State, labels: map<int, int>)
    requires SimilarityGraph !in s.cat
    ensures Run(s, CommunityDetection(labels)).Some?
    ensures Run(Run(s, CommunityDetection(labels)).value, CommunityDetection(labels)).None?
  {
    RunTwo(s, Project(SimilarityGraph, AllUsers, {}), CommunityWrite(SimilarityGraph, labels));
    var t := Run(s, CommunityDetection(labels)).value;
    RunTwo(t, Project(SimilarityGraph, AllUsers, {}), CommunityWrite(SimilarityGraph, labels));
  }

  /** Louvain labels every user of the projection, which holds all users:
      afterwards each user the engine labelled carries its label, and nothing
      but `community` changes. */
  lemma CommunityDetectionOutcome(s: State, labels: map<int, int>)
    requires SimilarityGraph !in s.cat
    ensures var r := Run(s, CommunityDetection(labels));
      && r.Some?
      && r.value.g == WriteCommunities(s.g, s.g.users.Keys, labels)
      && (forall u :: u in s.g.users && u in labels ==> r.value.g.users[u].community == Some(labels[u]))
      && (forall u :: u in s.g.users ==> r.value.g.users[u].(community := s.g.users[u].community) == s.g.users[u])
  {
    RunTwo(s, Project(SimilarityGraph, AllUsers, {}), CommunityWrite(SimilarityGraph, labels));
  }

  // ---- run_knn_write ----

  /** The parameters a `gds.knn.write` call is given. */
  datatype KnnRequest = KnnRequest(graph: string, topK: int, cutoff: Option<real>)

  /** `run_knn_write` of alg_knn_wo.py and alg_knn_node2vec.py: the cutoff is
      sent only when `similarity_cutoff` is truthy; None and 0 both leave it
      out. */
  function KnnWriteOptional(name: string, topK: int, cutoff: Option<real>): (r: KnnRequest)
    ensures r.graph == name && r.topK == topK
    ensures r.cutoff.Some? <==> cutoff.Some? && cutoff.value != 0.0
    ensures r.cutoff.Some? ==> r.cutoff == cutoff
  {
    match cutoff
    case Some(c) => if c != 0.0 then KnnRequest(name, topK, Some(c)) else KnnRequest(name, topK, None)
    case None => KnnRequest(name, topK, None)
  }

  const DefaultCutoff: real := 0.8

  /** `run_knn_write` of Alg_KNN_FastRP.py and both test_knn.py files: always
      on `userGraph`, always with a cutoff. */
  function KnnWriteAlways(topK: int, cutoff: real): (r: KnnRequest)
    ensures r.graph == UserGraph && r.topK == topK && r.cutoff == Some(cutoff)
  {
    KnnRequest(UserGraph, topK, Some(cutoff))
  }

  /** The two `run_knn_write` variants send the same request on `userGraph`
      for every non-zero cutoff; at 0 the FastRP variant sends
      `similarityCutoff: 0.0` and the other sends none. */
  lemma KnnWriteVariants(topK: int, cutoff: real)
    ensures cutoff != 0.0 <==> KnnWriteAlways(topK, cutoff) == KnnWriteOptional(UserGraph, topK, Some(cutoff))
    ensures KnnWriteOptional(UserGraph, topK, Some(0.0)) == KnnWriteOptional(UserGraph, topK, None)
  {
  }

  /** The calls the scripts make: topK 20 with the default cutoff in
      FastRP and test_knn, topK 10 with cutoff 0.75 in node2vec. */
  lemma ScriptKnnRequests()
    ensures KnnWriteAlways(20, DefaultCutoff) == KnnRequest(UserGraph, 20, Some(0.8))
    ensures KnnWriteOptional(UserGraph, 10, Some(0.75)) == KnnRequest(UserGraph, 10, Some(0.75))
    ensures KnnWriteOptional(UserGraph, 5, None) == KnnWriteOptional(UserGraph, 5, Some(0.0))
  {
  }
}

=== FILE: chunking.dfy ===
/** Splitting the loader's input rows into fixed-size batches
    (`chunk_dataframe`), each of which is written in one transaction. */
module Chunking {

  /** The batch size the loader uses. */
  const DefaultSize: nat := 100

  function Flatten<T>(xs: seq<seq<T>>): seq<T>
    decreases |xs|
  {
    if |xs| == 0 then [] else xs[0] + Flatten(xs[1..])
  }

  lemma {:induction false} FlattenSnoc<T>(xs: seq<seq<T>>, x: seq<T>)
    ensures Flatten(xs + [x]) == Flatten(xs) + x
    decreases |xs|
  {
    if |xs| == 0 {
      assert xs + [x] == [x];
      assert Flatten([x]) == x + Flatten([x][1..]);
    } else {
      assert (xs + [x])[1..] == xs[1..] + [x];
      FlattenSnoc(xs[1..], x);
    }
  }

  lemma FlattenPrefix<T>(xs: seq<seq<T>>, i: nat)
    requires i < |xs|
    ensures Flatten(xs[..i + 1]) == Flatten(xs[..i]) + xs[i]
  {
    assert xs[..i + 1] == xs[..i] + [xs[i]];
    FlattenSnoc(xs[..i], xs[i]);
  }

  /** Slices rows[0..size), rows[size..2*size), ... in order. The batches put
      back together give the input; every batch but the last is full, and the
      last is not empty. */
  function Chunks<T>(rows: seq<T>, size: nat): (r: seq<seq<T>>)
    requires size > 0
    ensures Flatten(r) == rows
    ensures forall i :: 0 <= i < |r| - 1 ==> |r[i]| == size
    ensures |r| > 0 ==> 0 < |r[|r| - 1]| <= size
    ensures |r| == 0 <==> |rows| == 0
    decreases |rows|
  {
    if |rows| == 0 then []
    else if |rows| <= size then
      assert Flatten([rows]) == rows + Flatten([rows][1..]);
      [rows]
    else
      var rest := Chunks(rows[size..], size);
      assert Flatten([rows[..size]] + rest) == rows[..size] + Flatten(rest) by {
        assert ([rows[..size]] + rest)[1..] == rest;
      }
      assert rows[..size] + rows[size..] == rows;
      [rows[..size]] + rest
  }
}

=== FILE: common.dfy ===
/** Small shared vocabulary: an optional value (Cypher's null), a minimum,
    and the set of elements of a sequence. */
module Common {

  /** A value that may be absent; `None` plays the part of Cypher's `null`
      and Python's `None`. */
  datatype Option<+T> = None | Some(value: T)

  function Min(a: int, b: int): (m: int)
    ensures m <= a && m <= b
    ensures m == a || m == b
  {
    if a <= b then a else b
  }

  /** A set that is not empty has a member. (Stated once so that the
      choice `var x :| x in s` can be justified wherever it is made.) */
  lemma NonEmpty<T(!new)>(s: set<T>)
    requires s != {}
    ensures exists x :: x in s
  {
    if forall x :: x !in s {
      assert false;
    }
  }

  /** The elements of `s`, as Python's `set(list)` builds them. */
  function Elements<T(!new)>(s: seq<T>): (r: set<T>)
    ensures forall x :: x in r <==> x in s
  {
    set x | x in s
  }

  /** A list never has fewer entries than the set of its elements. */
  lemma {:induction false} ElementsBound<T(!new)>(s: seq<T>)
    ensures |Elements(s)| <= |s|
  {
    if |s| > 0 {
      ElementsBound(s[1..]);
      assert Elements(s) == {s[0]} + Elements(s[1..]);
    }
  }

  /** Keeps the elements of `s` that satisfy `p`, in their original order. */
  function Filter<T(!new)>(s: seq<T>, p: T -> bool): (r: seq<T>)
    ensures |r| <= |s|
    ensures forall x :: x in r <==> x in s && p(x)
    decreases |s|
  {
    if |s| == 0 then []
    else (if p(s[0]) then [s[0]] else []) + Filter(s[1..], p)
  }

  lemma {:induction false} FilterAppend<T(!new)>(a: seq<T>, b: seq<T>, p: T -> bool)
    ensures Filter(a + b, p) == Filter(a, p) + Filter(b, p)
    decreases |a|
  {
    if |a| > 0 {
      assert (a + b)[1..] == a[1..] + b;
      FilterAppend(a[1..], b, p);
    } else {
      assert a + b == b;
    }
  }
  /** The image of `s` under `f`. */
  function Image<A(!new), B(!new)>(s: set<A>, f: A -> B): (r: set<B>)
    ensures forall x :: x in s ==> f(x) in r
    ensures forall y :: y in r ==> exists x :: x in s && f(x) == y
  {
    set x | x in s :: f(x)
  }

  /** The image of a set under a map that is one-to-one on it has as many
      elements as the set. */
  lemma {:induction false} InjectiveImage<A(!new), B(!new)>(s: set<A>, f: A -> B)
    requires forall x, y :: x in s && y in s && f(x) == f(y) ==> x == y
    ensures |Image(s, f)| == |s|
    decreases s
  {
    if s == {} {
      assert Image(s, f) == {};
    } else {
      NonEmpty(s);
      var a :| a in s;
      InjectiveImage(s - {a}, f);
      assert Image(s, f) == Image(s - {a}, f) + {f(a)};
      assert f(a) !in Image(s - {a}, f);
    }
  }

  /** Filtering a sequence whose every element passes changes nothing. */
  lemma {:induction false} FilterAll<T(!new)>(s: seq<T>, p: T -> bool)
    requires forall x :: x in s ==> p(x)
    ensures Filter(s, p) == s
    decreases |s|
  {
    if |s| > 0 {
      assert s[0] in s;
      assert forall x :: x in s[1..] ==> x in s;
      FilterAll(s[1..], p);
      assert [s[0]] + s[1..] == s;
    }
  }
}

=== FILE: community.dfy ===
/** The community rule and the queries around it.

    A user's community is the `community` label Louvain wrote. The rule
    recommends the books that other members of the target's community
    rated 6 or more and that the target has not rated, counting one vote
    per qualifying rating, most votes first. Because `{community: null}`
    matches nothing, a target without a community gets nothing. */
module Community {
  import opened Common
  import opened Store
  import opened Ordering

  /** The threshold a rating must reach to count as a recommendation. */
  const LikedRating: int := 6

  /** The LIMIT of the recommender modules, and of recommendation_old.py. */
  const CommunityLimit: nat := 3
  const OldLimit: nat := 10

  /** The number of community members `get_similar_users` returns. */
  const SimilarUsersLimit: nat := 3

  /** `u` is another user of the target's (non-null) community. */
  predicate OtherMember(g: Graph, target: int, u: int) {
    && target in g.users
    && g.users[target].community.Some?
    && u in g.users
    && u != target
    && g.users[u].community == g.users[target].community
  }

  /** The rating `k` of another member, 6 or more, of a book the target
      has not rated: one row of the matched pattern. */
  predicate Qualifies(g: Graph, target: int, k: (int, string)) {
    && k in g.rated
    && OtherMember(g, target, k.0)
    && k.1 in g.books
    && g.rated[k] >= LikedRating
    && !Rated(g, target, k.1)
  }

  function Votes(g: Graph, target: int): (s: set<(int, string)>)
    ensures forall k :: k in s <==> Qualifies(g, target, k)
  {
    set k | k in g.rated && Qualifies(g, target, k)
  }

  /** What the rows are grouped by: `b.title, b.author` in the recommender
      modules, `b.isbn, b.title` in recommendation_old.py. */
  datatype Grouping = ByTitleAuthor | ByIsbnTitle

  datatype GroupKey = TitleAuthor(title: string, author: string) | IsbnTitle(isbn: string, title: string)

  function KeyOf(g: Graph, grouping: Grouping, isbn: string): GroupKey
    requires isbn in g.books
  {
    match grouping
    case ByTitleAuthor => TitleAuthor(g.books[isbn].title, g.books[isbn].author)
    case ByIsbnTitle => IsbnTitle(isbn, g.books[isbn].title)
  }

  /** The votes that fall into group `key`. */
  function VotesFor(g: Graph, target: int, grouping: Grouping, key: GroupKey): (s: set<(int, string)>)
    ensures forall k :: k in s <==> Qualifies(g, target, k) && KeyOf(g, grouping, k.1) == key
  {
    set k | k in Votes(g, target) && KeyOf(g, grouping, k.1) == key
  }

  /** The groups partition the votes: every vote is counted in the group of
      its own book, no vote is counted in two groups, and a group holds
      votes only. */
  lemma VotesPartition(g: Graph, target: int, grouping: Grouping)
    ensures forall k :: k in Votes(g, target) ==> k.1 in g.books && k in VotesFor(g, target, grouping, KeyOf(g, grouping, k.1))
    ensures forall a, b :: a != b ==> VotesFor(g, target, grouping, a) !! VotesFor(g, target, grouping, b)
    ensures forall key :: VotesFor(g, target, grouping, key) <= Votes(g, target)
  {
  }

  /** Grouping by ISBN and title counts each book on its own; grouping by
      title and author merges the books that share both. */
  lemma GroupsAndBooks(g: Graph, target: int, k: (int, string), j: (int, string))
    requires k in Votes(g, target) && j in Votes(g, target)
    ensures KeyOf(g, ByIsbnTitle, k.1) == KeyOf(g, ByIsbnTitle, j.1) <==> k.1 == j.1
    ensures KeyOf(g, ByTitleAuthor, k.1) == KeyOf(g, ByTitleAuthor, j.1) <==>
      g.books[k.1].title == g.books[j.1].title && g.books[k.1].author == g.books[j.1].author
  {
  }

  /** A returned row: the group and `COUNT(*) AS recommendCount`. */
  datatype Row = Row(key: GroupKey, recommendCount: int)

  /** One row per group that has a vote: every vote's group is a row, and
      every row is a group with its count of votes. */
  function Candidates(g: Graph, target: int, grouping: Grouping): (c: set<Row>)
    ensures forall r :: r in c ==> r.recommendCount == |VotesFor(g, target, grouping, r.key)| && r.recommendCount > 0
    ensures forall k :: k in Votes(g, target) ==>
      Row(KeyOf(g, grouping, k.1), |VotesFor(g, target, grouping, KeyOf(g, grouping, k.1))|) in c
  {
    set k | k in Votes(g, target) :: Row(KeyOf(g, grouping, k.1), |VotesFor(g, target, grouping, KeyOf(g, grouping, k.1))|)
  }

  function CountOf(r: Row): int { r.recommendCount }

  /** `recommend_books` (grouping by title and author, LIMIT 3) and
      `recommend_books_for_user` (grouping by ISBN and title, LIMIT 10). */
  method Recommend(g: Graph, target: int, grouping: Grouping, limit: nat) returns (rows: seq<Row>)
    ensures |rows| <= limit
    ensures forall i :: 0 <= i < |rows| ==>
      rows[i].recommendCount == |VotesFor(g, target, grouping, rows[i].key)| && rows[i].recommendCount > 0
    ensures forall i, j :: 0 <= i < j < |rows| ==> rows[i].key != rows[j].key
    ensures forall i, j :: 0 <= i < j < |rows| ==> rows[i].recommendCount >= rows[j].recommendCount
    ensures forall k, i ::
      (Qualifies(g, target, k) && 0 <= i < |rows| &&
       (forall j :: 0 <= j < |rows| ==> rows[j].key != KeyOf(g, grouping, k.1))) ==>
      rows[i].recommendCount >= |VotesFor(g, target, grouping, KeyOf(g, grouping, k.1))|
    ensures |rows| < limit ==> forall k :: Qualifies(g, target, k) ==>
      exists i :: 0 <= i < |rows| && rows[i].key == KeyOf(g, grouping, k.1)
  {
    var cands := Candidates(g, target, grouping);
    DescIsPreorder(CountOf);
    rows := SelectTop(cands, Desc(CountOf), limit);
    forall i, j | 0 <= i < j < |rows|
      ensures rows[i].recommendCount >= rows[j].recommendCount
    {
      assert Desc(CountOf)(rows[i], rows[j]);
      assert CountOf(rows[i]) >= CountOf(rows[j]);
    }
    forall k, i | Qualifies(g, target, k) && 0 <= i < |rows| &&
      (forall j :: 0 <= j < |rows| ==> rows[j].key != KeyOf(g, grouping, k.1))
      ensures rows[i].recommendCount >= |VotesFor(g, target, grouping, KeyOf(g, grouping, k.1))|
    {
      var c := Row(KeyOf(g, grouping, k.1), |VotesFor(g, target, grouping, KeyOf(g, grouping, k.1))|);
      assert k in Votes(g, target);
      assert c in cands;
      assert c !in rows;
      assert Desc(CountOf)(rows[i], c);
      assert CountOf(rows[i]) >= CountOf(c);
    }
    if |rows| < limit {
      forall k | Qualifies(g, target, k)
        ensures exists i :: 0 <= i < |rows| && rows[i].key == KeyOf(g, grouping, k.1)
      {
        var c := Row(KeyOf(g, grouping, k.1), |VotesFor(g, target, grouping, KeyOf(g, grouping, k.1))|);
        assert k in Votes(g, target);
        assert c in cands;
        assert c in rows;
      }
    }
  }

  /** A target that has no community, or no other member in it, receives no
      recommendation. */
  lemma NoCommunityNoVotes(g: Graph, target: int)
    requires target !in g.users || g.users[target].community.None? ||
      forall u :: u in g.users && u != target ==> g.users[u].community != g.users[target].community
    ensures Votes(g, target) == {}
    ensures Candidates(g, target, ByTitleAuthor) == {} && Candidates(g, target, ByIsbnTitle) == {}
  {
  }

  /** `get_similar_users` (community version): the other members of the
      target's community. */
  function Members(g: Graph, target: int): (s: set<int>)
    ensures forall u :: u in s <==> OtherMember(g, target, u)
  {
    set u | u in g.users && OtherMember(g, target, u)
  }

  /** Community membership is shared: a member of the target's community
      has the target, and every other member, as members of its own. */
  lemma MembersShared(g: Graph, target: int, u: int)
    requires u in Members(g, target)
    ensures Members(g, u) == Members(g, target) - {u} + {target}
  {
  }

  function IdOf(u: int): int { u }

  /** `WITH DISTINCT u2.id LIMIT 3 ... ORDER BY u.id`: the LIMIT comes
      before the ORDER BY, so which three members are chosen is left open;
      the contract promises only that they are distinct members, as many as
      the limit allows, sorted by id. */
  method SimilarMembers(g: Graph, target: int) returns (rows: seq<Member>)
    ensures |rows| == Min(SimilarUsersLimit, |Members(g, target)|)
    ensures forall i :: 0 <= i < |rows| ==> OtherMember(g, target, rows[i].id)
    ensures forall i :: 0 <= i < |rows| ==>
      rows[i] == MemberOf(g, rows[i].id)
    ensures forall i, j :: 0 <= i < j < |rows| ==> rows[i].id < rows[j].id
  {
    AscIsPreorder(IdOf);
    var ids := SelectTop(Members(g, target), Asc(IdOf), SimilarUsersLimit);
    rows := [];
    for i := 0 to |ids|
      invariant |rows| == i
      invariant forall j :: 0 <= j < i ==> rows[j] == MemberOf(g, ids[j])
    {
      rows := rows + [MemberOf(g, ids[i])];
    }
    forall i, j | 0 <= i < j < |rows|
      ensures rows[i].id < rows[j].id
    {
      assert Asc(IdOf)(ids[i], ids[j]);
      assert IdOf(ids[i]) <= IdOf(ids[j]);
      assert ids[i] != ids[j];
      assert rows[i].id == ids[i] && rows[j].id == ids[j];
    }
  }

  /** `get_graph_data`: every rating by a member of the target's community,
      the target's own ratings included. */
  function CommunityRatings(g: Graph, target: int): (s: set<(int, string, int)>)
    ensures forall u, isbn, rating :: (u, isbn, rating) in s <==>
      && target in g.users && g.users[target].community.Some?
      && u in g.users && g.users[u].community == g.users[target].community
      && isbn in g.books && (u, isbn) in g.rated && g.rated[(u, isbn)] == rating
  {
    set k | k in g.rated && target in g.users && g.users[target].community.Some?
      && k.0 in g.users && g.users[k.0].community == g.users[target].community
      && k.1 in g.books :: (k.0, k.1, g.rated[k])
  }

  /** Every recommendation vote is backed by a rating in the target's
      community graph data. */
  lemma VotesInGraphData(g: Graph, target: int, k: (int, string))
    requires Qualifies(g, target, k)
    ensures (k.0, k.1, g.rated[k]) in CommunityRatings(g, target)
  {
  }

  // ---- The Louvain input projection (Alg_Community_Detection.py) ----

  /** The books both users rated 6 or more. */
  function SharedLiked(g: Graph, u1: int, u2: int): (s: set<string>)
    ensures forall b :: b in s <==>
      b in g.books && (u1, b) in g.rated && (u2, b) in g.rated &&
      g.rated[(u1, b)] >= LikedRating && g.rated[(u2, b)] >= LikedRating
  {
    set b | b in g.books && (u1, b) in g.rated && (u2, b) in g.rated &&
      g.rated[(u1, b)] >= LikedRating && g.rated[(u2, b)] >= LikedRating
  }

  /** Sharing liked books is symmetric, and the books a user shares with
      themself are exactly the books they liked. */
  lemma SharedLikedSymmetric(g: Graph, u1: int, u2: int)
    ensures SharedLiked(g, u1, u2) == SharedLiked(g, u2, u1)
    ensures SharedLiked(g, u1, u1) == set b | b in g.books && (u1, b) in g.rated && g.rated[(u1, b)] >= LikedRating
  {
  }

  /** The relationship query of `create_user_similarity_projection`:
      an edge from u1 to u2 with `weight = COUNT(*)`, the number of shared
      liked books (one RATED edge per user and book). */
  function SimilarityEdges(g: Graph): (e: map<(int, int), nat>)
    ensures forall p :: p in e <==>
      p.0 in g.users && p.1 in g.users && p.0 != p.1 && SharedLiked(g, p.0, p.1) != {}
    ensures forall p :: p in e ==> e[p] == |SharedLiked(g, p.0, p.1)|
  {
    map p | p in (set u1, u2 | u1 in g.users && u2 in g.users && u1 != u2 :: (u1, u2))
        && SharedLiked(g, p.0, p.1) != {} :: |SharedLiked(g, p.0, p.1)|
  }

  /** The projection's nodes are all users. */
  function SimilarityNodes(g: Graph): (s: set<int>)
    ensures s == g.users.Keys
  {
    set u | u in g.users
  }

  /** Each edge has its reverse, with the same weight. */
  lemma SimilarityEdgesSymmetric(g: Graph, a: int, b: int)
    ensures (a, b) in SimilarityEdges(g) <==> (b, a) in SimilarityEdges(g)
    ensures (a, b) in SimilarityEdges(g) ==> SimilarityEdges(g)[(a, b)] == SimilarityEdges(g)[(b, a)]
  {
    assert SharedLiked(g, a, b) == SharedLiked(g, b, a);
  }
}

=== FILE: csv_filters.dfy ===
/** The two CSV cleaning scripts that run before the loader: dropping
    zero ratings, then keeping only the users and books that some remaining
    rating mentions.

    Both scripts write each kept row as they go. An exception (an
    `IndexError` or `KeyError` on a malformed row, a `ValueError` from the
    writer) stops the script, and whatever was written before it stays in
    the output file. */
module CsvFilters {
  import opened Common

  /** The rows a script wrote, and whether it stopped with an exception. */
  datatype Outcome<U> = Outcome(written: seq<U>, failed: bool)

  /** Walks the rows in order: a row for which `bad` holds raises, which
      stops the walk; otherwise the row is written as `out(row)` when `keep`
      holds. */
  function Scan<T, U>(rows: seq<T>, bad: T -> bool, keep: T -> bool, out: T -> U): (o: Outcome<U>)
    ensures o.failed <==> exists i :: 0 <= i < |rows| && bad(rows[i])
    ensures |o.written| <= |rows|
    decreases |rows|
  {
    if |rows| == 0 then Outcome([], false)
    else if bad(rows[0]) then Outcome([], true)
    else
      var rest := Scan(rows[1..], bad, keep, out);
      assert forall i :: 0 <= i < |rows| - 1 ==> rows[1..][i] == rows[i + 1];
      Outcome((if keep(rows[0]) then [out(rows[0])] else []) + rest.written, rest.failed)
  }

  /** The length of the longest prefix of `rows` free of bad rows. */
  function CleanPrefix<T>(rows: seq<T>, bad: T -> bool): (n: nat)
    ensures n <= |rows|
    ensures forall i :: 0 <= i < n ==> !bad(rows[i])
    ensures n < |rows| ==> bad(rows[n])
    decreases |rows|
  {
    if |rows| == 0 || bad(rows[0]) then 0
    else
      var n := CleanPrefix(rows[1..], bad);
      assert forall i :: 1 <= i < 1 + n ==> rows[i] == rows[1..][i - 1];
      1 + n
  }

  function MapSeq<T, U>(s: seq<T>, f: T -> U): (r: seq<U>)
    ensures |r| == |s|
    ensures forall i :: 0 <= i < |s| ==> r[i] == f(s[i])
  {
    seq(|s|, i requires 0 <= i < |s| => f(s[i]))
  }

  lemma MapSeqAppend<T, U>(a: seq<T>, b: seq<T>, f: T -> U)
    ensures MapSeq(a + b, f) == MapSeq(a, f) + MapSeq(b, f)
  {
  }

  /** What a scan writes, described without the walk: the kept rows of the
      clean prefix, in order. */
  lemma {:induction false} ScanIsFilteredPrefix<T(!new), U>(rows: seq<T>, bad: T -> bool, keep: T -> bool, out: T -> U)
    ensures Scan(rows, bad, keep, out).written == MapSeq(Filter(rows[..CleanPrefix(rows, bad)], keep), out)
    decreases |rows|
  {
    if |rows| > 0 && !bad(rows[0]) {
      var n := CleanPrefix(rows, bad);
      var rest := Scan(rows[1..], bad, keep, out);
      ScanIsFilteredPrefix(rows[1..], bad, keep, out);
      assert n - 1 == CleanPrefix(rows[1..], bad);
      var head: seq<T> := if keep(rows[0]) then [rows[0]] else [];
      var tail := Filter(rows[1..][..n - 1], keep);
      assert Scan(rows, bad, keep, out).written == MapSeq(head, out) + rest.written;
      assert rows[..n][1..] == rows[1..][..n - 1];
      assert Filter(rows[..n], keep) == head + tail;
      MapSeqAppend(head, tail, out);
    } else {
      assert rows[..CleanPrefix(rows, bad)] == [];
    }
  }

  /** A scan over rows that are all good and all kept writes every row and
      does not fail. */
  lemma {:induction false} ScanKeepsAll<T, U>(rows: seq<T>, bad: T -> bool, keep: T -> bool, out: T -> U)
    requires forall i :: 0 <= i < |rows| ==> !bad(rows[i]) && keep(rows[i])
    ensures Scan(rows, bad, keep, out) == Outcome(MapSeq(rows, out), false)
    decreases |rows|
  {
    if |rows| > 0 {
      assert forall i :: 0 <= i < |rows| - 1 ==> rows[1..][i] == rows[i + 1];
      ScanKeepsAll(rows[1..], bad, keep, out);
      assert MapSeq(rows, out) == [out(rows[0])] + MapSeq(rows[1..], out);
    }
  }

  // ---- Data_Cleaning/ratings_filtern.py ----

  /** `row[2]` raises on a row with fewer than three fields. */
  predicate ShortRating(row: seq<string>) {
    |row| < 3
  }

  /** The rating is compared as text: only the exact string "0" is dropped,
      so the header row and a value such as "00" are kept. */
  predicate KeepRating(row: seq<string>) {
    |row| >= 3 && row[2] != "0"
  }

  function Identity<T>(x: T): T { x }

  /** The ratings cleaner over every line of the file, header included. */
  function FilterRatings(rows: seq<seq<string>>): (o: Outcome<seq<string>>)
    ensures o.failed <==> exists i :: 0 <= i < |rows| && |rows[i]| < 3
    ensures forall r :: r in o.written ==> r in rows && |r| >= 3 && r[2] != "0"
    ensures !o.failed ==> forall r :: r in rows && r[2] != "0" ==> r in o.written
  {
    var o := Scan(rows, ShortRating, KeepRating, Identity);
    ScanIsFilteredPrefix(rows, ShortRating, KeepRating, Identity);
    var n := CleanPrefix(rows, ShortRating);
    var kept := Filter(rows[..n], KeepRating);
    assert MapSeq(kept, Identity) == kept;
    assert forall r :: r in o.written ==> r in rows[..n] && KeepRating(r);
    assert !o.failed ==> n == |rows|;
    assert n == |rows| ==> rows[..n] == rows;
    o
  }

  /** Running the cleaner over its own output writes the same rows again and
      raises nothing. */
  lemma FilterRatingsIdempotent(rows: seq<seq<string>>)
    ensures var o := FilterRatings(rows);
      FilterRatings(o.written) == Outcome(o.written, false)
  {
    var w := FilterRatings(rows).written;
    forall i | 0 <= i < |w|
      ensures !ShortRating(w[i]) && KeepRating(w[i])
    {
      assert w[i] in w;
    }
    ScanKeepsAll(w, ShortRating, KeepRating, Identity);
    assert MapSeq(w, Identity) == w;
  }

  // ---- user_books_filtern.py ----

  /** A CSV file as `csv.DictReader` reads it: the header line and the
      remaining lines split into fields. */
  datatype Table = Table(fields: seq<string>, rows: seq<seq<string>>)

  /** The position that `dict(zip(fieldnames, row))` takes a field's value
      from: the last column bearing that name. */
  function LastIndex(fields: seq<string>, name: string): (j: nat)
    requires name in fields
    ensures j < |fields| && fields[j] == name
    ensures forall k :: j < k < |fields| ==> fields[k] != name
  {
    if fields[|fields| - 1] == name then |fields| - 1
    else LastIndex(fields[..|fields| - 1], name)
  }

  /** `row[name]` of a DictReader record: the value in that column, or None
      (the reader's `restval`) when the line is too short to reach it. */
  function Value(t: Table, row: seq<string>, name: string): (v: Option<string>)
    ensures v.Some? ==> name in t.fields && v.value in row
  {
    if name !in t.fields then None
    else
      var j := LastIndex(t.fields, name);
      if j < |row| then Some(row[j]) else None
  }

  /** DictReader skips lines with no fields at all. */
  function Records(t: Table): (r: seq<seq<string>>)
    ensures forall row :: row in r <==> row in t.rows && |row| > 0
  {
    Filter(t.rows, (row: seq<string>) => |row| > 0)
  }

  /** How DictWriter writes a record: one column per header field, None
      written as the empty string. */
  function Render(t: Table, row: seq<string>): (line: seq<string>)
    ensures |line| == |t.fields|
  {
    seq(|t.fields|, j requires 0 <= j < |t.fields| =>
      match Value(t, row, t.fields[j])
      case Some(v) => v
      case None => "")
  }

  /** Step 1: the User-ID and ISBN values of every rating record. Reading a
      column the header lacks raises `KeyError` (None), but only once there
      is a record to read it from. */
  function CollectValid(ratings: Table): (r: Option<(set<Option<string>>, set<Option<string>>)>)
    ensures r.None? <==> |Records(ratings)| > 0 && ("User-ID" !in ratings.fields || "ISBN" !in ratings.fields)
    ensures r.Some? ==> forall v :: v in r.value.0 <==> exists row :: row in Records(ratings) && Value(ratings, row, "User-ID") == v
    ensures r.Some? ==> forall v :: v in r.value.1 <==> exists row :: row in Records(ratings) && Value(ratings, row, "ISBN") == v
  {
    var recs := Records(ratings);
    if |recs| > 0 && ("User-ID" !in ratings.fields || "ISBN" !in ratings.fields) then None
    else
      Some((set row | row in recs :: Value(ratings, row, "User-ID"),
            set row | row in recs :: Value(ratings, row, "ISBN")))
  }

  /** A record raises when the key column is missing (`KeyError`), or when it
      is to be written but holds more values than the header has fields
      (DictWriter's `ValueError` on the extra values). */
  predicate Raises(t: Table, key: string, valid: set<Option<string>>, row: seq<string>) {
    key !in t.fields || (Value(t, row, key) in valid && |row| > |t.fields|)
  }

  function RaisesOn(t: Table, key: string, valid: set<Option<string>>): seq<string> -> bool {
    (row: seq<string>) => Raises(t, key, valid, row)
  }

  /** `row[key] in valid` */
  function KeyIn(t: Table, key: string, valid: set<Option<string>>): seq<string> -> bool {
    (row: seq<string>) => Value(t, row, key) in valid
  }

  function RenderUnder(t: Table): seq<string> -> seq<string> {
    (row: seq<string>) => Render(t, row)
  }

  /** Steps 2 and 3: the header line, then every record whose `key` value is
      one of the `valid` values, in order, each rendered under the header. */
  function FilterTable(t: Table, key: string, valid: set<Option<string>>): (o: Outcome<seq<string>>)
    ensures |o.written| >= 1 && o.written[0] == t.fields
    ensures o.failed <==> exists i :: 0 <= i < |Records(t)| && Raises(t, key, valid, Records(t)[i])
    ensures forall i :: 1 <= i < |o.written| ==> |o.written[i]| == |t.fields|
  {
    var s := Scan(Records(t), RaisesOn(t, key, valid), KeyIn(t, key, valid), RenderUnder(t));
    ScanIsFilteredPrefix(Records(t), RaisesOn(t, key, valid), KeyIn(t, key, valid), RenderUnder(t));
    assert forall i :: 0 <= i < |s.written| ==> |s.written[i]| == |t.fields|;
    Outcome([t.fields] + s.written, s.failed)
  }

  /** When nothing raises, the lines after the header are exactly the
      records whose key value is valid, in their original order. */
  lemma FilterTableKeeps(t: Table, key: string, valid: set<Option<string>>)
    requires !FilterTable(t, key, valid).failed
    ensures FilterTable(t, key, valid).written[1..] ==
      MapSeq(Filter(Records(t), KeyIn(t, key, valid)), RenderUnder(t))
  {
    var recs := Records(t);
    ScanIsFilteredPrefix(recs, RaisesOn(t, key, valid), KeyIn(t, key, valid), RenderUnder(t));
    var n := CleanPrefix(recs, RaisesOn(t, key, valid));
    assert n == |recs|;
    assert recs[..n] == recs;
  }

  /** Which of the two output files the script produced, and how each ended.
      None: the file was never opened because an earlier step raised. */
  datatype Written = Written(users: Option<Outcome<seq<string>>>, books: Option<Outcome<seq<string>>>)

  /** The whole script: collect, filter the users, then filter the books. */
  function FilterUsersAndBooks(ratings: Table, users: Table, books: Table): (w: Written)
    ensures CollectValid(ratings).None? ==> w.users.None? && w.books.None?
    ensures CollectValid(ratings).Some? ==>
      w.users == Some(FilterTable(users, "User-ID", CollectValid(ratings).value.0))
    ensures w.books.Some? <==> w.users.Some? && !w.users.value.failed
    ensures w.books.Some? ==> w.books == Some(FilterTable(books, "ISBN", CollectValid(ratings).value.1))
  {
    match CollectValid(ratings)
    case None => Written(None, None)
    case Some((ids, isbns)) =>
      var u := FilterTable(users, "User-ID", ids);
      if u.failed then Written(Some(u), None)
      else Written(Some(u), Some(FilterTable(books, "ISBN", isbns)))
  }
}

=== FILE: cypher.dfy ===
/** The pieces of Cypher's value semantics the queries rely on: `toInteger`
    on the cell values the loader passes in, and exact sums over a finite set
    of integer keys (the basis of `avg`). */
module Cypher {
  import opened Common

  /** A cell of a row handed to a query. pandas delivers numeric columns as
      numbers and everything else as text; `fillna("")` turns a missing value
      into the empty text. */
  datatype Cell = Num(x: real) | Text(s: string)

  /** Truncation toward zero, as `toInteger` on a float and Python's `int()`
      perform it. */
  function Trunc(x: real): (n: int)
    ensures 0.0 <= x ==> 0 <= n && n as real <= x < n as real + 1.0
    ensures x < 0.0 ==> n <= 0 && n as real - 1.0 < x <= n as real
  {
    if x >= 0.0 then x.Floor else -((-x).Floor)
  }

  predicate IsDigit(c: char) {
    '0' <= c <= '9'
  }

  /** A non-empty run of decimal digits. */
  predicate AllDigits(s: string) {
    |s| > 0 && forall i :: 0 <= i < |s| ==> IsDigit(s[i])
  }

  function DigitsValue(s: string): nat
    requires forall i :: 0 <= i < |s| ==> IsDigit(s[i])
    decreases |s|
  {
    if |s| == 0 then 0
    else
      assert IsDigit(s[|s| - 1]);
      DigitsValue(s[..|s| - 1]) * 10 + (s[|s| - 1] as int - '0' as int)
  }

  /** `toInteger` on text: an optionally negative run of decimal digits, and
      null for anything else. */
  function ParseInt(s: string): (r: Option<int>)
    ensures r.Some? <==> AllDigits(s) || (|s| >= 2 && s[0] == '-' && AllDigits(s[1..]))
    ensures r.Some? && s[0] == '-' ==> r.value <= 0
    ensures r.Some? && s[0] != '-' ==> r.value >= 0
  {
    if AllDigits(s) then Some(DigitsValue(s))
    else if |s| >= 2 && s[0] == '-' && AllDigits(s[1..]) then Some(0 - DigitsValue(s[1..]) as int)
    else None
  }

  /** `toInteger` on a cell: numbers are truncated, text is parsed. */
  function ToInteger(c: Cell): (r: Option<int>)
    ensures c.Num? ==> r.Some? && (r.value as real - 1.0 < c.x < r.value as real + 1.0)
    ensures c.Text? ==> (r.Some? <==> ParseInt(c.s).Some?)
    ensures c == Text("") ==> r == None
  {
    match c
    case Num(x) => Some(Trunc(x))
    case Text(s) => ParseInt(s)
  }

  /** Decimal rendering of a natural number; the partner of `ParseInt`. */
  function ShowNat(n: nat): (s: string)
    ensures AllDigits(s)
    decreases n
  {
    var d := [('0' as int + n % 10) as char];
    if n < 10 then d else ShowNat(n / 10) + d
  }

  function ShowInt(n: int): string {
    if n >= 0 then ShowNat(n) else "-" + ShowNat(-n)
  }

  lemma {:induction false} ShowNatRoundTrip(n: nat)
    ensures DigitsValue(ShowNat(n)) == n
    decreases n
  {
    var s := ShowNat(n);
    if n >= 10 {
      ShowNatRoundTrip(n / 10);
      assert s[..|s| - 1] == ShowNat(n / 10);
    }
  }

  /** Reading back the decimal text of any integer gives that integer. */
  lemma ParseShowRoundTrip(n: int)
    ensures ParseInt(ShowInt(n)) == Some(n)
  {
    if n >= 0 {
      ShowNatRoundTrip(n);
    } else {
      var s := ShowInt(n);
      ShowNatRoundTrip(-n);
      assert s[1..] == ShowNat(-n);
      assert !AllDigits(s) by { assert !IsDigit(s[0]); }
    }
  }

  /** Every finite non-empty set of integers has a least element. */
  lemma {:induction false} HasLeast(s: set<int>)
    requires s != {}
    ensures exists m :: m in s && forall x :: x in s ==> m <= x
    decreases |s|
  {
    if forall x :: x !in s {
      assert false;
    }
    var y :| y in s;
    if s != {y} {
      HasLeast(s - {y});
      var m :| m in s - {y} && forall x :: x in s - {y} ==> m <= x;
      var least := if y < m then y else m;
      forall x | x in s
        ensures least <= x
      {
        if x != y { assert x in s - {y}; }
      }
      assert least in s;
    } else {
      assert forall x :: x in s ==> y <= x;
    }
  }

  function Least(s: set<int>): (m: int)
    requires s != {}
    ensures m in s && forall x :: x in s ==> m <= x
  {
    HasLeast(s);
    var m :| m in s && forall x :: x in s ==> m <= x;
    m
  }

  /** The sum of `f` over a finite set of integer keys, taken in ascending key
      order (the order does not matter for a sum; it makes the value unique). */
  function SumOver(s: set<int>, f: int -> int): int
    decreases s
  {
    if s == {} then 0
    else var m := Least(s); f(m) + SumOver(s - {m}, f)
  }

  lemma MulStep(n: int, x: int)
    ensures (n - 1) * x + x == n * x
  {
  }

  /** A sum of values that all lie in [lo, hi] lies in [|s|*lo, |s|*hi]. */
  lemma {:induction false} SumOverBounds(s: set<int>, f: int -> int, lo: int, hi: int)
    requires forall x :: x in s ==> lo <= f(x) <= hi
    ensures |s| * lo <= SumOver(s, f) <= |s| * hi
    decreases s
  {
    if s != {} {
      var m := Least(s);
      SumOverBounds(s - {m}, f, lo, hi);
      assert |s - {m}| == |s| - 1;
      MulStep(|s|, lo);
      MulStep(|s|, hi);
    }
  }
}

=== FILE: dashboard.dfy ===
/** The queries behind the user-facing applications: the user picker, the
    listing of a user's rated books, and the dispatch of the neighbourhood
    and recommendation queries on the chosen algorithm. */
module Dashboard {
  import opened Common
  import opened Store
  import opened Ordering
  import Community
  import Similarity

  // ---- get_users_in_large_communities ----

  /** The users `WITH u.community AS communityId, COLLECT(u)` puts in the
      group of label `c`. Grouping treats null as a key like any other, so
      the users without a community form one group of their own. */
  function GroupOf(g: Graph, c: Option<int>): (s: set<int>)
    ensures forall u :: u in s <==> u in g.users && g.users[u].community == c
  {
    set u | u in g.users && g.users[u].community == c
  }

  /** `WHERE size > 1`: `u`'s group has another member. */
  predicate InLargeGroup(g: Graph, u: int) {
    u in g.users && |GroupOf(g, g.users[u].community)| > 1
  }

  function LargeGroupUsers(g: Graph): (s: set<int>)
    ensures forall u :: u in s <==> InLargeGroup(g, u)
  {
    set u | u in g.users && InLargeGroup(g, u)
  }

  /** `user.id AS userId, user.location AS location, user.age AS age,
      communityId` (recommendation_old.py leaves out the age). */
  datatype PickRow = PickRow(userId: int, location: string, age: Option<int>, communityId: Option<int>)

  function PickRowOf(g: Graph, u: int): (r: PickRow)
    requires u in g.users
    ensures r.userId == u && r.communityId == g.users[u].community
  {
    PickRow(u, g.users[u].location, g.users[u].age, g.users[u].community)
  }

  /** `x <= y` on nullable keys, null sorting after every value. */
  predicate NullsLastLe(x: Option<int>, y: Option<int>) {
    y.None? || (x.Some? && x.value <= y.value)
  }

  /** `ORDER BY communityId, userId`, strictly: `x` comes before `y`. */
  predicate Precedes(x: PickRow, y: PickRow) {
    if x.communityId == y.communityId then x.userId < y.userId
    else NullsLastLe(x.communityId, y.communityId)
  }

  function CommunityKey(g: Graph): int -> Option<int> {
    u => CommunityOf(g, u)
  }

  function IdOf(u: int): int { u }

  function ByCommunityThenId(g: Graph): (int, int) -> bool {
    Then(AscNullsLast(CommunityKey(g)), Asc(IdOf))
  }

  lemma ByCommunityThenIdIsPreorder(g: Graph)
    ensures TotalPreorder(ByCommunityThenId(g))
  {
    AscNullsLastIsPreorder(CommunityKey(g));
    AscIsPreorder(IdOf);
    ThenIsPreorder(AscNullsLast(CommunityKey(g)), Asc(IdOf));
  }

  /** Two different users that the order ranks `a` first appear as rows in
      the order `Precedes` states. */
  lemma RankedPrecedes(g: Graph, a: int, b: int)
    requires a in g.users && b in g.users && a != b
    requires ByCommunityThenId(g)(a, b)
    ensures Precedes(PickRowOf(g, a), PickRowOf(g, b))
  {
    var p, q := AscNullsLast(CommunityKey(g)), Asc(IdOf);
    assert ByCommunityThenId(g)(a, b) == (p(a, b) && (!p(b, a) || q(a, b)));
    assert p(a, b) == NullsLastLe(CommunityOf(g, a), CommunityOf(g, b));
    assert p(b, a) == NullsLastLe(CommunityOf(g, b), CommunityOf(g, a));
    assert q(a, b) == (IdOf(a) <= IdOf(b));
  }

  /** The user picker of recommendation_old.py, ui.py and both streamlit
      applications: every user whose group has more than one member, once,
      ordered by community and then by id. */
  method LargeCommunityUsers(g: Graph) returns (rows: seq<PickRow>)
    ensures |rows| == |LargeGroupUsers(g)|
    ensures forall i :: 0 <= i < |rows| ==>
      InLargeGroup(g, rows[i].userId) && rows[i] == PickRowOf(g, rows[i].userId)
    ensures forall u :: InLargeGroup(g, u) ==> exists i :: 0 <= i < |rows| && rows[i].userId == u
    ensures forall i, j :: 0 <= i < j < |rows| ==> Precedes(rows[i], rows[j])
  {
    var cands := LargeGroupUsers(g);
    ByCommunityThenIdIsPreorder(g);
    var ids := SelectTop(cands, ByCommunityThenId(g), |cands|);
    rows := [];
    for i := 0 to |ids|
      invariant |rows| == i
      invariant forall j :: 0 <= j < i ==> rows[j] == PickRowOf(g, ids[j])
    {
      rows := rows + [PickRowOf(g, ids[i])];
    }
    forall i, j | 0 <= i < j < |rows|
      ensures Precedes(rows[i], rows[j])
    {
      RankedPrecedes(g, ids[i], ids[j]);
    }
    forall u | InLargeGroup(g, u)
      ensures exists i :: 0 <= i < |rows| && rows[i].userId == u
    {
      assert u in ids;
      var i :| 0 <= i < |ids| && ids[i] == u;
      assert rows[i].userId == u;
    }
  }

  /** A user is offered exactly when another user shares its community
      label (null included: two users without a community offer each
      other). */
  lemma OfferedUsersHaveCompany(g: Graph, u: int)
    requires u in g.users
    ensures InLargeGroup(g, u) <==>
      exists v :: v in g.users && v != u && g.users[v].community == g.users[u].community
  {
    var grp := GroupOf(g, g.users[u].community);
    assert u in grp;
    var rest := grp - {u};
    assert |rest| == |grp| - 1;
    if InLargeGroup(g, u) {
      if forall x :: x !in rest {
        assert false;
      }
      var v :| v in rest;
      assert v in g.users && v != u && g.users[v].community == g.users[u].community;
    }
  }

  /** For a target with a community label, the community rule's other
      members are its picker group without itself; so an offered user with
      a label always has a community to draw on, and one without a label
      has none, whatever its group's size. */
  lemma MembersAreGroupMates(g: Graph, target: int)
    requires target in g.users
    ensures g.users[target].community.Some? ==>
      Community.Members(g, target) == GroupOf(g, g.users[target].community) - {target}
    ensures g.users[target].community.Some? ==>
      (Community.Members(g, target) != {} <==> InLargeGroup(g, target))
    ensures g.users[target].community.None? ==> Community.Members(g, target) == {}
  {
    OfferedUsersHaveCompany(g, target);
    if g.users[target].community.Some? {
      var m := Community.Members(g, target);
      if m != {} {
        if forall x :: x !in m {
          assert false;
        }
        var v :| v in m;
        assert v in g.users && v != target && g.users[v].community == g.users[target].community;
      }
      if InLargeGroup(g, target) {
        var v :| v in g.users && v != target && g.users[v].community == g.users[target].community;
        assert v in m;
      }
    }
  }

  // ---- get_user_rated_books ----

  /** `b.title AS title, b.author AS author, r.rating AS rating`; `isbn`
      names the book the row is about. */
  datatype RatedRow = RatedRow(isbn: string, title: string, author: string, rating: int)

  /** The books `(u:User {id: $userId})-[r:RATED]->(b:Book)` reaches. */
  function RatedIsbns(g: Graph, u: int): (s: set<string>)
    ensures forall b :: b in s <==> u in g.users && b in g.books && (u, b) in g.rated
  {
    set k | k in g.rated && k.0 == u && u in g.users && k.1 in g.books :: k.1
  }

  function RatedRowOf(g: Graph, u: int, b: string): (r: RatedRow)
    requires b in g.books && (u, b) in g.rated
    ensures r.isbn == b && r.rating == g.rated[(u, b)]
  {
    RatedRow(b, g.books[b].title, g.books[b].author, g.rated[(u, b)])
  }

  function RatingKey(g: Graph, u: int): string -> int {
    b => if (u, b) in g.rated then g.rated[(u, b)] else 0
  }

  /** `get_user_rated_books`: one row per RATED edge of the user, highest
      rating first. */
  method UserRatedBooks(g: Graph, u: int) returns (rows: seq<RatedRow>)
    ensures |rows| == |RatedIsbns(g, u)|
    ensures forall i :: 0 <= i < |rows| ==>
      rows[i].isbn in RatedIsbns(g, u) && rows[i] == RatedRowOf(g, u, rows[i].isbn)
    ensures forall b :: b in RatedIsbns(g, u) ==> exists i :: 0 <= i < |rows| && rows[i].isbn == b
    ensures forall i, j :: 0 <= i < j < |rows| ==> rows[i].isbn != rows[j].isbn
    ensures forall i, j :: 0 <= i < j < |rows| ==> rows[i].rating >= rows[j].rating
  {
    var cands := RatedIsbns(g, u);
    var f := RatingKey(g, u);
    DescIsPreorder(f);
    var isbns := SelectTop(cands, Desc(f), |cands|);
    RankedByDesc(isbns, f);
    rows := [];
    for i := 0 to |isbns|
      invariant |rows| == i
      invariant forall j :: 0 <= j < i ==> rows[j] == RatedRowOf(g, u, isbns[j])
    {
      rows := rows + [RatedRowOf(g, u, isbns[i])];
    }
    forall b | b in cands
      ensures exists i :: 0 <= i < |rows| && rows[i].isbn == b
    {
      assert b in isbns;
      var i :| 0 <= i < |isbns| && isbns[i] == b;
      assert rows[i].isbn == b;
    }
    forall i, j | 0 <= i < j < |rows|
      ensures rows[i].rating >= rows[j].rating
    {
      assert f(isbns[i]) >= f(isbns[j]);
    }
  }

  // ---- Dispatch on the algorithm chosen in the application ----

  /** `get_similar_users(user_id, algorithm)` of visualization/streamlit_app.py:
      "KNN" follows SIMILAR_TO, "Community" takes other members of the
      target's community, anything else takes co-raters. */
  method SimilarUsersFor(g: Graph, target: int, algorithm: string) returns (rows: seq<Member>)
    ensures forall i :: 0 <= i < |rows| ==>
      rows[i].id != target && rows[i].id in g.users && rows[i] == MemberOf(g, rows[i].id)
    ensures forall i, j :: 0 <= i < j < |rows| ==> rows[i].id != rows[j].id
    ensures algorithm == "KNN" ==>
      && |rows| == Min(3, |Similarity.OtherNeighbours(g, target)|)
      && forall i :: 0 <= i < |rows| ==> Similarity.Neighbour(g, target, rows[i].id)
    ensures algorithm == "Community" ==>
      && |rows| == Min(3, |Community.Members(g, target)|)
      && (forall i :: 0 <= i < |rows| ==> Community.OtherMember(g, target, rows[i].id))
      && forall i, j :: 0 <= i < j < |rows| ==> rows[i].id < rows[j].id
    ensures algorithm != "KNN" && algorithm != "Community" ==>
      && |rows| == Min(3, |Similarity.CoRaters(g, target)|)
      && (forall i :: 0 <= i < |rows| ==> Similarity.CoRater(g, target, rows[i].id))
      && (forall i, j :: 0 <= i < j < |rows| ==>
        |Similarity.SharedBooks(g, target, rows[i].id)| >= |Similarity.SharedBooks(g, target, rows[j].id)|)
      && forall u, i :: (Similarity.CoRater(g, target, u) && 0 <= i < |rows| &&
        forall j :: 0 <= j < |rows| ==> rows[j].id != u) ==>
        |Similarity.SharedBooks(g, target, rows[i].id)| >= |Similarity.SharedBooks(g, target, u)|
  {
    if algorithm == "KNN" {
      rows := Similarity.SimilarUsers(g, target);
    } else if algorithm == "Community" {
      rows := Community.SimilarMembers(g, target);
    } else {
      rows := Similarity.CoRatingUsers(g, target);
    }
  }

  /** `get_recommendations(user_id, algorithm)` of ui.py: the "Community"
      branch is the community rule with LIMIT 3; the other branch's query
      uses a variable that its `WITH` has dropped, so the engine rejects it
      and no list is returned. */
  method RecommendationsFor(g: Graph, target: int, algorithm: string) returns (r: Option<seq<Community.Row>>)
    ensures r.Some? <==> algorithm == "Community"
    ensures r.Some? ==> |r.value| <= Community.CommunityLimit
    ensures r.Some? ==> forall i :: 0 <= i < |r.value| ==>
      r.value[i].recommendCount == |Community.VotesFor(g, target, Community.ByTitleAuthor, r.value[i].key)| > 0
    ensures r.Some? ==> forall i, j :: 0 <= i < j < |r.value| ==> r.value[i].key != r.value[j].key
    ensures r.Some? ==> forall i, j :: 0 <= i < j < |r.value| ==>
      r.value[i].recommendCount >= r.value[j].recommendCount
    ensures r.Some? ==> forall k, i ::
      (Community.Qualifies(g, target, k) && 0 <= i < |r.value| &&
       (forall j :: 0 <= j < |r.value| ==> r.value[j].key != Community.KeyOf(g, Community.ByTitleAuthor, k.1))) ==>
      r.value[i].recommendCount >= |Community.VotesFor(g, target, Community.ByTitleAuthor, Community.KeyOf(g, Community.ByTitleAuthor, k.1))|
    ensures r.Some? && |r.value| < Community.CommunityLimit ==> forall k :: Community.Qualifies(g, target, k) ==>
      exists i :: 0 <= i < |r.value| && r.value[i].key == Community.KeyOf(g, Community.ByTitleAuthor, k.1)
  {
    if algorithm == "Community" {
      var rows := Community.Recommend(g, target, Community.ByTitleAuthor, Community.CommunityLimit);
      r := Some(rows);
    } else {
      r := None;
    }
  }
}

=== FILE: evaluation.dfy ===
/** The offline evaluation of the similarity recommender
    (`evaluate_recommendations`): the titles recommended to a user are
    compared, as sets, with the titles of the books the user rated. */
module Evaluation {
  import opened Common
  import opened Store
  import Similarity
  import Dashboard

  /** The returned dict: precision, recall and the titles found in both
      lists. */
  datatype Scores = Scores(precision: real, recall: real, truePositives: set<string>)

  /** No title occurs twice in the list. */
  predicate NoRepeats(s: seq<string>) {
    forall i, j :: 0 <= i < j < |s| ==> s[i] != s[j]
  }

  lemma SubsetSize(a: set<string>, b: set<string>)
    requires a <= b
    ensures |a| <= |b|
  {
    assert b == a + (b - a);
  }

  /** A list without repeats has as many distinct titles as entries. */
  lemma {:induction false} NoRepeatsElements(s: seq<string>)
    requires NoRepeats(s)
    ensures |Elements(s)| == |s|
  {
    if |s| > 0 {
      assert NoRepeats(s[1..]) by {
        forall i, j | 0 <= i < j < |s[1..]|
          ensures s[1..][i] != s[1..][j]
        {
          assert s[1..][i] == s[i + 1] && s[1..][j] == s[j + 1];
        }
      }
      NoRepeatsElements(s[1..]);
      assert Elements(s) == {s[0]} + Elements(s[1..]);
      assert forall k :: 0 <= k < |s[1..]| ==> s[1..][k] == s[k + 1] != s[0];
      assert s[0] !in Elements(s[1..]);
    }
  }

  /** `len(tp) / n if n else 0`. */
  function Ratio(hits: nat, n: nat): real {
    if n == 0 then 0.0 else hits as real / n as real
  }

  lemma RatioBounds(hits: nat, n: nat)
    requires hits <= n
    ensures 0.0 <= Ratio(hits, n) <= 1.0
    ensures Ratio(hits, n) == 1.0 <==> n > 0 && hits == n
    ensures Ratio(hits, n) == 0.0 <==> n == 0 || hits == 0
  {
  }

  /** `set(recommended) & set(groundTruth)` and the two ratios. */
  function Score(recommended: seq<string>, groundTruth: seq<string>): (s: Scores)
    ensures forall t :: t in s.truePositives <==> t in recommended && t in groundTruth
    ensures 0.0 <= s.precision <= 1.0 && 0.0 <= s.recall <= 1.0
    ensures s.precision == 0.0 <==> recommended == [] || s.truePositives == {}
    ensures s.recall == 0.0 <==> groundTruth == [] || s.truePositives == {}
  {
    var tp := Elements(recommended) * Elements(groundTruth);
    SubsetSize(tp, Elements(recommended));
    SubsetSize(tp, Elements(groundTruth));
    ElementsBound(recommended);
    ElementsBound(groundTruth);
    RatioBounds(|tp|, |recommended|);
    RatioBounds(|tp|, |groundTruth|);
    Scores(Ratio(|tp|, |recommended|), Ratio(|tp|, |groundTruth|), tp)
  }

  /** Full precision means every recommended title is in the ground truth;
      for a list without repeats the converse holds too. */
  lemma PrecisionOne(recommended: seq<string>, groundTruth: seq<string>)
    ensures Score(recommended, groundTruth).precision == 1.0 ==>
      recommended != [] && forall t :: t in recommended ==> t in groundTruth
    ensures (recommended != [] && NoRepeats(recommended) &&
      forall t :: t in recommended ==> t in groundTruth) ==> Score(recommended, groundTruth).precision == 1.0
  {
    var tp := Score(recommended, groundTruth).truePositives;
    ElementsBound(recommended);
    SubsetSize(tp, Elements(recommended));
    RatioBounds(|tp|, |recommended|);
    if exists t :: t in recommended && t !in groundTruth {
      var t :| t in recommended && t !in groundTruth;
      assert tp <= Elements(recommended) - {t};
      SubsetSize(tp, Elements(recommended) - {t});
    }
    if recommended != [] && NoRepeats(recommended) && forall t :: t in recommended ==> t in groundTruth {
      NoRepeatsElements(recommended);
      assert tp == Elements(recommended);
    }
  }

  /** Full recall means every ground-truth title was recommended; for a
      ground truth without repeats the converse holds too. */
  lemma RecallOne(recommended: seq<string>, groundTruth: seq<string>)
    ensures Score(recommended, groundTruth).recall == 1.0 ==>
      groundTruth != [] && forall t :: t in groundTruth ==> t in recommended
    ensures (groundTruth != [] && NoRepeats(groundTruth) &&
      forall t :: t in groundTruth ==> t in recommended) ==> Score(recommended, groundTruth).recall == 1.0
  {
    var tp := Score(recommended, groundTruth).truePositives;
    ElementsBound(groundTruth);
    SubsetSize(tp, Elements(groundTruth));
    RatioBounds(|tp|, |groundTruth|);
    if exists t :: t in groundTruth && t !in recommended {
      var t :| t in groundTruth && t !in recommended;
      assert tp <= Elements(groundTruth) - {t};
      SubsetSize(tp, Elements(groundTruth) - {t});
    }
    if groundTruth != [] && NoRepeats(groundTruth) && forall t :: t in groundTruth ==> t in recommended {
      NoRepeatsElements(groundTruth);
      assert tp == Elements(groundTruth);
    }
  }

  /** `RETURN collect(b.title) AS groundTruth`: the title of each book the
      user rated, once per RATED edge; a missing user gives the empty list. */
  method GroundTruth(g: Graph, u: int) returns (titles: seq<string>)
    ensures |titles| == |Dashboard.RatedIsbns(g, u)|
    ensures forall t :: t in titles <==> exists b :: b in Dashboard.RatedIsbns(g, u) && g.books[b].title == t
  {
    var rows := Dashboard.UserRatedBooks(g, u);
    titles := [];
    for i := 0 to |rows|
      invariant |titles| == i
      invariant forall j :: 0 <= j < i ==> titles[j] == g.books[rows[j].isbn].title
    {
      titles := titles + [rows[i].title];
    }
    forall t | t in titles
      ensures exists b :: b in Dashboard.RatedIsbns(g, u) && g.books[b].title == t
    {
      var j :| 0 <= j < |titles| && titles[j] == t;
      assert rows[j].isbn in Dashboard.RatedIsbns(g, u);
    }
    forall t | exists b :: b in Dashboard.RatedIsbns(g, u) && g.books[b].title == t
      ensures t in titles
    {
      var b :| b in Dashboard.RatedIsbns(g, u) && g.books[b].title == t;
      var j :| 0 <= j < |rows| && rows[j].isbn == b;
      assert titles[j] == t;
    }
  }

  /** No two books of the catalogue share a title. */
  predicate UniqueTitles(g: Graph) {
    forall a, b :: a in g.books && b in g.books && g.books[a].title == g.books[b].title ==> a == b
  }

  /** What the similarity recommender returns for `limit`: as many rows as
      it can, each an unrated book with its votes, no book twice, best
      first, and no book left out that outranks one returned. */
  predicate TopRows(g: Graph, target: int, limit: nat, rows: seq<Similarity.Row>) {
    && |rows| == Min(limit, |Similarity.Recommendable(g, target)|)
    && (forall i :: 0 <= i < |rows| ==>
         && rows[i].isbn in Similarity.Recommendable(g, target)
         && rows[i].isbn in g.books && !Rated(g, target, rows[i].isbn))
    && (forall i, j :: 0 <= i < j < |rows| ==> rows[i].isbn != rows[j].isbn)
    && (forall i, j :: 0 <= i < j < |rows| ==> Similarity.Outranks(rows[i], rows[j]))
    && (forall b, i :: (b in Similarity.Recommendable(g, target) && 0 <= i < |rows| &&
         forall j :: 0 <= j < |rows| ==> rows[j].isbn != b) ==>
         Similarity.Outranks(rows[i], Similarity.RowFor(g, target, b)))
  }

  /** `[r["title"] for r in recommended]`: the titles of the top-ranked
      rows, in their order. */
  method RecommendedTitles(g: Graph, target: int, limit: nat) returns (rows: seq<Similarity.Row>, titles: seq<string>)
    ensures TopRows(g, target, limit, rows)
    ensures |titles| == |rows|
    ensures forall i :: 0 <= i < |titles| ==> titles[i] == g.books[rows[i].isbn].title
  {
    rows := Similarity.Recommend(g, target, limit);
    titles := [];
    for i := 0 to |rows|
      invariant |titles| == i
      invariant forall j :: 0 <= j < i ==> titles[j] == g.books[rows[j].isbn].title
    {
      titles := titles + [rows[i].title];
    }
    forall i | 0 <= i < |rows|
      ensures rows[i].isbn in Similarity.Recommendable(g, target)
    {
      assert Similarity.Voters(g, target, rows[i].isbn) != {};
    }
  }

  /** A title in both lists belongs to an unrated and to a rated book,
      which are therefore different books. */
  lemma HitsAreSharedTitles(g: Graph, target: int, titles: seq<string>, truth: seq<string>)
    requires forall i :: 0 <= i < |titles| ==> exists b ::
      b in g.books && !Rated(g, target, b) && g.books[b].title == titles[i]
    requires forall t :: t in truth ==> exists b :: b in Dashboard.RatedIsbns(g, target) && g.books[b].title == t
    ensures forall t :: t in Score(titles, truth).truePositives ==> exists a, b ::
      && a in g.books && !Rated(g, target, a) && b in Dashboard.RatedIsbns(g, target)
      && a != b && g.books[a].title == t && g.books[b].title == t
    ensures UniqueTitles(g) ==> Score(titles, truth).truePositives == {}
  {
    forall t | t in Score(titles, truth).truePositives
      ensures exists a, b ::
        && a in g.books && !Rated(g, target, a) && b in Dashboard.RatedIsbns(g, target)
        && a != b && g.books[a].title == t && g.books[b].title == t
    {
      var j :| 0 <= j < |titles| && titles[j] == t;
      var a :| a in g.books && !Rated(g, target, a) && g.books[a].title == t;
      var b :| b in Dashboard.RatedIsbns(g, target) && g.books[b].title == t;
      assert Rated(g, target, b);
    }
  }

  /** `evaluate_recommendations(user_id, limit)`. A recommended book is
      never one the user rated, so a hit is always a title that two
      different books share: with unique titles the evaluation scores zero
      whatever the recommender does. */
  method Evaluate(g: Graph, target: int, limit: nat)
    returns (rows: seq<Similarity.Row>, titles: seq<string>, truth: seq<string>, s: Scores)
    ensures TopRows(g, target, limit, rows)
    ensures |titles| == |rows|
    ensures forall i :: 0 <= i < |titles| ==> titles[i] == g.books[rows[i].isbn].title
    ensures |truth| == |Dashboard.RatedIsbns(g, target)|
    ensures forall t :: t in truth <==> exists b :: b in Dashboard.RatedIsbns(g, target) && g.books[b].title == t
    ensures s == Score(titles, truth)
    ensures 0.0 <= s.precision <= 1.0 && 0.0 <= s.recall <= 1.0
    ensures forall t :: t in s.truePositives ==> exists a, b ::
      && a in g.books && !Rated(g, target, a) && b in Dashboard.RatedIsbns(g, target)
      && a != b && g.books[a].title == t && g.books[b].title == t
    ensures s.recall == 0.0 <==> Dashboard.RatedIsbns(g, target) == {} || s.truePositives == {}
    ensures UniqueTitles(g) ==> s.truePositives == {} && s.precision == 0.0 && s.recall == 0.0
  {
    rows, titles := RecommendedTitles(g, target, limit);
    truth := GroundTruth(g, target);
    assert forall i :: 0 <= i < |titles| ==> rows[i].isbn in g.books && !Rated(g, target, rows[i].isbn);
    HitsAreSharedTitles(g, target, titles, truth);
    s := Score(titles, truth);
  }
}

=== FILE: features.dfy ===
/** Preparing node features for the graph algorithms: imputing missing
    ages, cleaning embedding vectors, choosing the nodes of the KNN
    projection, and the null-to-zero coercion of embeddings.

    Cypher's null semantics decide which users each statement touches:
    `size(null) < 5` and `ANY(x IN null WHERE ...)` are null, not true, so
    those statements only ever touch vectors that are present. */
module Features {
  import opened Common
  import opened Cypher
  import opened Store
  import opened Ordering

  /** The age given to every user when no user has a known age. */
  const FallbackAge: int := 30

  /** Vectors shorter than this are removed by the cleaning passes. */
  const MinLength: nat := 5

  // ---- Age imputation (check_and_fix_features) ----

  function KnownAges(g: Graph): (s: set<int>)
    ensures forall id :: id in s <==> id in g.users && g.users[id].age.Some?
  {
    set id | id in g.users && g.users[id].age.Some?
  }

  /** The age of a user, for summing over users whose age is known. */
  function AgeAt(g: Graph): int -> int {
    id => if id in g.users && g.users[id].age.Some? then g.users[id].age.value else 0
  }

  /** `avg(u.age)` over the users whose age is not null, as an exact value. */
  function MeanAge(g: Graph): real
    requires KnownAges(g) != {}
  {
    SumOver(KnownAges(g), AgeAt(g)) as real / |KnownAges(g)| as real
  }

  /** `int(avg)` — truncated toward zero — or 30 when `avg` is null
      because no age is known. */
  function ImputedAge(g: Graph): (a: int)
    ensures KnownAges(g) == {} ==> a == FallbackAge
    ensures KnownAges(g) != {} && MeanAge(g) >= 0.0 ==> a as real <= MeanAge(g) < a as real + 1.0
    ensures KnownAges(g) != {} && MeanAge(g) < 0.0 ==> a as real - 1.0 < MeanAge(g) <= a as real
  {
    if KnownAges(g) == {} then FallbackAge else Trunc(MeanAge(g))
  }

  lemma MeanBetween(sum: real, n: real, lo: real, hi: real)
    requires n > 0.0 && n * lo <= sum <= n * hi
    ensures lo <= sum / n <= hi
  {
    var q := sum / n;
    assert q * n == sum;
    assert (q - lo) * n >= 0.0 && (hi - q) * n >= 0.0;
  }

  lemma TruncBetween(x: real, lo: int, hi: int)
    requires lo as real <= x <= hi as real
    ensures lo <= Trunc(x) <= hi
  {
  }

  /** An integer mean of values in [lo, hi] lies in [lo, hi]. */
  lemma IntMeanBetween(sum: int, n: nat, lo: int, hi: int)
    requires n > 0 && n * lo <= sum <= n * hi
    ensures lo as real <= sum as real / n as real <= hi as real
  {
    assert (n * lo) as real == n as real * lo as real;
    assert (n * hi) as real == n as real * hi as real;
    MeanBetween(sum as real, n as real, lo as real, hi as real);
  }

  /** When every known age lies in [lo, hi], so does the imputed age. */
  lemma ImputedAgeInRange(g: Graph, lo: int, hi: int)
    requires KnownAges(g) != {}
    requires forall id :: id in g.users && g.users[id].age.Some? ==> lo <= g.users[id].age.value <= hi
    ensures lo <= ImputedAge(g) <= hi
  {
    var k := KnownAges(g);
    SumOverBounds(k, AgeAt(g), lo, hi);
    IntMeanBetween(SumOver(k, AgeAt(g)), |k|, lo, hi);
    TruncBetween(MeanAge(g), lo, hi);
  }

  /** `check_and_fix_features`: every user whose age is null gets the
      imputed age. */
  function FixAges(g: Graph): (h: Graph)
    ensures h.users.Keys == g.users.Keys
    ensures h.books == g.books && h.rated == g.rated && h.similar == g.similar && h.bookEmbedding == g.bookEmbedding
    ensures forall id :: id in h.users ==> h.users[id].age.Some?
    ensures forall id :: id in g.users && g.users[id].age.Some? ==> h.users[id] == g.users[id]
    ensures forall id :: id in g.users && g.users[id].age.None? ==>
      h.users[id] == g.users[id].(age := Some(ImputedAge(g)))
  {
    var a := ImputedAge(g);
    g.(users := map id | id in g.users ::
      if g.users[id].age.None? then g.users[id].(age := Some(a)) else g.users[id])
  }

  /** Running the imputation again changes nothing. */
  lemma FixAgesIdempotent(g: Graph)
    ensures FixAges(FixAges(g)) == FixAges(g)
  {
    var h := FixAges(g);
    assert FixAges(h).users == h.users;
  }

  // ---- Vector cleaning ----

  predicate HasNull(v: Vec) {
    exists i :: 0 <= i < |v| && v[i].None?
  }

  /** A vector the cleaning passes keep: no null element and long enough. */
  predicate Usable(v: Vec) {
    !HasNull(v) && |v| >= MinLength
  }

  /** The users' graphs with one property rewritten user by user. */
  function MapUsers(g: Graph, f: User -> User): (h: Graph)
    ensures h.users.Keys == g.users.Keys
    ensures forall id :: id in h.users ==> h.users[id] == f(g.users[id])
    ensures h.books == g.books && h.rated == g.rated && h.similar == g.similar && h.bookEmbedding == g.bookEmbedding
  {
    g.(users := map id | id in g.users :: f(g.users[id]))
  }

  /** `clean_invalid_embeddings`: removes `graphsageFeature` where it is the
      empty list. Like `clean_graphsage_embeddings` below, it is defined but
      never called: the pipeline cleans with `clean_embeddings_strict`. */
  function CleanInvalid(g: Graph): (h: Graph)
    ensures h.users.Keys == g.users.Keys
    ensures forall id :: id in g.users ==>
      h.users[id] == (if g.users[id].graphsageFeature == Some([])
                      then g.users[id].(graphsageFeature := None) else g.users[id])
  {
    MapUsers(g, (u: User) => if u.graphsageFeature.Some? && |u.graphsageFeature.value| == 0
                             then u.(graphsageFeature := None) else u)
  }

  /** After the pass no user holds an empty vector, every non-empty vector
      is kept, nothing but `graphsageFeature` changes, and a second pass
      changes nothing. */
  lemma CleanInvalidLeavesNoEmpty(g: Graph)
    ensures var h := CleanInvalid(g);
      forall id :: id in h.users && h.users[id].graphsageFeature.Some? ==> |h.users[id].graphsageFeature.value| > 0
    ensures var h := CleanInvalid(g);
      forall id :: id in g.users && g.users[id].graphsageFeature.Some? && |g.users[id].graphsageFeature.value| > 0 ==>
        h.users[id] == g.users[id]
    ensures var h := CleanInvalid(g);
      forall id :: id in g.users ==> h.users[id] == g.users[id].(graphsageFeature := h.users[id].graphsageFeature)
    ensures CleanInvalid(CleanInvalid(g)) == CleanInvalid(g)
  {
    var h := CleanInvalid(g);
    assert CleanInvalid(h).users == h.users;
  }

  /** First statement of `clean_graphsage_embeddings`: drop vectors that
      hold a null element. */
  function DropNullElements(u: User): User {
    if u.graphsageFeature.Some? && HasNull(u.graphsageFeature.value)
    then u.(graphsageFeature := None) else u
  }

  /** Second statement: drop vectors shorter than `MinLength`. */
  function DropShort(u: User): User {
    if u.graphsageFeature.Some? && |u.graphsageFeature.value| < MinLength
    then u.(graphsageFeature := None) else u
  }

  /** `clean_graphsage_embeddings`, the two statements in order. Afterwards
      a user keeps its vector exactly when the vector is usable. */
  function CleanGraphsage(g: Graph): (h: Graph)
    ensures h.users.Keys == g.users.Keys
    ensures forall id :: id in g.users ==>
      var v := g.users[id].graphsageFeature;
      h.users[id] == g.users[id].(graphsageFeature := if v.Some? && Usable(v.value) then v else None)
  {
    MapUsers(MapUsers(g, DropNullElements), DropShort)
  }

  /** After the pass every present vector is usable. */
  lemma CleanGraphsageLeavesUsable(g: Graph)
    ensures var h := CleanGraphsage(g);
      forall id :: id in h.users && h.users[id].graphsageFeature.Some? ==> Usable(h.users[id].graphsageFeature.value)
    ensures CleanGraphsage(CleanGraphsage(g)) == CleanGraphsage(g)
  {
    var h := CleanGraphsage(g);
    assert CleanGraphsage(h).users == h.users;
  }

  /** The raw vector can be copied: present, not empty, no null element. */
  predicate Copyable(v: Option<Vec>) {
    v.Some? && |v.value| > 0 && !HasNull(v.value)
  }

  /** First statement of `clean_embeddings_strict`. */
  function CopyClean(u: User): User {
    if Copyable(u.graphsageFeature) then u.(cleanedFeature := u.graphsageFeature) else u
  }

  /** Second statement: `size(u.cleanedFeature) < 5` holds only for a
      present vector. */
  function DropShortCleaned(u: User): User {
    if u.cleanedFeature.Some? && |u.cleanedFeature.value| < MinLength
    then u.(cleanedFeature := None) else u
  }

  /** Both statements applied to one user. */
  function CleanUser(u: User): (v: User)
    ensures v.graphsageFeature == u.graphsageFeature
    ensures v.cleanedFeature.Some? ==> |v.cleanedFeature.value| >= MinLength
    ensures Copyable(u.graphsageFeature) ==>
      v.cleanedFeature == (if |u.graphsageFeature.value| >= MinLength then u.graphsageFeature else None)
    ensures !Copyable(u.graphsageFeature) ==>
      v.cleanedFeature == (if u.cleanedFeature.Some? && |u.cleanedFeature.value| >= MinLength then u.cleanedFeature else None)
    ensures v == u.(cleanedFeature := v.cleanedFeature)
  {
    DropShortCleaned(CopyClean(u))
  }

  /** `clean_embeddings_strict` (and its copy `clean_graphsage_feature`).
      A copyable raw vector replaces the cleaned one; a cleaned vector
      shorter than 5 is removed, whether it was copied now or left from
      before; the raw vector is never changed. */
  function CleanStrict(g: Graph): (h: Graph)
    ensures h.users.Keys == g.users.Keys
    ensures h.books == g.books && h.rated == g.rated && h.similar == g.similar && h.bookEmbedding == g.bookEmbedding
    ensures forall id :: id in h.users ==> h.users[id].graphsageFeature == g.users[id].graphsageFeature
    ensures forall id :: id in h.users && h.users[id].cleanedFeature.Some? ==> |h.users[id].cleanedFeature.value| >= MinLength
    ensures forall id :: id in g.users && Copyable(g.users[id].graphsageFeature) ==>
      h.users[id].cleanedFeature ==
        (if |g.users[id].graphsageFeature.value| >= MinLength then g.users[id].graphsageFeature else None)
    ensures forall id :: id in g.users && !Copyable(g.users[id].graphsageFeature) ==>
      var c := g.users[id].cleanedFeature;
      h.users[id].cleanedFeature == (if c.Some? && |c.value| >= MinLength then c else None)
    ensures forall id :: id in g.users ==>
      h.users[id] == g.users[id].(cleanedFeature := h.users[id].cleanedFeature)
  {
    var h := MapUsers(MapUsers(g, CopyClean), DropShortCleaned);
    assert forall id :: id in h.users ==> h.users[id] == CleanUser(g.users[id]);
    h
  }

  /** Running the strict cleaning again changes nothing. */
  lemma CleanStrictIdempotent(g: Graph)
    ensures CleanStrict(CleanStrict(g)) == CleanStrict(g)
  {
    var h := CleanStrict(g);
    assert CleanStrict(h).users == h.users;
  }

  // ---- Node selection and coercion for the KNN projections ----

  /** The node query of `project_knn_graph`: users whose `cleanedFeature`
      is present and not empty. */
  function KnnNodes(g: Graph): (s: set<int>)
    ensures forall id :: id in s <==> id in g.users && g.users[id].cleanedFeature.Some? && |g.users[id].cleanedFeature.value| > 0
  {
    set id | id in g.users && g.users[id].cleanedFeature.Some? && |g.users[id].cleanedFeature.value| > 0
  }

  /** After strict cleaning, the KNN projection holds every user with a
      cleaned vector, and every user whose raw vector is usable. */
  lemma KnnNodesAfterCleaning(g: Graph)
    ensures var h := CleanStrict(g);
      forall id :: id in KnnNodes(h) <==> id in h.users && h.users[id].cleanedFeature.Some?
    ensures forall id :: id in g.users && g.users[id].graphsageFeature.Some? && Usable(g.users[id].graphsageFeature.value) ==>
      id in KnnNodes(CleanStrict(g))
  {
  }

  /** `coalesce([x IN u.embedding | coalesce(toFloat(x), 0.0)], [0.0, 0.0,
      0.0, 0.0])`: a null element reads as 0.0 and a missing embedding as
      four zeros. */
  function Coerce(e: Option<Vec>): (r: seq<real>)
    ensures e.None? ==> r == [0.0, 0.0, 0.0, 0.0]
    ensures e.Some? ==> |r| == |e.value|
    ensures e.Some? ==> forall i :: 0 <= i < |r| && e.value[i].Some? ==> r[i] == e.value[i].value
    ensures e.Some? ==> forall i :: 0 <= i < |r| && e.value[i].None? ==> r[i] == 0.0
  {
    match e
    case None => [0.0, 0.0, 0.0, 0.0]
    case Some(v) => seq(|v|, i requires 0 <= i < |v| => match v[i] case Some(x) => x case None => 0.0)
  }

  /** A vector without nulls, as stored. */
  function Lift(r: seq<real>): (v: Vec)
    ensures |v| == |r| && !HasNull(v)
  {
    seq(|r|, i requires 0 <= i < |r| => Some(r[i]))
  }

  /** Coercing leaves a null-free vector's values as they are, so coercing a
      coerced vector again gives it back. */
  lemma CoerceStable(e: Option<Vec>)
    ensures Coerce(Some(Lift(Coerce(e)))) == Coerce(e)
    ensures e.Some? && !HasNull(e.value) ==> Lift(Coerce(e)) == e.value
  {
    if e.Some? && !HasNull(e.value) {
      var v := e.value;
      forall i | 0 <= i < |v|
        ensures Lift(Coerce(e))[i] == v[i]
      {
        assert v[i].Some?;
      }
    }
  }

  /** The node query of the second projection in the FastRP pipeline: every
      user, each with its coerced embedding. */
  function CoercedProjection(g: Graph): (p: map<int, seq<real>>)
    ensures p.Keys == g.users.Keys
    ensures forall id :: id in p ==> |p[id]| > 0 || g.users[id].embedding == Some([])
  {
    map id | id in g.users :: Coerce(g.users[id].embedding)
  }

  // ---- check_embedding_lengths ----

  /** One row of `RETURN size(u.embedding) AS len, count(*) AS count`. */
  datatype LengthRow = LengthRow(len: Option<int>, count: int)

  function LengthOf(u: User): Option<int> {
    match u.embedding
    case None => None
    case Some(v) => Some(|v|)
  }

  /** The users whose embedding size is `len` (null: no embedding). */
  function UsersWithLength(g: Graph, len: Option<int>): (s: set<int>)
    ensures forall id :: id in s <==> id in g.users && LengthOf(g.users[id]) == len
  {
    set id | id in g.users && LengthOf(g.users[id]) == len
  }

  /** The grouped rows, one per embedding size present among the users. */
  function LengthGroups(g: Graph): set<LengthRow> {
    set id | id in g.users :: LengthRow(LengthOf(g.users[id]), |UsersWithLength(g, LengthOf(g.users[id]))|)
  }

  function RowLen(r: LengthRow): Option<int> { r.len }

  /** `check_embedding_lengths`: one row per distinct size with the number of
      users of that size, sizes ascending and the null size last. */
  method EmbeddingLengths(g: Graph) returns (rows: seq<LengthRow>)
    ensures forall r :: r in rows <==> exists id :: id in g.users && r == LengthRow(LengthOf(g.users[id]), |UsersWithLength(g, LengthOf(g.users[id]))|)
    ensures forall i :: 0 <= i < |rows| ==> rows[i].count > 0
    ensures forall i, j :: 0 <= i < j < |rows| ==> rows[i].len != rows[j].len
    ensures Ranked(rows, AscNullsLast(RowLen))
  {
    var groups := LengthGroups(g);
    AscNullsLastIsPreorder(RowLen);
    rows := SelectTop(groups, AscNullsLast(RowLen), |groups|);
    forall i | 0 <= i < |rows|
      ensures rows[i].count > 0
    {
      assert rows[i] in groups;
      var id :| id in g.users && rows[i] == LengthRow(LengthOf(g.users[id]), |UsersWithLength(g, LengthOf(g.users[id]))|);
      assert id in UsersWithLength(g, rows[i].len);
    }
    forall i, j | 0 <= i < j < |rows|
      ensures rows[i].len != rows[j].len
    {
      assert rows[i] in groups && rows[j] in groups;
      var a :| a in g.users && rows[i] == LengthRow(LengthOf(g.users[a]), |UsersWithLength(g, LengthOf(g.users[a]))|);
      var b :| b in g.users && rows[j] == LengthRow(LengthOf(g.users[b]), |UsersWithLength(g, LengthOf(g.users[b]))|);
    }
  }
}

=== FILE: loader.dfy ===
/** The batch loader: users, then books, then ratings, each table cut into
    batches of 100 rows and each batch written by one `UNWIND ... MERGE ...
    SET` query. */
module Loader {
  import opened Common
  import opened Cypher
  import opened Store
  import Upsert
  import opened Chunking

  /** A row of the users table. `age` is whatever pandas delivered for the
      Age column after `fillna("")`. */
  datatype UserRow = UserRow(userId: int, location: string, age: Cell)

  /** A row of the books table; `year` is the Year-Of-Publication cell. */
  datatype BookRow = BookRow(isbn: string, title: string, author: string, year: Cell, publisher: string)

  /** A row of the ratings table. */
  datatype RatingRow = RatingRow(userId: int, isbn: string, rating: int)

  /** `CASE row.Age WHEN '' THEN NULL ELSE toInteger(row.Age) END` */
  function AgeOf(c: Cell): (r: Option<int>)
    ensures c == Text("") ==> r == None
  {
    if c == Text("") then None else ToInteger(c)
  }

  /** The blank-text case of the `CASE` is the one `toInteger` already maps
      to null, so the stored age is `toInteger(Age)` for every cell. */
  lemma AgeOfIsToInteger(c: Cell)
    ensures AgeOf(c) == ToInteger(c)
  {
  }

  function UserKey(row: UserRow): int { row.userId }

  /** `MERGE (u:User {id: ...}) SET u.location = ..., u.age = ...`: a new
      user has only these two properties; an existing one keeps the rest. */
  function MergeUser(prior: Option<User>, row: UserRow): (u: User)
    ensures u.location == row.location && u.age == AgeOf(row.age)
    ensures prior.Some? ==> u == prior.value.(location := row.location, age := AgeOf(row.age))
    ensures prior.None? ==> u.community.None? && u.embedding.None? && u.graphsageFeature.None? && u.cleanedFeature.None?
  {
    match prior
    case None => User(row.location, AgeOf(row.age), None, None, None, None)
    case Some(u) => u.(location := row.location, age := AgeOf(row.age))
  }

  function BookKey(row: BookRow): string { row.isbn }

  /** `MERGE (b:Book {isbn: ...}) SET` title, author, year, publisher: every
      property of a Book is written, so the old node contributes nothing. */
  function MergeBook(prior: Option<Book>, row: BookRow): (b: Book)
    ensures b.title == row.title && b.author == row.author
    ensures b.year == ToInteger(row.year) && b.publisher == row.publisher
  {
    Book(row.title, row.author, ToInteger(row.year), row.publisher)
  }

  function RatingKey(row: RatingRow): (int, string) { (row.userId, row.isbn) }

  /** `MERGE (u)-[r:RATED]->(b) SET r.rating = ...` */
  function MergeRating(prior: Option<int>, row: RatingRow): (v: int)
    ensures v == row.rating
  {
    row.rating
  }

  lemma UserOverwrites()
    ensures Upsert.Overwrites(MergeUser)
  {
  }

  lemma BookOverwrites()
    ensures Upsert.Overwrites(MergeBook)
  {
  }

  lemma RatingOverwrites()
    ensures Upsert.Overwrites(MergeRating)
  {
  }

  /** The two `MATCH` clauses: a rating row only goes further when both its
      user and its book are already nodes. */
  function Present(users: set<int>, books: set<string>): RatingRow -> bool {
    (row: RatingRow) => row.userId in users && row.isbn in books
  }

  /** The rows of a ratings batch that find both endpoints in `g`. */
  function Matched(g: Graph, rows: seq<RatingRow>): (r: seq<RatingRow>)
    ensures forall row :: row in r <==> row in rows && row.userId in g.users && row.isbn in g.books
  {
    Filter(rows, Present(g.users.Keys, g.books.Keys))
  }

  /** `load_users` on one batch. */
  function LoadUsers(g: Graph, rows: seq<UserRow>): (h: Graph)
    ensures h.users.Keys == g.users.Keys + Upsert.Keys(rows, UserKey)
    ensures h.books == g.books && h.rated == g.rated && h.similar == g.similar && h.bookEmbedding == g.bookEmbedding
  {
    g.(users := Upsert.Apply(g.users, rows, UserKey, MergeUser))
  }

  /** `load_books` on one batch. */
  function LoadBooks(g: Graph, rows: seq<BookRow>): (h: Graph)
    ensures h.books.Keys == g.books.Keys + Upsert.Keys(rows, BookKey)
    ensures h.users == g.users && h.rated == g.rated && h.similar == g.similar && h.bookEmbedding == g.bookEmbedding
  {
    g.(books := Upsert.Apply(g.books, rows, BookKey, MergeBook))
  }

  /** `load_ratings` on one batch. */
  function LoadRatings(g: Graph, rows: seq<RatingRow>): (h: Graph)
    ensures h.rated.Keys == g.rated.Keys + Upsert.Keys(Matched(g, rows), RatingKey)
    ensures h.users == g.users && h.books == g.books && h.similar == g.similar && h.bookEmbedding == g.bookEmbedding
  {
    g.(rated := Upsert.Apply(g.rated, Matched(g, rows), RatingKey, MergeRating))
  }

  /** The three tables loaded in order, each as a single batch. */
  function LoadAll(g: Graph, users: seq<UserRow>, books: seq<BookRow>, ratings: seq<RatingRow>): Graph {
    LoadRatings(LoadBooks(LoadUsers(g, users), books), ratings)
  }

  /** After a users batch, user `id` is a node exactly when it was one or a
      row has that id; the last such row fixes location and age, and the rest
      of an existing user is kept. */
  lemma LoadUsersAt(g: Graph, rows: seq<UserRow>, id: int)
    ensures var h := LoadUsers(g, rows);
      match Upsert.LastWith(rows, UserKey, id)
      case None => Upsert.Get(h.users, id) == Upsert.Get(g.users, id)
      case Some(row) =>
        && id in h.users
        && h.users[id].location == row.location
        && h.users[id].age == AgeOf(row.age)
        && (id in g.users ==> h.users[id] == g.users[id].(location := row.location, age := AgeOf(row.age)))
  {
    UserOverwrites();
    Upsert.ApplyAt(g.users, rows, UserKey, MergeUser, id);
  }

  /** After a books batch, the last row with a given ISBN decides every
      property of that book. */
  lemma LoadBooksAt(g: Graph, rows: seq<BookRow>, isbn: string)
    ensures var h := LoadBooks(g, rows);
      match Upsert.LastWith(rows, BookKey, isbn)
      case None => Upsert.Get(h.books, isbn) == Upsert.Get(g.books, isbn)
      case Some(row) =>
        Upsert.Get(h.books, isbn) == Some(Book(row.title, row.author, ToInteger(row.year), row.publisher))
  {
    BookOverwrites();
    Upsert.ApplyAt(g.books, rows, BookKey, MergeBook, isbn);
  }

  /** After a ratings batch, the pair (u, isbn) has the rating of the last
      matched row for it; with no such row it is as before. */
  lemma LoadRatingsAt(g: Graph, rows: seq<RatingRow>, u: int, isbn: string)
    ensures var h := LoadRatings(g, rows);
      match Upsert.LastWith(Matched(g, rows), RatingKey, (u, isbn))
      case None => Upsert.Get(h.rated, (u, isbn)) == Upsert.Get(g.rated, (u, isbn))
      case Some(row) => Upsert.Get(h.rated, (u, isbn)) == Some(row.rating)
  {
    RatingOverwrites();
    Upsert.ApplyAt(g.rated, Matched(g, rows), RatingKey, MergeRating, (u, isbn));
  }

  /** A rating row naming a user or a book that is not a node adds no edge. */
  lemma UnmatchedRowAddsNoEdge(g: Graph, rows: seq<RatingRow>, u: int, isbn: string)
    requires u !in g.users || isbn !in g.books
    ensures ((u, isbn) in LoadRatings(g, rows).rated) == ((u, isbn) in g.rated)
  {
    var m := Matched(g, rows);
    forall i | 0 <= i < |m|
      ensures RatingKey(m[i]) != (u, isbn)
    {
      assert m[i] in m;
    }
  }

  /** A matched rating row always leaves an edge for its pair. */
  lemma MatchedRowAddsEdge(g: Graph, rows: seq<RatingRow>, row: RatingRow)
    requires row in rows && row.userId in g.users && row.isbn in g.books
    ensures (row.userId, row.isbn) in LoadRatings(g, rows).rated
  {
    var m := Matched(g, rows);
    assert row in m;
    var i :| 0 <= i < |m| && m[i] == row;
    assert RatingKey(m[i]) in Upsert.Keys(m, RatingKey);
  }

  /** Every batch keeps relationships between existing nodes. */
  lemma LoadKeepsValid(g: Graph, users: seq<UserRow>, books: seq<BookRow>, ratings: seq<RatingRow>)
    requires Valid(g)
    ensures Valid(LoadUsers(g, users))
    ensures Valid(LoadBooks(g, books))
    ensures Valid(LoadRatings(g, ratings))
  {
    var h := LoadRatings(g, ratings);
    var m := Matched(g, ratings);
    forall k | k in h.rated
      ensures k.0 in h.users && k.1 in h.books
    {
      if k !in g.rated {
        var i :| 0 <= i < |m| && RatingKey(m[i]) == k;
        assert m[i] in m;
      }
    }
  }

  /** Loading the same three tables a second time leaves the graph as the
      first load left it. */
  lemma LoadAllIdempotent(g: Graph, users: seq<UserRow>, books: seq<BookRow>, ratings: seq<RatingRow>)
    ensures LoadAll(LoadAll(g, users, books, ratings), users, books, ratings) == LoadAll(g, users, books, ratings)
  {
    var u1 := LoadUsers(g, users);
    var b1 := LoadBooks(u1, books);
    var r1 := LoadRatings(b1, ratings);
    var u2 := LoadUsers(r1, users);
    var b2 := LoadBooks(u2, books);
    var r2 := LoadRatings(b2, ratings);
    assert u2.users == u1.users by {
      UserOverwrites();
      Upsert.ApplyIdempotent(g.users, users, UserKey, MergeUser);
    }
    assert b2.books == b1.books by {
      BookOverwrites();
      Upsert.ApplyIdempotent(g.books, books, BookKey, MergeBook);
    }
    assert r2.rated == r1.rated by {
      assert Matched(b2, ratings) == Matched(b1, ratings);
      RatingOverwrites();
      Upsert.ApplyIdempotent(b1.rated, Matched(b1, ratings), RatingKey, MergeRating);
    }
    assert r2 == r1;
  }

  /** Because users and books are loaded before ratings, every rating row
      whose user and book appear in the input (or in the graph already)
      becomes an edge. */
  lemma LoadAllKeepsEveryMatchableRating(g: Graph, users: seq<UserRow>, books: seq<BookRow>, ratings: seq<RatingRow>, row: RatingRow)
    requires row in ratings
    requires row.userId in g.users || row.userId in Upsert.Keys(users, UserKey)
    requires row.isbn in g.books || row.isbn in Upsert.Keys(books, BookKey)
    ensures (row.userId, row.isbn) in LoadAll(g, users, books, ratings).rated
  {
    MatchedRowAddsEdge(LoadBooks(LoadUsers(g, users), books), ratings, row);
  }

  /** Loading ratings before the nodes exist would lose them: into an empty
      graph, a rating loaded first leaves no edge behind. */
  lemma RatingsBeforeNodesAreLost(u: UserRow, b: BookRow, r: RatingRow)
    requires r.userId == u.userId && r.isbn == b.isbn
    ensures (r.userId, r.isbn) in LoadAll(Graph(map[], map[], map[], map[], map[]), [u], [b], [r]).rated
    ensures (r.userId, r.isbn) !in LoadBooks(LoadUsers(LoadRatings(Graph(map[], map[], map[], map[], map[]), [r]), [u]), [b]).rated
  {
    var g0 := Graph(map[], map[], map[], map[], map[]);
    assert UserKey([u][0]) in Upsert.Keys([u], UserKey);
    assert BookKey([b][0]) in Upsert.Keys([b], BookKey);
    LoadAllKeepsEveryMatchableRating(g0, [u], [b], [r], r);
    UnmatchedRowAddsNoEdge(g0, [r], r.userId, r.isbn);
  }

  lemma LoadUsersAppend(g: Graph, a: seq<UserRow>, b: seq<UserRow>)
    ensures LoadUsers(LoadUsers(g, a), b) == LoadUsers(g, a + b)
  {
    Upsert.ApplyAppend(g.users, a, b, UserKey, MergeUser);
  }

  lemma LoadBooksAppend(g: Graph, a: seq<BookRow>, b: seq<BookRow>)
    ensures LoadBooks(LoadBooks(g, a), b) == LoadBooks(g, a + b)
  {
    Upsert.ApplyAppend(g.books, a, b, BookKey, MergeBook);
  }

  lemma LoadRatingsAppend(g: Graph, a: seq<RatingRow>, b: seq<RatingRow>)
    ensures LoadRatings(LoadRatings(g, a), b) == LoadRatings(g, a + b)
  {
    var p := Present(g.users.Keys, g.books.Keys);
    assert Matched(LoadRatings(g, a), b) == Filter(b, p);
    FilterAppend(a, b, p);
    Upsert.ApplyAppend(g.rated, Filter(a, p), Filter(b, p), RatingKey, MergeRating);
  }

  lemma LoadUsersStep(g: Graph, batches: seq<seq<UserRow>>, i: nat)
    requires i < |batches|
    ensures LoadUsers(LoadUsers(g, Flatten(batches[..i])), batches[i]) == LoadUsers(g, Flatten(batches[..i + 1]))
  {
    LoadUsersAppend(g, Flatten(batches[..i]), batches[i]);
    FlattenPrefix(batches, i);
  }

  /** The users table written batch by batch, one transaction per batch. */
  method UploadUsers(g: Graph, rows: seq<UserRow>) returns (h: Graph)
    ensures h == LoadUsers(g, rows)
  {
    h := g;
    var batches := Chunks(rows, DefaultSize);
    for i := 0 to |batches|
      invariant h == LoadUsers(g, Flatten(batches[..i]))
    {
      LoadUsersStep(g, batches, i);
      h := LoadUsers(h, batches[i]);
    }
    assert batches[..|batches|] == batches;
  }

  lemma LoadBooksStep(g: Graph, batches: seq<seq<BookRow>>, i: nat)
    requires i < |batches|
    ensures LoadBooks(LoadBooks(g, Flatten(batches[..i])), batches[i]) == LoadBooks(g, Flatten(batches[..i + 1]))
  {
    LoadBooksAppend(g, Flatten(batches[..i]), batches[i]);
    FlattenPrefix(batches, i);
  }

  /** The books table written batch by batch. */
  method UploadBooks(g: Graph, rows: seq<BookRow>) returns (h: Graph)
    ensures h == LoadBooks(g, rows)
  {
    h := g;
    var batches := Chunks(rows, DefaultSize);
    for i := 0 to |batches|
      invariant h == LoadBooks(g, Flatten(batches[..i]))
    {
      LoadBooksStep(g, batches, i);
      h := LoadBooks(h, batches[i]);
    }
    assert batches[..|batches|] == batches;
  }

  lemma LoadRatingsStep(g: Graph, batches: seq<seq<RatingRow>>, i: nat)
    requires i < |batches|
    ensures LoadRatings(LoadRatings(g, Flatten(batches[..i])), batches[i]) == LoadRatings(g, Flatten(batches[..i + 1]))
  {
    LoadRatingsAppend(g, Flatten(batches[..i]), batches[i]);
    FlattenPrefix(batches, i);
  }

  /** The ratings table written batch by batch. */
  method UploadRatings(g: Graph, rows: seq<RatingRow>) returns (h: Graph)
    ensures h == LoadRatings(g, rows)
  {
    h := g;
    var batches := Chunks(rows, DefaultSize);
    for i := 0 to |batches|
      invariant h == LoadRatings(g, Flatten(batches[..i]))
    {
      LoadRatingsStep(g, batches, i);
      h := LoadRatings(h, batches[i]);
    }
    assert batches[..|batches|] == batches;
  }

  /** The upload: users, then books, then ratings, each in batches of
      `DefaultSize` rows. Batching does not change the outcome: the graph is
      the one the three tables loaded whole would give. */
  method Upload(g: Graph, users: seq<UserRow>, books: seq<BookRow>, ratings: seq<RatingRow>) returns (h: Graph)
    ensures h == LoadAll(g, users, books, ratings)
  {
    h := UploadUsers(g, users);
    h := UploadBooks(h, books);
    h := UploadRatings(h, ratings);
  }
}

=== FILE: ordering.dfy ===
/** `ORDER BY ... LIMIT n` over a finite set of candidates.

    Cypher leaves the order of ties unspecified, so the model does not fix a
    single answer: `SelectTop` returns one admissible answer and its contract
    says what every admissible answer has in common — the rows are distinct
    candidates, ranked, as many as the limit allows, and nothing left out
    ranks above anything kept. */
module Ordering {
  import opened Common

  /** `ge(a, b)` reads "a ranks at least as high as b". */
  ghost predicate TotalPreorder<T(!new)>(ge: (T, T) -> bool) {
    && (forall a, b :: ge(a, b) || ge(b, a))
    && (forall a, b, c :: ge(a, b) && ge(b, c) ==> ge(a, c))
  }

  /** Each entry ranks at least as high as every later entry. */
  ghost predicate Ranked<T>(r: seq<T>, ge: (T, T) -> bool) {
    forall i, j :: 0 <= i < j < |r| ==> ge(r[i], r[j])
  }

  ghost predicate Distinct<T>(r: seq<T>) {
    forall i, j :: 0 <= i < j < |r| ==> r[i] != r[j]
  }

  /** `ORDER BY f DESC` on an integer key. */
  function Desc<T>(f: T -> int): (T, T) -> bool {
    (a, b) => f(a) >= f(b)
  }

  /** `ORDER BY f` (ascending) on an integer key. */
  function Asc<T>(f: T -> int): (T, T) -> bool {
    (a, b) => f(a) <= f(b)
  }

  /** `ORDER BY f DESC` on an exact rational key. */
  function DescReal<T>(f: T -> real): (T, T) -> bool {
    (a, b) => f(a) >= f(b)
  }

  /** `ORDER BY f` (ascending) on a nullable integer key: Cypher sorts null
      after every value in ascending order. */
  function AscNullsLast<T>(f: T -> Option<int>): (T, T) -> bool {
    (a, b) => f(b).None? || (f(a).Some? && f(a).value <= f(b).value)
  }

  /** `ORDER BY p, q`: q only decides between rows that p ranks equal. */
  function Then<T>(p: (T, T) -> bool, q: (T, T) -> bool): (T, T) -> bool {
    (a, b) => p(a, b) && (!p(b, a) || q(a, b))
  }

  lemma DescIsPreorder<T(!new)>(f: T -> int)
    ensures TotalPreorder(Desc(f))
  {
  }

  lemma AscIsPreorder<T(!new)>(f: T -> int)
    ensures TotalPreorder(Asc(f))
  {
  }

  lemma DescRealIsPreorder<T(!new)>(f: T -> real)
    ensures TotalPreorder(DescReal(f))
  {
  }

  lemma AscNullsLastIsPreorder<T(!new)>(f: T -> Option<int>)
    ensures TotalPreorder(AscNullsLast(f))
  {
  }

  lemma ThenIsPreorder<T(!new)>(p: (T, T) -> bool, q: (T, T) -> bool)
    requires TotalPreorder(p) && TotalPreorder(q)
    ensures TotalPreorder(Then(p, q))
  {
    var t := Then(p, q);
    forall a, b, c | t(a, b) && t(b, c)
      ensures t(a, c)
    {
      assert p(a, c);
      if p(c, a) {
        assert p(b, a) && p(c, b);
        assert q(a, b) && q(b, c);
      }
    }
  }

  /** One candidate that ranks at least as high as every other. */
  method Best<T(==,!new)>(cands: set<T>, ge: (T, T) -> bool) returns (b: T)
    requires cands != {}
    requires TotalPreorder(ge)
    ensures b in cands
    ensures forall x :: x in cands ==> ge(b, x)
  {
    NonEmpty(cands);
    b :| b in cands;
    var rest := cands - {b};
    while rest != {}
      invariant rest <= cands && b in cands
      invariant forall x :: x in cands && x !in rest ==> ge(b, x)
      decreases rest
    {
      NonEmpty(rest);
      var y :| y in rest;
      if !ge(b, y) {
        b := y;
      }
      rest := rest - {y};
    }
  }

  /** One admissible result of `ORDER BY ge LIMIT n` over `cands`. */
  method SelectTop<T(==,!new)>(cands: set<T>, ge: (T, T) -> bool, n: nat) returns (r: seq<T>)
    requires TotalPreorder(ge)
    ensures |r| == Min(n, |cands|)
    ensures forall i :: 0 <= i < |r| ==> r[i] in cands
    ensures Distinct(r)
    ensures Ranked(r, ge)
    ensures forall x, i :: x in cands && x !in r && 0 <= i < |r| ==> ge(r[i], x)
    ensures n >= |cands| ==> forall x :: x in cands ==> x in r
  {
    r := [];
    var rem := cands;
    while |r| < n && rem != {}
      invariant |r| <= n
      invariant rem <= cands
      invariant forall x :: x in cands ==> (x in rem <==> x !in r)
      invariant forall i :: 0 <= i < |r| ==> r[i] in cands
      invariant |rem| == |cands| - |r|
      invariant Distinct(r) && Ranked(r, ge)
      invariant forall x, i :: x in rem && 0 <= i < |r| ==> ge(r[i], x)
      decreases rem
    {
      var b := Best(rem, ge);
      r := r + [b];
      rem := rem - {b};
    }
  }
  /** The integer keys of a list ranked by `Desc(f)` never increase. */
  lemma RankedByDesc<T>(r: seq<T>, f: T -> int)
    requires Ranked(r, Desc(f))
    ensures forall i, j :: 0 <= i < j < |r| ==> f(r[i]) >= f(r[j])
  {
    forall i, j | 0 <= i < j < |r|
      ensures f(r[i]) >= f(r[j])
    {
      assert Desc(f)(r[i], r[j]);
    }
  }

  /** What `SelectTop` promises about the candidates it left out, read
      through `Desc(f)`. */
  lemma OmittedByDesc<T>(cands: set<T>, r: seq<T>, f: T -> int)
    requires forall x, i :: x in cands && x !in r && 0 <= i < |r| ==> Desc(f)(r[i], x)
    ensures forall x, i :: x in cands && x !in r && 0 <= i < |r| ==> f(r[i]) >= f(x)
  {
    forall x, i | x in cands && x !in r && 0 <= i < |r|
      ensures f(r[i]) >= f(x)
    {
      assert Desc(f)(r[i], x);
    }
  }
}

=== FILE: presentation.dfy ===
/** Result shaping for the graph views.

    `build_graph` walks the records of a `get_graph_data` query and issues
    `add_node` and `add_edge` calls; the model returns the list of those
    calls, in order, or `None` when the Python code would raise part way.
    A record is a Python dict: `record.get(k)` gives null both for a missing
    key and for a null value, while `record.get(k, default)` and
    `record[k]` tell the two apart, so the three fields read that way carry
    a `Field`. */
module Presentation {
  import opened Common
  import opened Store
  import Similarity
  import Community

  // ---- Colour tier and edge width ----

  datatype Colour = Red | Yellow | Green

  /** `"red" if rating <= 4 else "yellow" if rating <= 7 else "green"` */
  function Tier(rating: int): Colour {
    if rating <= 4 then Red else if rating <= 7 then Yellow else Green
  }

  function Level(c: Colour): nat {
    match c
    case Red => 0
    case Yellow => 1
    case Green => 2
  }

  /** A higher rating never gets a lower tier. */
  lemma TierMonotone(a: int, b: int)
    requires a <= b
    ensures Level(Tier(a)) <= Level(Tier(b))
  {
  }

  /** The tier changes exactly between 4 and 5 and between 7 and 8. */
  lemma TierBoundaries()
    ensures Tier(4) == Red && Tier(5) == Yellow
    ensures Tier(7) == Yellow && Tier(8) == Green
  {
  }

  /** `1 + similarity * 9`: the similarity edge's width. */
  function EdgeWidth(s: real): real {
    1.0 + s * 9.0
  }

  /** A similarity in [0, 1] gets a width in [1, 10], the range of a rating. */
  lemma EdgeWidthRange(s: real)
    requires 0.0 <= s <= 1.0
    ensures 1.0 <= EdgeWidth(s) <= 10.0
  {
  }

  /** The scaling is one-to-one and keeps order: the width determines the
      similarity, and a more similar pair gets a wider edge. */
  lemma EdgeWidthInverse(s: real, t: real)
    ensures (EdgeWidth(s) - 1.0) / 9.0 == s
    ensures s < t <==> EdgeWidth(s) < EdgeWidth(t)
  {
  }

  // ---- Records and drawing calls ----

  /** A value read with `record.get(k, default)` or `record[k]`. */
  datatype Field<T> = Absent | Null | Val(v: T)

  /** The keys the `build_graph` functions read. A user is given by its id
      and a book by its ISBN, the properties that name their nodes. */
  datatype Record = Record(
    u: Option<int>, u2: Option<int>, b: Option<string>, book: Option<string>, rating: Option<int>,
    u1: Option<int>, book1: Option<string>, rating1: Field<int>,
    book2: Option<string>, rating2: Field<int>, similarityScore: Field<real>)

  datatype NodeId = UserNode(id: int) | BookNode(isbn: string)

  /** An `add_node` or `add_edge` call. */
  datatype Draw =
    | AddUser(id: int)
    | AddBook(isbn: string, colour: Colour)
    | AddEdge(from: NodeId, to: NodeId, value: real)

  /** The drawing calls for a whole list of records: nothing when any record
      raises, otherwise each record's calls in record order. */
  function Build(rs: seq<Record>, step: Record -> Option<seq<Draw>>): (d: Option<seq<Draw>>)
    ensures d.Some? <==> forall i :: 0 <= i < |rs| ==> step(rs[i]).Some?
    decreases |rs|
  {
    if |rs| == 0 then Some([])
    else
      var rest := Build(rs[1..], step);
      assert forall i :: 1 <= i < |rs| ==> rs[i] == rs[1..][i - 1];
      if step(rs[0]).None? || rest.None? then None
      else Some(step(rs[0]).value + rest.value)
  }

  /** Each call of the whole list is a call of one record, and conversely. */
  lemma {:induction false} BuildMembers(rs: seq<Record>, step: Record -> Option<seq<Draw>>, x: Draw)
    requires Build(rs, step).Some?
    ensures x in Build(rs, step).value <==> exists i :: 0 <= i < |rs| && x in step(rs[i]).value
    decreases |rs|
  {
    if |rs| > 0 {
      BuildMembers(rs[1..], step, x);
      if x in Build(rs[1..], step).value {
        var i :| 0 <= i < |rs[1..]| && x in step(rs[1..][i]).value;
        assert rs[1..][i] == rs[i + 1];
      }
      if exists i :: 0 <= i < |rs| && x in step(rs[i]).value {
        var i :| 0 <= i < |rs| && x in step(rs[i]).value;
        if i > 0 {
          assert rs[i] == rs[1..][i - 1];
        }
      }
    }
  }

  /** When every record issues one call of a kind if it satisfies `keep`
      and none otherwise, the whole list issues one per kept record. */
  lemma {:induction false} BuildCount(rs: seq<Record>, step: Record -> Option<seq<Draw>>, kind: Draw -> bool, keep: Record -> bool)
    requires Build(rs, step).Some?
    requires forall i :: 0 <= i < |rs| ==> |Filter(step(rs[i]).value, kind)| == if keep(rs[i]) then 1 else 0
    ensures |Filter(Build(rs, step).value, kind)| == |Filter(rs, keep)|
    decreases |rs|
  {
    if |rs| > 0 {
      assert forall i :: 0 <= i < |rs[1..]| ==> rs[1..][i] == rs[i + 1];
      BuildCount(rs[1..], step, kind, keep);
      FilterAppend(step(rs[0]).value, Build(rs[1..], step).value, kind);
    }
  }

  predicate IsEdge(d: Draw) { d.AddEdge? }

  predicate IsUserEdge(d: Draw) { d.AddEdge? && d.from.UserNode? && d.to.UserNode? }

  /** `record.get(x) or record.get(y)`: a node is never falsy. */
  function Or<T>(x: Option<T>, y: Option<T>): Option<T> {
    if x.Some? then x else y
  }

  /** The calls for one user–book–rating edge. */
  function RatingDraws(user: int, isbn: string, rating: int): (d: seq<Draw>)
    ensures |Filter(d, IsEdge)| == 1 && |Filter(d, IsUserEdge)| == 0
  {
    var e := AddEdge(UserNode(user), BookNode(isbn), rating as real);
    var d := [AddUser(user), AddBook(isbn, Tier(rating)), e];
    assert d[1..] == [AddBook(isbn, Tier(rating)), e] && d[1..][1..] == [e] && [e][1..] == [];
    assert Filter([e], IsEdge) == [e] && Filter([e], IsUserEdge) == [];
    assert Filter(d[1..], IsEdge) == [e] && Filter(d[1..], IsUserEdge) == [];
    d
  }

  // ---- The community view ----

  /** The record names a user and a book (`if not u or not b: continue`). */
  predicate Kept(r: Record) {
    Or(r.u, r.u2).Some? && Or(r.b, r.book).Some?
  }

  /** `build_graph` of the community modules and the "Community" branch of
      visualization/streamlit_app.py: a record without a user or a book is
      skipped; `record["rating"]` raises when the rating is missing or
      null. */
  function CommunityDraws(r: Record): (d: Option<seq<Draw>>)
    ensures d.Some? <==> !Kept(r) || r.rating.Some?
    ensures d.Some? ==> |Filter(d.value, IsEdge)| == if Kept(r) then 1 else 0
    ensures d.Some? && Kept(r) ==>
      AddBook(Or(r.b, r.book).value, Tier(r.rating.value)) in d.value &&
      AddEdge(UserNode(Or(r.u, r.u2).value), BookNode(Or(r.b, r.book).value), r.rating.value as real) in d.value
    ensures d.Some? && !Kept(r) ==> d.value == []
  {
    if !Kept(r) then Some([])
    else if r.rating.None? then None
    else Some(RatingDraws(Or(r.u, r.u2).value, Or(r.b, r.book).value, r.rating.value))
  }

  function CommunityGraph(rs: seq<Record>): Option<seq<Draw>> {
    Build(rs, CommunityDraws)
  }

  /** The community view draws one rating edge per kept record. */
  lemma CommunityGraphEdges(rs: seq<Record>)
    requires CommunityGraph(rs).Some?
    ensures |Filter(CommunityGraph(rs).value, IsEdge)| == |Filter(rs, Kept)|
  {
    BuildCount(rs, CommunityDraws, IsEdge, Kept);
  }

  /** Every book the community view draws is coloured by the rating of a
      kept record about that book. */
  lemma CommunityGraphColours(rs: seq<Record>, x: Draw)
    requires CommunityGraph(rs).Some? && x in CommunityGraph(rs).value && x.AddBook?
    ensures exists i :: (0 <= i < |rs| && Kept(rs[i]) && Or(rs[i].b, rs[i].book) == Some(x.isbn) &&
      x.colour == Tier(rs[i].rating.value))
  {
    BuildMembers(rs, CommunityDraws, x);
    var i :| 0 <= i < |rs| && x in CommunityDraws(rs[i]).value;
    RatingDrawsBook(rs[i], x);
  }

  /** A book a kept record draws carries that record's book and tier. */
  lemma RatingDrawsBook(r: Record, x: Draw)
    requires CommunityDraws(r).Some? && x in CommunityDraws(r).value && x.AddBook?
    ensures Kept(r) && Or(r.b, r.book) == Some(x.isbn) && x.colour == Tier(r.rating.value)
  {
    assert Kept(r);
    var d := RatingDraws(Or(r.u, r.u2).value, Or(r.b, r.book).value, r.rating.value);
    assert x in d;
  }

  /** The community view never raises on the records of the community
      `get_graph_data`, and draws one edge for each. */
  function FromCommunityRating(t: (int, string, int)): Record {
    Record(Some(t.0), None, Some(t.1), None, Some(t.2), None, None, Absent, None, Absent, Absent)
  }

  lemma CommunityGraphOfGraphData(g: Graph, target: int, rs: seq<Record>)
    requires forall i :: 0 <= i < |rs| ==>
      exists t :: t in Community.CommunityRatings(g, target) && rs[i] == FromCommunityRating(t)
    ensures CommunityGraph(rs).Some?
    ensures |Filter(CommunityGraph(rs).value, IsEdge)| == |rs|
  {
    assert forall i :: 0 <= i < |rs| ==> Kept(rs[i]) && rs[i].rating.Some?;
    CommunityGraphEdges(rs);
    FilterAll(rs, Kept);
  }

  /** `build_graph` of ui.py: the same calls, but with no skip, so a record
      without a user or a book raises. */
  function StrictDraws(r: Record): (d: Option<seq<Draw>>)
    ensures d.Some? <==> Kept(r) && r.rating.Some?
  {
    if !Kept(r) || r.rating.None? then None
    else Some(RatingDraws(Or(r.u, r.u2).value, Or(r.b, r.book).value, r.rating.value))
  }

  function StrictGraph(rs: seq<Record>): Option<seq<Draw>> {
    Build(rs, StrictDraws)
  }

  /** The strict view draws exactly what the community view draws when no
      record would be skipped, and raises as soon as one would be. */
  lemma {:induction false} StrictAgreesWhenNothingSkipped(rs: seq<Record>)
    ensures StrictGraph(rs).Some? ==> forall i :: 0 <= i < |rs| ==> Kept(rs[i])
    ensures (forall i :: 0 <= i < |rs| ==> Kept(rs[i])) ==> StrictGraph(rs) == CommunityGraph(rs)
    decreases |rs|
  {
    if |rs| > 0 {
      StrictAgreesWhenNothingSkipped(rs[1..]);
      assert forall i :: 1 <= i < |rs| ==> rs[i] == rs[1..][i - 1];
    }
  }

  // ---- The similarity view ----

  /** `record.get(k, 0)`: the default for a missing key, a TypeError later
      for a null value. */
  function Defaulted<T>(f: Field<T>, default: T): Option<T> {
    match f
    case Absent => Some(default)
    case Null => None
    case Val(x) => Some(x)
  }

  /** The book node and rating edge of a user's rated book. */
  function BookDraws(user: int, isbn: string, rating: Field<int>): (d: Option<seq<Draw>>)
    ensures d.Some? <==> !rating.Null?
    ensures d.Some? ==> |Filter(d.value, IsUserEdge)| == 0
    ensures d.Some? ==> forall x :: x in d.value && x.AddEdge? ==> x.from == UserNode(user) && x.to == BookNode(isbn)
  {
    match Defaulted(rating, 0)
    case None => None
    case Some(x) =>
      var e := AddEdge(UserNode(user), BookNode(isbn), x as real);
      var d := [AddBook(isbn, Tier(x)), e];
      assert d[1..] == [e] && [e][1..] == [];
      Some(d)
  }

  /** The similar user's node, and the similarity edge when the target is
      present too. */
  function SimilarityDraws(r: Record): (d: Option<seq<Draw>>)
    requires r.u2.Some?
    ensures d.Some? <==> r.u1.None? || !r.similarityScore.Null?
    ensures d.Some? ==> |Filter(d.value, IsUserEdge)| == if r.u1.Some? then 1 else 0
    ensures d.Some? ==> forall x :: x in d.value && x.AddEdge? ==> (r.u1.Some? && !r.similarityScore.Null? &&
      x == AddEdge(UserNode(r.u1.value), UserNode(r.u2.value), EdgeWidth(Defaulted(r.similarityScore, 0.0).value)))
  {
    if r.u1.None? then
      assert [AddUser(r.u2.value)][1..] == [];
      Some([AddUser(r.u2.value)])
    else match Defaulted(r.similarityScore, 0.0)
      case None => None
      case Some(s) =>
        var e := AddEdge(UserNode(r.u1.value), UserNode(r.u2.value), EdgeWidth(s));
        var d := [AddUser(r.u2.value), e];
        assert d[1..] == [e] && [e][1..] == [];
        Some(d)
  }

  /** Both users of the record are present. */
  predicate BothUsers(r: Record) { r.u1.Some? && r.u2.Some? }

  function OwnNode(r: Record): (d: seq<Draw>)
    ensures forall x :: x in d ==> x.AddUser?
    ensures |Filter(d, IsUserEdge)| == 0
  {
    if r.u1.Some? then
      assert [AddUser(r.u1.value)][1..] == [];
      [AddUser(r.u1.value)]
    else []
  }

  function SimNode(r: Record): Option<seq<Draw>> {
    if r.u2.Some? then SimilarityDraws(r) else Some([])
  }

  function OwnBook(r: Record): Option<seq<Draw>> {
    if r.book1.Some? && r.u1.Some? then BookDraws(r.u1.value, r.book1.value, r.rating1) else Some([])
  }

  function SimBook(r: Record): Option<seq<Draw>> {
    if r.book2.Some? && r.u2.Some? then BookDraws(r.u2.value, r.book2.value, r.rating2) else Some([])
  }

  /** `build_graph` of recommender_knn.py and the "KNN" branch of
      visualization/streamlit_app.py: the target's node, the similar user's
      node and the edge between them when both are present, and each book
      only together with the user that rated it. */
  function KnnDraws(r: Record): (d: Option<seq<Draw>>)
    ensures d.Some? <==> SimNode(r).Some? && OwnBook(r).Some? && SimBook(r).Some?
    ensures d.Some? ==> d.value == OwnNode(r) + SimNode(r).value + OwnBook(r).value + SimBook(r).value
  {
    if SimNode(r).None? || OwnBook(r).None? || SimBook(r).None? then None
    else Some(OwnNode(r) + SimNode(r).value + OwnBook(r).value + SimBook(r).value)
  }

  function KnnGraph(rs: seq<Record>): Option<seq<Draw>> {
    Build(rs, KnnDraws)
  }

  /** One user–user edge per record that names both users. */
  lemma KnnDrawsUserEdges(r: Record)
    requires KnnDraws(r).Some?
    ensures |Filter(KnnDraws(r).value, IsUserEdge)| == if BothUsers(r) then 1 else 0
  {
    var a, b, c, d := OwnNode(r), SimNode(r).value, OwnBook(r).value, SimBook(r).value;
    assert Filter([], IsUserEdge) == [];
    FilterAppend(a, b, IsUserEdge);
    FilterAppend(a + b, c, IsUserEdge);
    FilterAppend(a + b + c, d, IsUserEdge);
  }

  /** The similarity view draws one user–user edge per record that names
      both users. */
  lemma KnnGraphUserEdges(rs: seq<Record>)
    requires KnnGraph(rs).Some?
    ensures |Filter(KnnGraph(rs).value, IsUserEdge)| == |Filter(rs, BothUsers)|
  {
    forall i | 0 <= i < |rs|
      ensures |Filter(KnnDraws(rs[i]).value, IsUserEdge)| == if BothUsers(rs[i]) then 1 else 0
    {
      KnnDrawsUserEdges(rs[i]);
    }
    BuildCount(rs, KnnDraws, IsUserEdge, BothUsers);
  }

  /** A book edge always starts at a user its record names, and that user
      rated the book in the record. */
  lemma KnnBookEdgesOwned(r: Record, x: Draw)
    requires KnnDraws(r).Some? && x in KnnDraws(r).value && x.AddEdge? && x.to.BookNode?
    ensures x.from.UserNode?
    ensures (r.u1 == Some(x.from.id) && r.book1 == Some(x.to.isbn)) ||
      (r.u2 == Some(x.from.id) && r.book2 == Some(x.to.isbn))
  {
    assert x !in OwnNode(r);
    assert x !in SimNode(r).value;
  }

  /** The user–user edge of a record is the similarity edge, with the
      scaled similarity as its width. */
  lemma KnnUserEdge(r: Record, x: Draw)
    requires KnnDraws(r).Some? && x in KnnDraws(r).value && IsUserEdge(x)
    ensures BothUsers(r) && !r.similarityScore.Null?
    ensures x == AddEdge(UserNode(r.u1.value), UserNode(r.u2.value), EdgeWidth(Defaulted(r.similarityScore, 0.0).value))
  {
    assert x !in OwnNode(r);
    assert x !in OwnBook(r).value && x !in SimBook(r).value;
  }

  /** A similarity in [0, 1] on every record draws every user–user edge
      with a width in [1, 10]. */
  lemma KnnEdgeWidths(rs: seq<Record>, x: Draw)
    requires forall i :: 0 <= i < |rs| ==>
      rs[i].similarityScore.Absent? || (rs[i].similarityScore.Val? && 0.0 <= rs[i].similarityScore.v <= 1.0)
    requires KnnGraph(rs).Some? && x in KnnGraph(rs).value && IsUserEdge(x)
    ensures 1.0 <= x.value <= 10.0
  {
    BuildMembers(rs, KnnDraws, x);
    var i :| 0 <= i < |rs| && x in KnnDraws(rs[i]).value;
    KnnUserEdge(rs[i], x);
    EdgeWidthRange(Defaulted(rs[i].similarityScore, 0.0).value);
  }

  /** A record of the similarity `get_graph_data`, as the dict it becomes:
      every key is present and a part that matched nothing is null. */
  function FromGraphRecord(r: Similarity.GraphRecord): Record {
    Record(None, r.u2, None, None, None, Some(r.u1), r.book1,
      if r.rating1.Some? then Val(r.rating1.value) else Null,
      r.book2, if r.rating2.Some? then Val(r.rating2.value) else Null,
      if r.similarityScore.Some? then Val(r.similarityScore.value) else Null)
  }

  /** The records of a query result, as dicts. */
  function FromGraphRecords(src: seq<Similarity.GraphRecord>): (rs: seq<Record>)
    ensures |rs| == |src| && forall i :: 0 <= i < |src| ==> rs[i] == FromGraphRecord(src[i])
  {
    seq(|src|, i requires 0 <= i < |src| => FromGraphRecord(src[i]))
  }

  /** The similarity view never raises on the records of `get_graph_data`,
      and draws a similarity edge for each record with a similar user. */
  lemma KnnGraphOfGraphData(g: Graph, target: int, src: seq<Similarity.GraphRecord>)
    requires forall i :: 0 <= i < |src| ==> src[i] in Similarity.GraphData(g, target)
    ensures KnnGraph(FromGraphRecords(src)).Some?
    ensures |Filter(KnnGraph(FromGraphRecords(src)).value, IsUserEdge)| == |Filter(FromGraphRecords(src), BothUsers)|
  {
    var rs := FromGraphRecords(src);
    forall i | 0 <= i < |rs|
      ensures KnnDraws(rs[i]).Some?
    {
      Similarity.GraphDataSound(g, target, src[i]);
    }
    KnnGraphUserEdges(rs);
  }

  // ---- Dispatch ----

  /** `build_graph(graph_data, algorithm)` of visualization/streamlit_app.py:
      "Community" and "KNN" pick a view; any other name leaves `net`
      unbound and raises. */
  function BuildGraph(algorithm: string, rs: seq<Record>): (d: Option<seq<Draw>>)
    ensures algorithm != "Community" && algorithm != "KNN" ==> d.None?
    ensures algorithm == "Community" ==> d == CommunityGraph(rs)
    ensures algorithm == "KNN" ==> d == KnnGraph(rs)
  {
    if algorithm == "Community" then CommunityGraph(rs)
    else if algorithm == "KNN" then KnnGraph(rs)
    else None
  }
}

=== FILE: similarity.dfy ===
/** The similarity rule and the queries around it.

    The KNN step writes `SIMILAR_TO` edges between users. The rule follows
    them from the target to its neighbours, takes each neighbour's ratings
    of books the target has not rated, and groups them by book:
    `avg(r.rating) AS avgRating, count(*) AS votes`, ordered by the average
    and then by the votes, both descending. Averages are exact rationals
    here; the graph engine computes them in floating point. */
module Similarity {
  import opened Common
  import opened Cypher
  import opened Store
  import opened Ordering

  /** The LIMIT of the recommender modules. */
  const RecommenderLimit: nat := 3
  /** The default `limit` of `get_recommended_books` and `get_similar_books`. */
  const DefaultLimit: nat := 10
  /** The LIMIT of `get_similar_users`. */
  const SimilarUsersLimit: nat := 3

  /** `(target)-[:SIMILAR_TO]->(s:User)` */
  predicate Neighbour(g: Graph, target: int, s: int) {
    target in g.users && (target, s) in g.similar && s in g.users
  }

  function Neighbours(g: Graph, target: int): (s: set<int>)
    ensures forall u :: u in s <==> Neighbour(g, target, u)
  {
    set p | p in g.similar && p.0 == target && Neighbour(g, target, p.1) :: p.1
  }

  /** Neighbour `s`'s rating of `isbn` is a row of the matched pattern:
      `isbn` is a Book and the target has not rated it. */
  predicate Vote(g: Graph, target: int, s: int, isbn: string) {
    Neighbour(g, target, s) && isbn in g.books && (s, isbn) in g.rated && !Rated(g, target, isbn)
  }

  /** The neighbours whose rating of `isbn` counts; `votes` is their number. */
  function Voters(g: Graph, target: int, isbn: string): (s: set<int>)
    ensures forall u :: u in s <==> Vote(g, target, u, isbn)
  {
    set k | k in g.rated && k.1 == isbn && Vote(g, target, k.0, isbn) :: k.0
  }

  /** The books that form a group: those with at least one vote. */
  function Recommendable(g: Graph, target: int): (s: set<string>)
    ensures forall b :: b in s <==> Voters(g, target, b) != {}
  {
    var s := set k | k in g.rated && Vote(g, target, k.0, k.1) :: k.1;
    assert forall b :: Voters(g, target, b) != {} ==> b in s by {
      forall b | Voters(g, target, b) != {}
        ensures b in s
      {
        NonEmpty(Voters(g, target, b));
        var u :| u in Voters(g, target, b);
        assert (u, b) in g.rated;
      }
    }
    s
  }

  /** Neighbour `u`'s rating of `isbn`, as a function of `u`. */
  function RatingOf(g: Graph, isbn: string): int -> int {
    u => if (u, isbn) in g.rated then g.rated[(u, isbn)] else 0
  }

  /** The sum of the votes' ratings of `isbn`. */
  function RatingSum(g: Graph, target: int, isbn: string): int {
    SumOver(Voters(g, target, isbn), RatingOf(g, isbn))
  }

  /** One returned row; `isbn` names the grouped Book node, of which the
      query returns the title (and, in the recommender modules, the author). */
  datatype Row = Row(isbn: string, title: string, author: string, avgRating: real, votes: int)

  /** The row of the group of `isbn`: `avg(r.rating)` and `count(*)` over
      its votes. (A book with no vote forms no group; its row is unused.) */
  function RowFor(g: Graph, target: int, isbn: string): (r: Row)
    ensures r.isbn == isbn && r.votes == |Voters(g, target, isbn)|
    ensures r.votes > 0 ==> r.avgRating * (r.votes as real) == RatingSum(g, target, isbn) as real
    ensures isbn in g.books ==> r.title == g.books[isbn].title && r.author == g.books[isbn].author
  {
    var n := |Voters(g, target, isbn)|;
    var title := if isbn in g.books then g.books[isbn].title else "";
    var author := if isbn in g.books then g.books[isbn].author else "";
    Row(isbn, title, author, if n == 0 then 0.0 else RatingSum(g, target, isbn) as real / n as real, n)
  }

  function RowsOf(g: Graph, target: int): string -> Row {
    b => RowFor(g, target, b)
  }

  /** One row per group. */
  function Candidates(g: Graph, target: int): (c: set<Row>)
    ensures forall r :: r in c ==> r.isbn in Recommendable(g, target) && r == RowFor(g, target, r.isbn)
    ensures forall b :: b in Recommendable(g, target) ==> RowFor(g, target, b) in c
    ensures |c| == |Recommendable(g, target)|
  {
    var f := RowsOf(g, target);
    assert forall x :: f(x) == RowFor(g, target, x);
    InjectiveImage(Recommendable(g, target), f);
    Image(Recommendable(g, target), f)
  }

  function AvgOf(r: Row): real { r.avgRating }
  function VotesOf(r: Row): int { r.votes }

  /** `ORDER BY avgRating DESC, votes DESC`, read as a relation: `a` may
      come before `b`. */
  predicate Outranks(a: Row, b: Row) {
    a.avgRating > b.avgRating || (a.avgRating == b.avgRating && a.votes >= b.votes)
  }

  function ByAvgThenVotes(): (Row, Row) -> bool {
    Then(DescReal(AvgOf), Desc(VotesOf))
  }

  lemma ByAvgThenVotesIsOutranks(a: Row, b: Row)
    ensures ByAvgThenVotes()(a, b) <==> Outranks(a, b)
  {
    var p, q := DescReal(AvgOf), Desc(VotesOf);
    assert ByAvgThenVotes()(a, b) == (p(a, b) && (!p(b, a) || q(a, b)));
    assert p(a, b) == (AvgOf(a) >= AvgOf(b));
    assert p(b, a) == (AvgOf(b) >= AvgOf(a));
    assert q(a, b) == (VotesOf(a) >= VotesOf(b));
  }

  lemma ByAvgThenVotesIsPreorder()
    ensures TotalPreorder(ByAvgThenVotes())
  {
    DescRealIsPreorder(AvgOf);
    DescIsPreorder(VotesOf);
    ThenIsPreorder(DescReal(AvgOf), Desc(VotesOf));
  }

  /** `SelectTop`'s promises about `ByAvgThenVotes`, read as `Outranks`. */
  lemma RankedOutranks(cands: set<Row>, rows: seq<Row>)
    requires Ranked(rows, ByAvgThenVotes())
    requires forall x, i :: x in cands && x !in rows && 0 <= i < |rows| ==> ByAvgThenVotes()(rows[i], x)
    ensures forall i, j :: 0 <= i < j < |rows| ==> Outranks(rows[i], rows[j])
    ensures forall x, i :: x in cands && x !in rows && 0 <= i < |rows| ==> Outranks(rows[i], x)
  {
    forall i, j | 0 <= i < j < |rows|
      ensures Outranks(rows[i], rows[j])
    {
      ByAvgThenVotesIsOutranks(rows[i], rows[j]);
    }
    forall x, i | x in cands && x !in rows && 0 <= i < |rows|
      ensures Outranks(rows[i], x)
    {
      ByAvgThenVotesIsOutranks(rows[i], x);
    }
  }

  /** What a list of distinct candidate rows says about each row. */
  lemma CandidateRows(g: Graph, target: int, rows: seq<Row>)
    requires forall i :: 0 <= i < |rows| ==> rows[i] in Candidates(g, target)
    requires Distinct(rows)
    ensures forall i :: 0 <= i < |rows| ==>
      && rows[i].isbn in g.books && !Rated(g, target, rows[i].isbn)
      && rows[i].title == g.books[rows[i].isbn].title && rows[i].author == g.books[rows[i].isbn].author
      && rows[i].votes == |Voters(g, target, rows[i].isbn)| > 0
      && rows[i].avgRating * (rows[i].votes as real) == RatingSum(g, target, rows[i].isbn) as real
    ensures forall i, j :: 0 <= i < j < |rows| ==> rows[i].isbn != rows[j].isbn
  {
    forall i | 0 <= i < |rows|
      ensures rows[i].isbn in g.books && !Rated(g, target, rows[i].isbn)
    {
      var b := rows[i].isbn;
      NonEmpty(Voters(g, target, b));
      var u :| u in Voters(g, target, b);
    }
    forall i, j | 0 <= i < j < |rows|
      ensures rows[i].isbn != rows[j].isbn
    {
      assert rows[i] == RowFor(g, target, rows[i].isbn);
      assert rows[j] == RowFor(g, target, rows[j].isbn);
    }
  }

  /** `recommend_books` (LIMIT 3), `get_recommended_books` and
      `get_similar_books` (LIMIT $limit): one admissible result. */
  method Recommend(g: Graph, target: int, limit: nat) returns (rows: seq<Row>)
    ensures |rows| == Min(limit, |Recommendable(g, target)|)
    ensures forall i :: 0 <= i < |rows| ==>
      && rows[i].isbn in g.books && !Rated(g, target, rows[i].isbn)
      && rows[i].title == g.books[rows[i].isbn].title && rows[i].author == g.books[rows[i].isbn].author
      && rows[i].votes == |Voters(g, target, rows[i].isbn)| > 0
      && rows[i].avgRating * (rows[i].votes as real) == RatingSum(g, target, rows[i].isbn) as real
    ensures forall i, j :: 0 <= i < j < |rows| ==> rows[i].isbn != rows[j].isbn
    ensures forall i, j :: 0 <= i < j < |rows| ==> Outranks(rows[i], rows[j])
    ensures forall b, i :: (b in Recommendable(g, target) && 0 <= i < |rows| &&
      forall j :: 0 <= j < |rows| ==> rows[j].isbn != b) ==> Outranks(rows[i], RowFor(g, target, b))
    ensures |rows| < limit ==> forall b :: b in Recommendable(g, target) ==>
      exists i :: 0 <= i < |rows| && rows[i].isbn == b
  {
    var cands := Candidates(g, target);
    ByAvgThenVotesIsPreorder();
    rows := SelectTop(cands, ByAvgThenVotes(), limit);
    RankedOutranks(cands, rows);
    CandidateRows(g, target, rows);
    forall b, i | b in Recommendable(g, target) && 0 <= i < |rows| &&
      (forall j :: 0 <= j < |rows| ==> rows[j].isbn != b)
      ensures Outranks(rows[i], RowFor(g, target, b))
    {
      assert RowFor(g, target, b) !in rows;
    }
    if |rows| < limit {
      forall b | b in Recommendable(g, target)
        ensures exists i :: 0 <= i < |rows| && rows[i].isbn == b
      {
        assert RowFor(g, target, b) in rows;
      }
    }
  }

  /** A target with no SIMILAR_TO edge has no recommendable book, so every
      variant of the rule returns an empty list. */
  lemma NoNeighboursNoRecommendations(g: Graph, target: int)
    requires forall s :: !Neighbour(g, target, s)
    ensures Recommendable(g, target) == {}
  {
    forall b
      ensures Voters(g, target, b) == {}
    {
      forall u
        ensures !Vote(g, target, u, b)
      {
      }
    }
  }

  /** Comparing two averages is comparing the cross-multiplied sums: the
      order of the rows is the order of `sum(a) * votes(b)` against
      `sum(b) * votes(a)`, with no division involved. */
  lemma AverageOrderIsCrossMultiplied(g: Graph, target: int, x: string, y: string)
    requires x in Recommendable(g, target) && y in Recommendable(g, target)
    ensures RowFor(g, target, x).avgRating >= RowFor(g, target, y).avgRating <==>
      RatingSum(g, target, x) * |Voters(g, target, y)| >= RatingSum(g, target, y) * |Voters(g, target, x)|
  {
    var a, b := RowFor(g, target, x), RowFor(g, target, y);
    var va, vb := a.votes as real, b.votes as real;
    var sa, sb := RatingSum(g, target, x) as real, RatingSum(g, target, y) as real;
    assert a.avgRating * va == sa && b.avgRating * vb == sb;
    assert va > 0.0 && vb > 0.0;
    assert sa * vb - sb * va == (a.avgRating - b.avgRating) * (va * vb);
    assert (RatingSum(g, target, x) * |Voters(g, target, y)|) as real == sa * vb;
    assert (RatingSum(g, target, y) * |Voters(g, target, x)|) as real == sb * va;
  }

  /** The average lies between the least and the greatest vote. */
  lemma AverageWithinRatings(g: Graph, target: int, isbn: string, lo: int, hi: int)
    requires isbn in Recommendable(g, target)
    requires forall u :: Vote(g, target, u, isbn) ==> lo <= g.rated[(u, isbn)] <= hi
    ensures lo as real <= RowFor(g, target, isbn).avgRating <= hi as real
  {
    SumWithinRatings(g, target, isbn, lo, hi);
    var r := RowFor(g, target, isbn);
    QuotientBetween(r.avgRating, r.votes, RatingSum(g, target, isbn), lo, hi);
  }

  lemma SumWithinRatings(g: Graph, target: int, isbn: string, lo: int, hi: int)
    requires forall u :: Vote(g, target, u, isbn) ==> lo <= g.rated[(u, isbn)] <= hi
    ensures |Voters(g, target, isbn)| * lo <= RatingSum(g, target, isbn) <= |Voters(g, target, isbn)| * hi
  {
    var vs := Voters(g, target, isbn);
    var f := RatingOf(g, isbn);
    forall u | u in vs
      ensures lo <= f(u) <= hi
    {
      assert Vote(g, target, u, isbn);
    }
    SumOverBounds(vs, f, lo, hi);
  }

  /** `avg = sum / n` lies between `lo` and `hi` when `sum` lies between
      `n * lo` and `n * hi`. */
  lemma QuotientBetween(avg: real, n: int, sum: int, lo: int, hi: int)
    requires n > 0 && avg * (n as real) == sum as real
    requires n * lo <= sum <= n * hi
    ensures lo as real <= avg <= hi as real
  {
    var nr := n as real;
    assert (n * lo) as real == nr * lo as real;
    assert (n * hi) as real == nr * hi as real;
    assert (avg - lo as real) * nr >= 0.0;
    assert (hi as real - avg) * nr >= 0.0;
  }

  // ---- get_similar_users (SIMILAR_TO version) ----

  /** The neighbours other than the target (`WHERE u1.id <> u2.id`). */
  function OtherNeighbours(g: Graph, target: int): (s: set<int>)
    ensures forall u :: u in s <==> Neighbour(g, target, u) && u != target
  {
    Neighbours(g, target) - {target}
  }

  function IdOf(u: int): int { u }

  /** `RETURN DISTINCT u2.id, u2.location, u2.age LIMIT 3` with no ORDER BY:
      which neighbours are returned is left open. */
  method SimilarUsers(g: Graph, target: int) returns (rows: seq<Member>)
    ensures |rows| == Min(SimilarUsersLimit, |OtherNeighbours(g, target)|)
    ensures forall i :: 0 <= i < |rows| ==>
      Neighbour(g, target, rows[i].id) && rows[i].id != target && rows[i] == MemberOf(g, rows[i].id)
    ensures forall i, j :: 0 <= i < j < |rows| ==> rows[i].id != rows[j].id
  {
    AscIsPreorder(IdOf);
    var ids := SelectTop(OtherNeighbours(g, target), Asc(IdOf), SimilarUsersLimit);
    rows := [];
    for i := 0 to |ids|
      invariant |rows| == i
      invariant forall j :: 0 <= j < i ==> rows[j] == MemberOf(g, ids[j])
    {
      rows := rows + [MemberOf(g, ids[i])];
    }
  }

  // ---- get_graph_data and get_graph_data_a ----

  /** User `u` rated no Book. */
  predicate RatedNothing(g: Graph, u: int) {
    forall b :: b in g.books ==> (u, b) !in g.rated
  }

  /** `(u)-[r:RATED]->(b:Book)` as (book, rating) pairs. */
  function RatingsOf(g: Graph, u: int): (s: set<(Option<string>, Option<int>)>)
    ensures forall b, x :: (Some(b), Some(x)) in s <==> b in g.books && (u, b) in g.rated && g.rated[(u, b)] == x
    ensures forall p :: p in s ==> p.0.Some? && p.1.Some?
    ensures s == {} <==> RatedNothing(g, u)
  {
    var s := set k | k in g.rated && k.0 == u && k.1 in g.books :: (Some(k.1), Some(g.rated[k]));
    assert forall b :: b in g.books && (u, b) in g.rated ==> (Some(b), Some(g.rated[(u, b)])) in s by {
      forall b | b in g.books && (u, b) in g.rated
        ensures (Some(b), Some(g.rated[(u, b)])) in s
      {
        assert (u, b) in g.rated && (u, b).0 == u;
      }
    }
    s
  }

  /** `OPTIONAL MATCH (u)-[r:RATED]->(b:Book)`: one row per rating, or a
      single row with a null book and rating when there is none. */
  function OptionalRatings(g: Graph, u: int): (s: set<(Option<string>, Option<int>)>)
    ensures s != {}
    ensures forall b, x :: (Some(b), Some(x)) in s <==> b in g.books && (u, b) in g.rated && g.rated[(u, b)] == x
    ensures forall p :: p in s ==> (p.0.None? <==> RatedNothing(g, u)) && (p.0.None? <==> p.1.None?)
  {
    if RatingsOf(g, u) == {} then {(None, None)} else RatingsOf(g, u)
  }

  /** `OPTIONAL MATCH (target)-[simRel:SIMILAR_TO]->(sim:User)` followed
      by `OPTIONAL MATCH (sim)-[r2:RATED]->(b2:Book)`, for a target with at
      least one neighbour: one row per neighbour and rated book, and a row
      with a null book for a neighbour that rated none. */
  function NeighbourRows(g: Graph, target: int): (s: set<(Option<int>, Option<real>, Option<string>, Option<int>)>)
    requires target in g.users
    ensures forall p :: p in s ==>
      p.0.Some? && Neighbour(g, target, p.0.value) && p.1 == Some(g.similar[(target, p.0.value)])
  {
    set u, p | u in Neighbours(g, target) && p in OptionalRatings(g, u) ::
      (Some(u), Some(g.similar[(target, u)]), p.0, p.1)
  }

  /** Each row's book is one its neighbour rated, with that rating. */
  lemma NeighbourRowsSound(g: Graph, target: int, p: (Option<int>, Option<real>, Option<string>, Option<int>))
    requires target in g.users && p in NeighbourRows(g, target) && p.2.Some?
    ensures p.2.value in g.books && (p.0.value, p.2.value) in g.rated && p.3 == Some(g.rated[(p.0.value, p.2.value)])
  {
    var u, q :| u in Neighbours(g, target) && q in OptionalRatings(g, u) &&
      p == (Some(u), Some(g.similar[(target, u)]), q.0, q.1);
  }

  /** Every neighbour has a row, and so has each of its ratings. */
  lemma NeighbourRowsComplete(g: Graph, target: int, u: int)
    requires Neighbour(g, target, u)
    ensures exists p :: p in NeighbourRows(g, target) && p.0 == Some(u)
    ensures forall b :: b in g.books && (u, b) in g.rated ==>
      (Some(u), Some(g.similar[(target, u)]), Some(b), Some(g.rated[(u, b)])) in NeighbourRows(g, target)
  {
    var os := OptionalRatings(g, u);
    NonEmpty(os);
    var q :| q in os;
    assert u in Neighbours(g, target);
    assert (Some(u), Some(g.similar[(target, u)]), q.0, q.1) in NeighbourRows(g, target);
    forall b | b in g.books && (u, b) in g.rated
      ensures (Some(u), Some(g.similar[(target, u)]), Some(b), Some(g.rated[(u, b)])) in NeighbourRows(g, target)
    {
      assert (Some(b), Some(g.rated[(u, b)])) in os;
    }
  }

  /** The neighbour part of `get_graph_data`; a single all-null row when
      the target has no neighbour. */
  function SimPart(g: Graph, target: int): (s: set<(Option<int>, Option<real>, Option<string>, Option<int>)>)
    requires target in g.users
    ensures s != {}
    ensures forall p :: p in s ==> (p.0.None? <==> Neighbours(g, target) == {})
    ensures Neighbours(g, target) != {} ==> s == NeighbourRows(g, target)
  {
    var ns := Neighbours(g, target);
    if ns == {} then {(None, None, None, None)}
    else
      assert exists p :: p in NeighbourRows(g, target) by {
        NonEmpty(ns);
        var u :| u in ns;
        NeighbourRowsComplete(g, target, u);
      }
      NeighbourRows(g, target)
  }

  /** One record of `get_graph_data`: the target, then each OPTIONAL MATCH
      part, null when that part matched nothing. */
  datatype GraphRecord = GraphRecord(
    u1: int,
    book1: Option<string>, rating1: Option<int>,
    u2: Option<int>, similarityScore: Option<real>,
    book2: Option<string>, rating2: Option<int>)

  function Combine(target: int, o: (Option<string>, Option<int>), p: (Option<int>, Option<real>, Option<string>, Option<int>)): GraphRecord {
    GraphRecord(target, o.0, o.1, p.0, p.1, p.2, p.3)
  }

  /** `get_graph_data` of the similarity modules: no record for an unknown
      target, and otherwise every combination of the target's part and the
      neighbour part. */
  function GraphData(g: Graph, target: int): (s: set<GraphRecord>)
    ensures target !in g.users <==> s == {}
    ensures forall r :: r in s ==> r.u1 == target
  {
    if target !in g.users then {}
    else
      var own, sim := OptionalRatings(g, target), SimPart(g, target);
      var s := set o, p | o in own && p in sim :: Combine(target, o, p);
      assert s != {} by {
        NonEmpty(own);
        NonEmpty(sim);
        var o :| o in own;
        var p :| p in sim;
        assert Combine(target, o, p) in s;
      }
      s
  }

  /** What the records of `get_graph_data` say about the graph: the similar
      user of a record is a neighbour with that similarity, and every book
      of a record was rated as the record says, by its owner. */
  lemma GraphDataSound(g: Graph, target: int, r: GraphRecord)
    requires r in GraphData(g, target)
    ensures r.book1.Some? ==> (r.book1.value in g.books && (target, r.book1.value) in g.rated &&
      r.rating1 == Some(g.rated[(target, r.book1.value)]))
    ensures r.u2.Some? ==> Neighbour(g, target, r.u2.value) && r.similarityScore == Some(g.similar[(target, r.u2.value)])
    ensures r.book2.Some? ==> (r.u2.Some? && r.book2.value in g.books && (r.u2.value, r.book2.value) in g.rated &&
      r.rating2 == Some(g.rated[(r.u2.value, r.book2.value)]))
  {
    var own, sim := OptionalRatings(g, target), SimPart(g, target);
    var o, p :| o in own && p in sim && r == Combine(target, o, p);
    OwnPartSound(g, target, o);
    SimPartSound(g, target, p);
  }

  lemma OwnPartSound(g: Graph, target: int, o: (Option<string>, Option<int>))
    requires o in OptionalRatings(g, target)
    ensures o.0.Some? ==> (o.0.value in g.books && (target, o.0.value) in g.rated &&
      o.1 == Some(g.rated[(target, o.0.value)]))
  {
    if o.0.Some? {
      assert o == (Some(o.0.value), Some(o.1.value));
    }
  }

  lemma SimPartSound(g: Graph, target: int, p: (Option<int>, Option<real>, Option<string>, Option<int>))
    requires target in g.users && p in SimPart(g, target)
    ensures p.0.Some? ==> Neighbour(g, target, p.0.value) && p.1 == Some(g.similar[(target, p.0.value)])
    ensures p.2.Some? ==> (p.0.Some? && p.2.value in g.books && (p.0.value, p.2.value) in g.rated &&
      p.3 == Some(g.rated[(p.0.value, p.2.value)]))
  {
    if Neighbours(g, target) != {} {
      assert p in NeighbourRows(g, target);
      if p.2.Some? {
        NeighbourRowsSound(g, target, p);
      }
    }
  }

  /** Every rating of the target appears in some record. */
  lemma GraphDataHasOwnRating(g: Graph, target: int, b: string)
    requires target in g.users && b in g.books && (target, b) in g.rated
    ensures exists r :: r in GraphData(g, target) && r.book1 == Some(b) && r.rating1 == Some(g.rated[(target, b)])
  {
    var own, sim := OptionalRatings(g, target), SimPart(g, target);
    NonEmpty(sim);
    var p :| p in sim;
    var o := (Some(b), Some(g.rated[(target, b)]));
    assert Combine(target, o, p) in GraphData(g, target);
  }

  /** Every neighbour appears in some record. */
  lemma GraphDataHasNeighbour(g: Graph, target: int, u: int)
    requires Neighbour(g, target, u)
    ensures exists r :: r in GraphData(g, target) && r.u2 == Some(u) && r.similarityScore == Some(g.similar[(target, u)])
  {
    var own, sim := OptionalRatings(g, target), SimPart(g, target);
    NonEmpty(own);
    var o :| o in own;
    NeighbourRowsComplete(g, target, u);
    assert u in Neighbours(g, target);
    var p :| p in NeighbourRows(g, target) && p.0 == Some(u);
    assert Combine(target, o, p) in GraphData(g, target);
  }

  /** Every rating by a neighbour appears in some record, together with the
      similarity of the edge that reached the neighbour. */
  lemma GraphDataHasNeighbourRating(g: Graph, target: int, u: int, b: string)
    requires Neighbour(g, target, u) && b in g.books && (u, b) in g.rated
    ensures exists r :: (r in GraphData(g, target) && r.u2 == Some(u) && r.similarityScore == Some(g.similar[(target, u)]) &&
      r.book2 == Some(b) && r.rating2 == Some(g.rated[(u, b)]))
  {
    var own := OptionalRatings(g, target);
    NonEmpty(own);
    var o :| o in own;
    NeighbourRowsComplete(g, target, u);
    assert u in Neighbours(g, target);
    var q := (Some(u), Some(g.similar[(target, u)]), Some(b), Some(g.rated[(u, b)]));
    assert q in NeighbourRows(g, target);
    assert Neighbours(g, target) != {};
    assert q in SimPart(g, target);
    InGraphData(g, target, o, q);
    var r := Combine(target, o, q);
    assert r.u2 == Some(u) && r.book2 == Some(b);
  }

  lemma InGraphData(g: Graph, target: int, o: (Option<string>, Option<int>), p: (Option<int>, Option<real>, Option<string>, Option<int>))
    requires target in g.users && o in OptionalRatings(g, target) && p in SimPart(g, target)
    ensures Combine(target, o, p) in GraphData(g, target)
  {
  }

  /** One record of `get_graph_data_a`. */
  datatype NeighbourRecord = NeighbourRecord(u1: int, u2: int, b: Option<string>, rating: Option<int>)

  /** `get_graph_data_a`: the neighbours reached over SIMILAR_TO, each with
      its rated books, or with a null book when it rated none. */
  function GraphDataA(g: Graph, target: int): (s: set<NeighbourRecord>)
    ensures forall r :: r in s ==> r.u1 == target && Neighbour(g, target, r.u2)
    ensures forall r :: r in s ==> (r.b.None? <==> RatedNothing(g, r.u2))
    ensures forall r :: r in s && r.b.Some? ==>
      r.b.value in g.books && (r.u2, r.b.value) in g.rated && r.rating == Some(g.rated[(r.u2, r.b.value)])
    ensures forall u :: Neighbour(g, target, u) ==> exists r :: r in s && r.u2 == u
  {
    var s := set u, p | u in Neighbours(g, target) && p in OptionalRatings(g, u) :: NeighbourRecord(target, u, p.0, p.1);
    assert forall u :: Neighbour(g, target, u) ==> exists r :: r in s && r.u2 == u by {
      forall u | Neighbour(g, target, u)
        ensures exists r :: r in s && r.u2 == u
      {
        NonEmpty(OptionalRatings(g, u));
        var p :| p in OptionalRatings(g, u);
        assert NeighbourRecord(target, u, p.0, p.1) in s;
      }
    }
    s
  }

  // ---- The co-rating neighbourhood (ui.py and the app's fallback) ----

  /** The books both users rated. */
  function SharedBooks(g: Graph, u1: int, u2: int): (s: set<string>)
    ensures forall b :: b in s <==> b in g.books && (u1, b) in g.rated && (u2, b) in g.rated
  {
    set k | k in g.rated && k.0 == u1 && k.1 in g.books && (u2, k.1) in g.rated :: k.1
  }

  /** `(u1)-[:RATED]->(b)<-[:RATED]-(u2) WHERE u1.id <> u2.id` has a match. */
  predicate CoRater(g: Graph, target: int, u: int) {
    target in g.users && u in g.users && u != target && SharedBooks(g, target, u) != {}
  }

  function CoRaters(g: Graph, target: int): (s: set<int>)
    ensures forall u :: u in s <==> CoRater(g, target, u)
  {
    set u | u in g.users && CoRater(g, target, u)
  }

  /** Co-rating is symmetric, and both users count the same shared books. */
  lemma {:induction false} CoRatersSymmetric(g: Graph, a: int, b: int)
    ensures b in CoRaters(g, a) <==> a in CoRaters(g, b)
    ensures SharedBooks(g, a, b) == SharedBooks(g, b, a)
  {
    assert forall x :: x in SharedBooks(g, a, b) <==> x in SharedBooks(g, b, a);
  }

  /** `COUNT(*) AS similarity`, as a function of the other user. */
  function SharedCount(g: Graph, target: int): int -> int {
    u => |SharedBooks(g, target, u)|
  }

  /** `RETURN u2.id AS userId, ...` for each selected id, in order. */
  function MembersOf(g: Graph, ids: seq<int>): (rows: seq<Member>)
    requires forall i :: 0 <= i < |ids| ==> ids[i] in g.users
    ensures |rows| == |ids| && forall i :: 0 <= i < |ids| ==> rows[i] == MemberOf(g, ids[i])
  {
    seq(|ids|, i requires 0 <= i < |ids| => MemberOf(g, ids[i]))
  }

  /** The co-raters chosen and ranked by shared books become rows in the
      same order. */
  lemma CoRatingRows(g: Graph, target: int, ids: seq<int>)
    requires forall i :: 0 <= i < |ids| ==> ids[i] in CoRaters(g, target)
    requires Distinct(ids)
    requires Ranked(ids, Desc(SharedCount(g, target)))
    requires forall x, i :: x in CoRaters(g, target) && x !in ids && 0 <= i < |ids| ==>
      Desc(SharedCount(g, target))(ids[i], x)
    ensures var rows := MembersOf(g, ids);
      && (forall i :: 0 <= i < |rows| ==> CoRater(g, target, rows[i].id) && rows[i] == MemberOf(g, rows[i].id))
      && (forall i, j :: 0 <= i < j < |rows| ==> rows[i].id != rows[j].id)
      && (forall i, j :: 0 <= i < j < |rows| ==>
        |SharedBooks(g, target, rows[i].id)| >= |SharedBooks(g, target, rows[j].id)|)
      && (forall u, i :: (CoRater(g, target, u) && 0 <= i < |rows| &&
        forall j :: 0 <= j < |rows| ==> rows[j].id != u) ==>
        |SharedBooks(g, target, rows[i].id)| >= |SharedBooks(g, target, u)|)
  {
    var f := SharedCount(g, target);
    RankedByDesc(ids, f);
    OmittedByDesc(CoRaters(g, target), ids, f);
    var rows := MembersOf(g, ids);
    assert forall i :: 0 <= i < |rows| ==> rows[i].id == ids[i];
    forall u, i | CoRater(g, target, u) && 0 <= i < |rows| && (forall j :: 0 <= j < |rows| ==> rows[j].id != u)
      ensures |SharedBooks(g, target, rows[i].id)| >= |SharedBooks(g, target, u)|
    {
      assert forall j :: 0 <= j < |ids| ==> rows[j].id == ids[j] != u;
      assert f(ids[i]) >= f(u);
    }
    forall i, j | 0 <= i < j < |rows|
      ensures |SharedBooks(g, target, rows[i].id)| >= |SharedBooks(g, target, rows[j].id)|
    {
      assert f(ids[i]) >= f(ids[j]);
    }
  }

  /** `get_similar_users` of ui.py: at most three co-raters, most shared
      books first; the ORDER BY of the WITH carries to the result. */
  method CoRatingUsers(g: Graph, target: int) returns (rows: seq<Member>)
    ensures |rows| == Min(SimilarUsersLimit, |CoRaters(g, target)|)
    ensures forall i :: 0 <= i < |rows| ==> CoRater(g, target, rows[i].id) && rows[i] == MemberOf(g, rows[i].id)
    ensures forall i, j :: 0 <= i < j < |rows| ==> rows[i].id != rows[j].id
    ensures forall i, j :: 0 <= i < j < |rows| ==>
      |SharedBooks(g, target, rows[i].id)| >= |SharedBooks(g, target, rows[j].id)|
    ensures forall u, i :: (CoRater(g, target, u) && 0 <= i < |rows| &&
      forall j :: 0 <= j < |rows| ==> rows[j].id != u) ==>
      |SharedBooks(g, target, rows[i].id)| >= |SharedBooks(g, target, u)|
  {
    DescIsPreorder(SharedCount(g, target));
    var ids := SelectTop(CoRaters(g, target), Desc(SharedCount(g, target)), SimilarUsersLimit);
    CoRatingRows(g, target, ids);
    rows := MembersOf(g, ids);
  }
}

=== FILE: store.dfy ===
/** The bipartite User–Book rating graph as an immutable value.

    Nodes are keyed the way the loader's `MERGE` clauses key them: a User by
    its integer `id`, a Book by its `isbn`. A map keyed by (user id, isbn)
    holds the `RATED` relationships, so there is at most one per pair, as the
    loader's `MERGE (u)-[r:RATED]->(b)` guarantees. `SIMILAR_TO` edges and the
    `community`, `embedding` and `graphsageFeature` properties are produced
    by the graph engine's algorithms and appear here as given data. */
module Store {
  import opened Common

  /** An embedding as stored on a node: a list whose elements may be null. */
  type Vec = seq<Option<real>>

  datatype User = User(
    location: string,
    age: Option<int>,
    community: Option<int>,
    embedding: Option<Vec>,
    graphsageFeature: Option<Vec>,
    cleanedFeature: Option<Vec>)

  datatype Book = Book(title: string, author: string, year: Option<int>, publisher: string)

  /** `bookEmbedding` is the `embedding` property of Book nodes, which only
      FastRP and Node2Vec write (their projections hold every Book) and
      nothing reads. */
  datatype Graph = Graph(
    users: map<int, User>,
    books: map<string, Book>,
    rated: map<(int, string), int>,
    similar: map<(int, int), real>,
    bookEmbedding: map<string, Vec>)

  /** Relationships only ever connect existing nodes. */
  ghost predicate Valid(g: Graph) {
    && (forall k :: k in g.rated ==> k.0 in g.users && k.1 in g.books)
    && (forall k :: k in g.similar ==> k.0 in g.users && k.1 in g.users)
  }

  /** `(u)-[:RATED]->(b)` */
  predicate Rated(g: Graph, u: int, isbn: string) {
    (u, isbn) in g.rated
  }

  /** The ISBNs of the books user `u` has rated. */
  function RatedBooks(g: Graph, u: int): (r: set<string>)
    ensures forall isbn :: isbn in r <==> Rated(g, u, isbn)
  {
    set k | k in g.rated && k.0 == u :: k.1
  }

  /** A user as the neighbourhood queries return it:
      `u.id AS userId, u.location AS location, u.age AS age`. */
  datatype Member = Member(id: int, location: string, age: Option<int>)

  function MemberOf(g: Graph, u: int): (m: Member)
    requires u in g.users
    ensures m.id == u && m.location == g.users[u].location && m.age == g.users[u].age
  {
    Member(u, g.users[u].location, g.users[u].age)
  }

  /** The community label of user `u`; null when `u` is absent or unlabelled. */
  function CommunityOf(g: Graph, u: int): Option<int> {
    if u in g.users then g.users[u].community else None
  }
}

=== FILE: upsert.dfy ===
/** Keyed upsert: the meaning of `UNWIND $rows AS row MERGE (n {key: ...})
    SET ...` over a batch of rows.

    Rows are applied in order. A row whose key is new creates an entry; a row
    whose key exists updates it; so the last row with a given key decides
    the properties that `SET` writes, and the rest of the entry is kept. */
module Upsert {
  import opened Common

  function Get<K, V>(m: map<K, V>, k: K): (r: Option<V>)
    ensures r.Some? <==> k in m
    ensures r.Some? ==> r.value == m[k]
  {
    if k in m then Some(m[k]) else None
  }

  /** The keys the rows of a batch address. */
  function Keys<K, R>(rows: seq<R>, key: R -> K): set<K> {
    set i | 0 <= i < |rows| :: key(rows[i])
  }

  /** Applies the rows in order; `merge(old, row)` is the entry after one
      `MERGE ... SET`, given the entry before it (None when absent). */
  function Apply<K, V, R>(m: map<K, V>, rows: seq<R>, key: R -> K, merge: (Option<V>, R) -> V): (r: map<K, V>)
    ensures r.Keys == m.Keys + Keys(rows, key)
    ensures forall k :: k in m && k !in Keys(rows, key) ==> r[k] == m[k]
    decreases |rows|
  {
    if |rows| == 0 then m
    else
      var init := rows[..|rows| - 1];
      var row := rows[|rows| - 1];
      var prev := Apply(m, init, key, merge);
      assert Keys(rows, key) == Keys(init, key) + {key(row)} by {
        forall k | k in Keys(rows, key) ensures k in Keys(init, key) + {key(row)} {
          var i :| 0 <= i < |rows| && key(rows[i]) == k;
          if i < |rows| - 1 { assert init[i] == rows[i]; }
        }
        forall k | k in Keys(init, key) ensures k in Keys(rows, key) {
          var i :| 0 <= i < |init| && key(init[i]) == k;
          assert rows[i] == init[i];
        }
      }
      prev[key(row) := merge(Get(prev, key(row)), row)]
  }

  /** The last row of the batch whose key is `k`. */
  function LastWith<K(==), R>(rows: seq<R>, key: R -> K, k: K): (r: Option<R>)
    ensures r.Some? ==> r.value in rows && key(r.value) == k
    ensures r.None? <==> k !in Keys(rows, key)
    decreases |rows|
  {
    if |rows| == 0 then None
    else if key(rows[|rows| - 1]) == k then Some(rows[|rows| - 1])
    else
      var r := LastWith(rows[..|rows| - 1], key, k);
      assert r.None? <==> k !in Keys(rows, key) by {
        if k in Keys(rows, key) {
          var i :| 0 <= i < |rows| && key(rows[i]) == k;
          assert rows[..|rows| - 1][i] == rows[i];
        }
        if k in Keys(rows[..|rows| - 1], key) {
          var i :| 0 <= i < |rows| - 1 && key(rows[..|rows| - 1][i]) == k;
          assert rows[i] == rows[..|rows| - 1][i];
        }
      }
      r
  }

  /** A later `SET` with the same key overwrites everything an earlier one
      wrote: merging row r1 and then row r2 is the same as merging r2 alone. */
  ghost predicate Overwrites<V(!new), R(!new)>(merge: (Option<V>, R) -> V) {
    forall o, r1, r2 :: merge(Some(merge(o, r1)), r2) == merge(o, r2)
  }

  /** The entry for `k` after a batch: untouched when no row has key `k`,
      otherwise the last such row merged into the entry from before the batch. */
  lemma {:induction false} ApplyAt<K(!new), V(!new), R(!new)>(m: map<K, V>, rows: seq<R>, key: R -> K, merge: (Option<V>, R) -> V, k: K)
    requires Overwrites(merge)
    ensures Get(Apply(m, rows, key, merge), k) ==
      match LastWith(rows, key, k)
      case None => Get(m, k)
      case Some(row) => Some(merge(Get(m, k), row))
    decreases |rows|
  {
    if |rows| > 0 {
      var init := rows[..|rows| - 1];
      ApplyAt(m, init, key, merge, k);
    }
  }

  lemma MapExt<K(!new), V(!new)>(a: map<K, V>, b: map<K, V>)
    requires forall k :: Get(a, k) == Get(b, k)
    ensures a == b
  {
    assert a.Keys == b.Keys by {
      forall k ensures k in a <==> k in b {
        assert Get(a, k).Some? == Get(b, k).Some?;
      }
    }
    forall k | k in a ensures a[k] == b[k] {
      assert Get(a, k) == Get(b, k);
    }
  }

  /** Re-applying the same batch changes nothing. */
  lemma ApplyIdempotent<K(!new), V(!new), R(!new)>(m: map<K, V>, rows: seq<R>, key: R -> K, merge: (Option<V>, R) -> V)
    requires Overwrites(merge)
    ensures Apply(Apply(m, rows, key, merge), rows, key, merge) == Apply(m, rows, key, merge)
  {
    var once := Apply(m, rows, key, merge);
    forall k ensures Get(Apply(once, rows, key, merge), k) == Get(once, k) {
      ApplyAt(once, rows, key, merge, k);
      ApplyAt(m, rows, key, merge, k);
    }
    MapExt(Apply(once, rows, key, merge), once);
  }

  /** Applying two batches one after the other is applying their concatenation. */
  lemma {:induction false} ApplyAppend<K, V, R>(m: map<K, V>, a: seq<R>, b: seq<R>, key: R -> K, merge: (Option<V>, R) -> V)
    ensures Apply(m, a + b, key, merge) == Apply(Apply(m, a, key, merge), b, key, merge)
    decreases |b|
  {
    if |b| == 0 {
      assert a + b == a;
    } else {
      var b' := b[..|b| - 1];
      assert (a + b)[..|a + b| - 1] == a + b';
      assert (a + b)[|a + b| - 1] == b[|b| - 1];
      ApplyAppend(m, a, b', key, merge);
    }
  }
}
